=== FILE: README.md ===
# UAO cultural-events directory, modelled in Dafny

This project models the client-side core of a browser app that lists the
cultural events of a university. The app is written in TypeScript and React.
The model covers:

- four zustand stores: the rewards ledger, the personal calendar, the
  favourites list and the search filters;
- the zod schema check that the fetched catalogue goes through;
- the derived views the pages compute from the catalogue and the stores:
  - the events page filter pipeline, its heading and its banner;
  - the home page's sections, featured strip and media block;
  - the favourites and profile lists;
  - the search page's category counts and its buttons;
  - the hero carousel;
  - the two month-grid calendars;
  - the detail page's add, buy and share actions.

Each store method and each view is a pure function from inputs to a new
state or a rendered value. Timers, randomness, the network and browser
platform calls become parameters or explicit steps.

Modules, one per source file, plus shared helpers:

- `Options`, `Seqs` and `Text` are shared helpers. They provide the optional
  value, JavaScript's `filter`/`slice`/add-or-remove toggle, and the string
  operations the pages use (`toLowerCase`, `includes`, `replace`,
  `split(...).pop()`, `split(...)[0]`).
- `Dates` covers the part of `Date` the calendars need: proleptic Gregorian
  day numbers, `new Date(y, m, d)` with month and day overflow, `getDay`,
  and the inverse that `getFullYear`/`getMonth`/`getDate` compute.
- `Rewards`, `CalendarStore`, `FavoritesStore` and `FiltersStore` model the stores.
- `Catalog` models `EventSchema` and `fetchEvents`.
- `Eventos`, `Home`, `Media`, `Detalle`, `Filtros` and `Favoritos` model the
  pages. `Favoritos` covers both the favourites page and the profile page.
- `Hero`, `MonthCalendar` and `HorizontalCalendar` model the components.

Some behaviour of the code is easy to misread, and the model keeps it as it is:

- Catalogue validation is all or nothing. One invalid record empties the whole list; records are not dropped one at a time.
- The rewards store has no persistence.
- The initial reward points (255) exceed the sum of the initial history (105).
- Favourites and filters are lists, not sets. `setCategories` keeps repetitions.
- The search page's "Aplicar filtros" toggles the checked days rather than setting them.
- The profile's stat boxes are constants of the profile store.

## Model

| member | source | states |
|---|---|---|
| Rewards.AddPoints | src/store/rewards.ts:23 | points rise by the amount; exactly one points entry is prepended; cash and shared events unchanged; ledger drift kept |
| Rewards.AddCash | src/store/rewards.ts:24 | cash rises by the amount; one cash entry is prepended; points and shared events unchanged; drift kept |
| Rewards.PurchaseWithPoints | src/store/rewards.ts:25-35 | succeeds iff points ≥ cost; on success deducts the cost and prepends a purchase entry of −cost labelled "Entrada comprada: " + name; on failure the state is unchanged; a non-negative balance stays non-negative |
| Rewards.CanEarnPointsForShare | src/store/rewards.ts:36-39 | true exactly when the event is not yet recorded as shared, so that marking it would add something |
| Rewards.MarkEventAsShared | src/store/rewards.ts:40-44 | adds the id to the shared set only; afterwards the event can no longer earn share points |
| Rewards.MarkIdempotent | src/store/rewards.ts:40-44 | marking twice equals marking once |
| Rewards.InitialDrift | src/store/rewards.ts:16-22 | the initial points exceed their history by 150; the initial cash exceeds its history by 50000 |
| Rewards.LedgerInvariant | src/store/rewards.ts:23-44 | after any sequence of store calls, points minus the sum of points and purchase amounts is unchanged, likewise for cash; shared events never shrink |
| Rewards.LedgerFromInitial | src/store/rewards.ts:16-33 | from the initial state, points always equal the history's points-and-purchase sum plus 150 |
| Rewards.BalanceStaysNonNegative | src/store/rewards.ts:25-33 | with non-negative point awards, no sequence of calls takes a non-negative balance below zero |
| CalendarStore.IsInCalendar | src/store/calendar.ts:34-37 | true iff some entry has the id |
| CalendarStore.AddEvent | src/store/calendar.ts:24-29 | appends the event unchanged when its id is new, otherwise leaves the list; afterwards the id is in the calendar; unique ids preserved |
| CalendarStore.RemoveEvent | src/store/calendar.ts:30-33 | keeps exactly the entries with another id, in order; an absent id leaves the list unchanged; unique ids preserved |
| CalendarStore.AddIdempotent | src/store/calendar.ts:26 | adding twice equals adding once |
| CalendarStore.AddThenRemove | src/store/calendar.ts:24-33 | removing a just-added new id restores the original list |
| CalendarStore.IdsStayUnique | src/store/calendar.ts:26-32 | no sequence of add/remove/query calls ever stores two entries with one id |
| FavoritesStore.Load | src/store/favorites.ts:11-18 | nothing stored, empty text or a parse error all yield the empty list; otherwise the stored list |
| FavoritesStore.Init | src/store/favorites.ts:21 | the store starts with what `load` reads |
| FavoritesStore.IsFavorite | src/store/favorites.ts:29 | true exactly when toggling the id would take it out of the list |
| FavoritesStore.Toggle | src/store/favorites.ts:22-28 | removes every copy of a present id keeping every copy of the others in order, appends an absent one, and storage then holds the new list |
| FavoritesStore.ReloadAfterToggle | src/store/favorites.ts:11-26 | a reload after a toggle sees exactly the toggled list |
| FavoritesStore.ToggleTwice | src/store/favorites.ts:22-27 | toggling twice restores membership, and the exact list when the id was absent |
| FavoritesStore.ToggleKeepsNoDup | src/store/favorites.ts:24-25 | toggling keeps the list free of duplicates |
| FiltersStore.Init | src/store/filters.ts:15-17 | empty query, no categories, no days |
| FiltersStore.SetQuery | src/store/filters.ts:18 | replaces the query only |
| FiltersStore.SetCategories | src/store/filters.ts:19 | replaces the categories wholesale, repetitions included; nothing else changes |
| FiltersStore.ToggleCategory | src/store/filters.ts:20-25 | removes every copy of a present category keeping every copy of the others in order, appends an absent one; the other fields unchanged |
| FiltersStore.ToggleDay | src/store/filters.ts:26-29 | removes every copy of a present day keeping every copy of the others in order, appends an absent one; the other fields unchanged |
| FiltersStore.Reset | src/store/filters.ts:30 | empties query, categories and days |
| FiltersStore.ResetIdempotent | src/store/filters.ts:30 | resetting twice equals resetting once |
| FiltersStore.ToggleCategoryTwice | src/store/filters.ts:20-25 | two toggles restore membership, and the whole store when the category was absent |
| FiltersStore.ToggleDayTwice | src/store/filters.ts:26-29 | two toggles restore membership, and the whole store when the day was absent |
| FiltersStore.TogglesKeepNoDup | src/store/filters.ts:20-29 | both toggles keep both lists free of duplicates |
| Catalog.ParseCategory | src/services/events.ts:8 | accepts exactly the four enum spellings, and returns the category spelled so |
| Catalog.RequiredString | src/services/events.ts:6-10 | a required field is accepted iff the key is present with a string value |
| Catalog.OptionalKey | src/services/events.ts:11-17 | an absent optional key is accepted as missing; a present one is accepted iff its value is |
| Catalog.ParseRequired | src/services/events.ts:6-10 | the five required keys are accepted iff each holds a string and the category one of the enum spellings; the fields are the values under those keys |
| Catalog.ParseOptional | src/services/events.ts:11-17 | the seven optional keys are accepted iff each is absent or of its declared kind, the image a URL; each field is absent exactly when its key is |
| Catalog.ParseEvent | src/services/events.ts:5-18 | an element is accepted iff it conforms to the schema key by key (URL check abstract, numbers unchecked in sign); the record agrees with the element on every schema key |
| Catalog.AgreesDetermines | src/services/events.ts:5-18 | an object determines the record read from it: two records agreeing with the same object are equal |
| Catalog.RequiredOfAgreeing | src/services/events.ts:6-10 | an object that agrees with a record yields exactly the record's required fields |
| Catalog.OptionalOfAgreeing | src/services/events.ts:11-17 | an object that agrees with a record whose image is a URL yields exactly the record's optional fields |
| Catalog.AgreeingParses | src/services/events.ts:5-18 | converse of ParseEvent's contract: any object agreeing with a record (image a URL) is read as that record |
| Catalog.EncodeRoundTrip | src/services/events.ts:5-18 | a record written as its catalogue entry reads back as itself |
| Catalog.UndeclaredKeysIgnored | src/services/events.ts:5-18 | keys outside the schema neither affect validity nor reach the record |
| Catalog.ParseEach | src/services/events.ts:24 | an array schema accepts iff every element is accepted, and yields the parsed elements in order |
| Catalog.ParseAll | src/services/events.ts:24 | the array parses iff every element does, element for element |
| Catalog.FetchEvents | src/services/events.ts:22-30 | the result is the whole validated list or empty; empty as soon as one element is invalid, the body is no array or the request failed |
| Catalog.FetchRoundTrip | src/services/events.ts:24-29 | any list of valid records, repeated ids included, comes back unchanged |
| Detalle.FindById | src/pages/DetalleEvento.tsx:25 | the first record with the route's id, or none iff no record has it |
| Detalle.PageFor | src/pages/DetalleEvento.tsx:40 | the loading text shows iff no record has the id; otherwise a record with that id |
| Detalle.Snapshot | src/pages/DetalleEvento.tsx:51-58 | the calendar snapshot carries exactly id, title, date, place, category and picture of the record |
| Detalle.HandleAddToCalendar | src/pages/DetalleEvento.tsx:48-62 | afterwards the event is in the calendar; a new id appends the snapshot, a known one changes nothing; the confirmation shows either way |
| Detalle.HandlePurchase | src/pages/DetalleEvento.tsx:65-76 | without a truthy points price nothing happens; otherwise it buys iff the balance covers the price, with the purchase entry, and otherwise leaves the rewards and shows the shortfall notice |
| Detalle.ButtonMatchesPurchase | src/pages/DetalleEvento.tsx:275-281 | the buy button is enabled exactly when a click would buy |
| Detalle.HandleShare | src/pages/DetalleEvento.tsx:80-125 | a failed share changes nothing; a successful first share of the event adds 5 points and marks it; a repeated one changes nothing; the notice per channel and outcome |
| Detalle.SharePointsCountNewEvents | src/pages/DetalleEvento.tsx:90-124 | over any run of share attempts the points gained are 5 per newly marked event, and only attempted events get marked |
| Detalle.AtMostFivePerEvent | src/pages/DetalleEvento.tsx:94-97 | repeated shares of one event earn at most 5 points in total, none if it was already shared |
| Eventos.DayIndex | src/pages/Eventos.tsx:134-137 | a day name maps to a weekday 0..6 iff it is one of the seven Spanish names |
| Eventos.EventWeekday | src/pages/Eventos.tsx:140-141 | an event's weekday is in 0..6, and absent for an unparsable date |
| Eventos.AnyDayIs | src/pages/Eventos.tsx:142 | true iff some selected name maps to the weekday |
| Eventos.ByCategoriesIsFilter | src/pages/Eventos.tsx:116-120 | the category stage keeps exactly the events whose category is in the store list, or all when the list is empty |
| Eventos.ByQueryIsFilter | src/pages/Eventos.tsx:123-130 | the query stage keeps exactly the events whose lower-cased title, place or description contains the lower-cased query, or all when it is empty |
| Eventos.ByDaysIsFilter | src/pages/Eventos.tsx:133-144 | the day stage keeps exactly the events whose weekday is selected, or all when no day is |
| Eventos.UncappedIsOneFilter | src/pages/Eventos.tsx:102-145 | the staged pipeline equals one filter by the reference condition: the URL category alone, else the conjunction of the store stages |
| Eventos.Visible | src/pages/Eventos.tsx:102-151 | at most 12 events, the first 12 passing events, an order-preserving selection from the catalogue |
| Eventos.UrlCategoryOverridesStore | src/pages/Eventos.tsx:106-112 | with a URL category the store filters do not affect the result |
| Eventos.UnfilteredShowsFirstPage | src/pages/Eventos.tsx:103-148 | with no URL category and no active filter the page lists the first 12 catalogue events |
| Eventos.StoreCategoryIsCaseSensitive | src/pages/Eventos.tsx:116-120 | when every store category is written in lower case, no event passes the store filter, since the enum spellings start with a capital |
| Eventos.UrlCategoryIgnoresCase | src/pages/Eventos.tsx:109-111 | a URL category that is any letter-case spelling of a category name selects exactly the events of that category |
| Eventos.Capitalize | src/pages/Eventos.tsx:161 | the first character upper-cased as `toUpperCase` does, the rest unchanged; only a leading ß, which becomes "SS", changes the length |
| Eventos.GetTitle | src/pages/Eventos.tsx:158-169 | carries the shown count; the category heading iff a URL category, the filtered heading iff store filters without one, otherwise all events |
| Eventos.BannerCondition | src/pages/Eventos.tsx:198 | the "first 12" notice shows iff at least 12 events pass and the catalogue has more than 12 |
| Eventos.GoBack | src/pages/Eventos.tsx:178-181 | after "Volver al Inicio" no filter is active and the button is gone |
| Eventos.GoBackShowsAll | src/pages/Eventos.tsx:174-181 | with the store reset and no URL category, a later visit to the events page lists the first 12 events under the all-events heading |
| Home.NormalizeSeparatesCategories | src/pages/Home.tsx:326 | normalising keeps the four category names distinct |
| Home.SectionOfCategory | src/pages/Home.tsx:327 | a section holds exactly the catalogue events of its category |
| Home.EveryEventInOneSection | src/pages/Home.tsx:341-344 | every event is in its own category's section and in no other |
| Home.Featured | src/pages/Home.tsx:330-338 | the first three qualifying events in catalogue order, or all of them when fewer qualify; each is dated within the closed week from now and is free or a concert |
| Home.FeaturedIffEarlyQualifying | src/pages/Home.tsx:333-338 | an event is featured exactly when it qualifies at a catalogue position preceded by fewer than three qualifying events |
| Home.FeaturedAreFirstQualifying | src/pages/Home.tsx:333-338 | with at most three qualifying events, every one of them is featured |
| Home.UnpricedNonConcertNotFeatured | src/pages/Home.tsx:336 | a missing price does not count as free |
| Home.AllSections | src/pages/Home.tsx:341-344 | one section per listed category, in the listed order, each titled and holding that category's events |
| Home.SectionBlocks | src/pages/Home.tsx:280-284 | the listed categories' sections that have events, in the listed order, and nothing else |
| Home.SectionShownIff | src/pages/Home.tsx:409-416 | a category's section is shown exactly when the category is listed and has events |
| Home.InAllSections | src/pages/Home.tsx:409-416 | a category's section is among all sections exactly when the category is listed |
| Home.AllRendered | src/pages/Home.tsx:409-416 | when every listed category has events, every section is shown |
| Home.Strips | src/pages/Home.tsx:354-406 | the hero, then the featured strip iff it has events, then the recommended strip iff it has events, and no other block |
| Home.FullLayout | src/pages/Home.tsx:353-416 | under "Todo" exactly the hero, the featured strip iff some event is featured, the recommended strip iff the catalogue is non-empty, in that order, then the Conciertos, Cultura, Deportes and Académico sections that have events, in that order |
| Home.CategoryLayout | src/pages/Home.tsx:418-429 | under a category chip at most one block, that category's section, and none iff the category has no events |
| Home.Layout | src/pages/Home.tsx:349-429 | the hero shows iff the chip is "Todo", and then the page is the full page; the strips only then and only when non-empty; any other chip shows only its own section, and nothing exactly when that category has no events |
| Home.FeaturedCards | src/pages/Home.tsx:212-233 | the first 2 (phone) or 4 (wider) featured events, ranked 1, 2, … in order |
| Home.DesktopShowsAllFeatured | src/pages/Home.tsx:228 | a wide screen shows every featured event |
| Home.RecommendedCards | src/pages/Home.tsx:253-273 | a prefix of the catalogue of 3 (phone) or 5 events, fewer only when the catalogue is shorter |
| Media.EmbedBase | src/pages/Home.tsx:107 | a link with neither a short host nor a watch query is left as it is |
| Media.PlaylistAsWritten | src/pages/Home.tsx:107 | the playlist parameter contains neither `/` nor `?` |
| Media.EmbedSrcAsWritten | src/pages/Home.tsx:107 | the page's player source: the rewritten link, then the four player parameters, then a playlist value free of `/` and `?` |
| Media.ChooseMedia | src/pages/Home.tsx:101-175 | a player with the page's embed source iff the type is video with a non-empty YouTube link; a plain video for other video links; else an audio player iff the type is audio with a non-empty audio; else the picture iff there is a non-empty image; else the "Sin multimedia" placeholder |
| Media.ChooseMediaCorrected | src/pages/Home.tsx:101-115 | the same choice, with the video id as the player's playlist; every other block unchanged |
| Media.ShortLinkEmbed | src/pages/Home.tsx:107 | a short link is rewritten to the embed host, keeping the rest |
| Media.ShortLinkSameMedia | src/pages/Home.tsx:101-115 | for a short link the corrected choice is the page's |
| Media.WatchLinkPlaylistAsWritten | src/pages/Home.tsx:107 | for a watch link the page's playlist parameter is the word "watch" |
| Media.WatchLinkPlaylist | src/pages/DetalleEvento.tsx:140 | the corrected playlist of a watch link is its video id |
| Media.ShortLinkPlaylist | src/pages/Home.tsx:107 | for a short link both versions give the video id |
| Media.RecordMedia | src/pages/Home.tsx:101-175 | a validated record, lacking the media fields, shows its picture iff it has a non-empty image, and otherwise the placeholder |
| Favoritos.FavoriteEvents | src/pages/Favoritos.tsx:69 | exactly the catalogue events whose id is a favourite, in catalogue order, a repeated record as often as in the catalogue |
| Favoritos.ViewFavorites | src/pages/Favoritos.tsx:69-81 | the heading count is the number of cards; the empty message shows iff no catalogue event is a favourite; the cards are the favourite catalogue events in catalogue order, repeats included |
| Favoritos.UnknownFavoritesNotShown | src/pages/Favoritos.tsx:69 | a favourite id with no catalogue record never yields a card |
| Favoritos.BeforeFetchShowsEmpty | src/pages/Favoritos.tsx:63-69 | before the catalogue arrives the page shows the empty message |
| Favoritos.HeartRemovesCard | src/pages/Favoritos.tsx:71-73 | the heart removes exactly that event's cards and keeps the rest in order |
| Favoritos.DemoProfile | src/store/profile.ts:14-21 | the stat values 12, 8, 5 and the four interests |
| Favoritos.SetInterests | src/store/profile.ts:22 | `setInterests` changes nothing |
| Favoritos.ViewProfile | src/pages/Perfil.tsx:13-77 | the three stat boxes show the profile's values; the list is the favourite catalogue events in catalogue order, repeats included; the message shows iff the list is empty |
| Favoritos.ProfileListsFavoritesPage | src/pages/Perfil.tsx:13 | the profile lists the same events as the favourites page, with the same empty condition |
| Favoritos.StatsIgnoreFavorites | src/pages/Perfil.tsx:22-24 | the stat boxes do not depend on the favourites; the favourites box always shows 8 |
| Filtros.Bump | src/pages/Filtros.tsx:31 | increments one name's count, appending the name when new; total rises by one |
| Filtros.TallyCounts | src/pages/Filtros.tsx:29-33 | each count is the number of occurrences, and the counts sum to the number of events |
| Filtros.TallyNames | src/pages/Filtros.tsx:29-33 | each distinct category is listed exactly once |
| Filtros.TallyOrder | src/pages/Filtros.tsx:32 | categories are listed in order of first appearance |
| Filtros.CategoryCounts | src/pages/Filtros.tsx:29-33 | the counting loop: distinct names, exactly the categories present, in first-appearance order, with their counts, summing to the catalogue size |
| Filtros.SelectedDays | src/pages/Filtros.tsx:75 | the checked day names, each once, in Lunes…Domingo order |
| Filtros.ToggleAll | src/pages/Filtros.tsx:76 | toggling each listed day once yields the symmetric difference of the old days and the list; query and categories untouched |
| Filtros.ToggleAllStep | src/pages/Filtros.tsx:76 | toggling one more day toggles it in the store the earlier days produced |
| Filtros.SelectedToggled | src/pages/Filtros.tsx:75-76 | toggling the selected days flips exactly the checked weekday names |
| Filtros.Apply | src/pages/Filtros.tsx:73-78 | the store query becomes the local query; categories untouched; days become the symmetric difference with the checked days |
| Filtros.ApplyTwiceRestoresDays | src/pages/Filtros.tsx:75-76 | applying the same checkboxes twice restores the store's days |
| Filtros.Clear | src/pages/Filtros.tsx:82 | empties the search box, unchecks every day and leaves no filter active |
| Filtros.ChipClickFlips | src/pages/Filtros.tsx:51 | a chip click flips that chip's fill and no other's |
| Filtros.ResultsCount | src/pages/Filtros.tsx:83 | the results figure is the catalogue size, whatever the filters |
| Hero.Important | src/components/HeroSection.tsx:62-68 | exactly the events whose title contains one of the five headliners, in catalogue order, each as often as in the catalogue |
| Hero.Mount | src/components/HeroSection.tsx:7-12 | no events, index 0, no transition |
| Hero.Loaded | src/components/HeroSection.tsx:60-70 | stores the important events, indices and transition untouched |
| Hero.Rotate | src/components/HeroSection.tsx:86 | the next index is below n: one more, or 0 after the last |
| Hero.Tick | src/components/HeroSection.tsx:84-88 | with no events nothing happens; otherwise the next index is chosen and the transition starts |
| Hero.Midpoint | src/components/HeroSection.tsx:91-94 | the chosen index becomes current and the drawn gradient is kept |
| Hero.Settle | src/components/HeroSection.tsx:96-98 | the transition ends, nothing else changes |
| Hero.CycleAdvances | src/components/HeroSection.tsx:85-98 | a full rotation keeps the index in range, advances it by one with wrap-around, and ends settled |
| Hero.Rotations | src/components/HeroSection.tsx:86 | repeated rotation stays in range |
| Hero.RotationsWrap | src/components/HeroSection.tsx:86 | within one round, k rotations move the index k places, wrapping once |
| Hero.FullCircle | src/components/HeroSection.tsx:86 | n rotations return to the start |
| Hero.EveryEventShown | src/components/HeroSection.tsx:86-92 | every important event becomes current within n rotations |
| Hero.Render | src/components/HeroSection.tsx:113-133 | the placeholder iff there are no events; otherwise the current event |
| Hero.VerDetalles | src/components/HeroSection.tsx:106-111 | navigates to "/eventos/" + id iff the current event exists |
| Hero.DetailsOfShownEvent | src/components/HeroSection.tsx:106-133 | the button leads to the event on screen |
| Dates.NormalizeMonth | src/components/Calendar.tsx:61-65 | a month index out of 0..11 rolls into the neighbouring years, keeping the month count |
| Dates.MonthLength | src/components/Calendar.tsx:47-48 | month lengths are 28 to 31 days, for any month index |
| Dates.CivilOf | src/components/HorizontalCalendar.tsx:27-28 | the date of a day number is valid and numbers back to that day |
| Dates.CivilOfDayNumber | src/components/Calendar.tsx:106 | reading a valid date's day number back gives the date |
| Dates.DayNumberInjective | src/components/Calendar.tsx:108-109 | distinct valid dates have distinct day numbers, so comparing date strings compares dates |
| Dates.NextMonthStart | src/components/Calendar.tsx:47 | day 1 of the next month follows the last day of this one |
| Dates.DateDaySpill | src/components/HorizontalCalendar.tsx:81 | a day past the end of a month is the corresponding day of the next month, as the `Date` constructor rolls it over |
| Dates.DateDayCivil | src/components/Calendar.tsx:106 | a day inside the month is constructed as that very date |
| Dates.LastDateIsMonthLength | src/components/Calendar.tsx:47-48 | day 0 of the next month is the last day of this one |
| MonthCalendar.EventsOn | src/components/Calendar.tsx:52-57 | exactly the calendar entries dated on the given local day, in store order, each as often as in the store |
| MonthCalendar.AddedEntryShowsOnItsDay | src/components/Calendar.tsx:52-57 | a newly added entry shows on the day of its date and on no other |
| MonthCalendar.MonthOfFirst | src/components/Calendar.tsx:42-46 | the year and month of day 1 of a possibly overflowing month index |
| MonthCalendar.Open | src/components/Calendar.tsx:32-43 | the first render shows today's month, nothing selected |
| MonthCalendar.PreviousMonth | src/components/Calendar.tsx:60-62 | moves exactly one month back, rolling the year, selection kept |
| MonthCalendar.NextMonth | src/components/Calendar.tsx:64-66 | moves exactly one month on, rolling the year, selection kept |
| MonthCalendar.NextUndoesPrevious | src/components/Calendar.tsx:60-66 | the two buttons undo each other |
| MonthCalendar.GoToToday | src/components/Calendar.tsx:68-71 | shows today's month with today selected |
| MonthCalendar.ClickDay | src/components/Calendar.tsx:74-78 | selects that day of the displayed month, month unchanged |
| MonthCalendar.StartingWeekday | src/components/Calendar.tsx:46-49 | the weekday of day 1, in 0..6 |
| MonthCalendar.RenderDay | src/components/Calendar.tsx:105-169 | the badge shows iff the day has entries and carries their number; today, selected and weekend (Sunday or Saturday) each exactly when they hold |
| MonthCalendar.Grid | src/components/Calendar.tsx:81-106 | starting-weekday leading cells counting up to the previous month's last day, then days 1…length |
| MonthCalendar.Cells | src/components/Calendar.tsx:85-105 | the leading cells count up to the given last day and end just before the first day cell; the day cells run 1…n |
| MonthCalendar.GridFitsSixRows | src/components/Calendar.tsx:81-106 | the grid has at most 37 cells, so it fits in six rows of seven |
| MonthCalendar.GridShowsItsDates | src/components/Calendar.tsx:85-106 | every cell is numbered with the day of the month of its own grid position, and is in the displayed month iff it is a day cell |
| MonthCalendar.PositionInPreviousMonth | src/components/Calendar.tsx:86 | a leading position is that numbered day of the previous month |
| MonthCalendar.WeekendIsEdgeColumn | src/components/Calendar.tsx:110 | a day cell is a weekend iff it stands in the first or last column |
| MonthCalendar.DayColumn | src/components/Calendar.tsx:105-110 | the day cell in grid position i falls on weekday i mod 7, so the columns are the weekdays |
| MonthCalendar.SelectedPanel | src/components/Calendar.tsx:244-280 | no panel without a selection; the entries of the selected day when there are some, otherwise the no-events message |
| MonthCalendar.PanelMatchesBadge | src/components/Calendar.tsx:154-179 | clicking a badged day lists as many entries as the badge counts; an unbadged day gets the no-events message |
| HorizontalCalendar.Assemble | src/components/HorizontalCalendar.tsx:37-66 | 42 entries: leading ones counting up to the given last day, the month's days 1…n, and trailing ones from 1, with their month flags |
| HorizontalCalendar.GridAsWritten | src/components/HorizontalCalendar.tsx:40-66 | the grid as built, its leading numbers counting up to the length of the month two before |
| HorizontalCalendar.Grid | src/components/HorizontalCalendar.tsx:31-66 | the grid with the leading numbers counting up to the previous month's last day |
| HorizontalCalendar.GridIsConsecutive | src/components/HorizontalCalendar.tsx:41-66 | the 42 entries are the consecutive days from the Sunday opening the grid; in the month iff in the middle range (corrected grid) |
| HorizontalCalendar.GridShowsItsDates | src/components/HorizontalCalendar.tsx:41-66 | in the corrected grid every entry shows the day of the month of its own date, flagged current iff its date is in the displayed month |
| HorizontalCalendar.LeadingEntryDate | src/components/HorizontalCalendar.tsx:41-47 | a leading entry is that day of the previous month (corrected grid) |
| HorizontalCalendar.CurrentEntryDate | src/components/HorizontalCalendar.tsx:49-56 | an entry of the displayed month is that day of the month and is flagged current |
| HorizontalCalendar.TrailingEntryDate | src/components/HorizontalCalendar.tsx:59-66 | a trailing entry is that day of the next month |
| HorizontalCalendar.TrailingPosition | src/components/HorizontalCalendar.tsx:59-66 | a trailing entry is dated the day of its grid position |
| HorizontalCalendar.AsWrittenLeadingOffset | src/components/HorizontalCalendar.tsx:40-46 | the built leading numbers differ from the corrected ones by the two month lengths' difference; other entries agree |
| HorizontalCalendar.March2025AsWritten | src/components/HorizontalCalendar.tsx:40-46 | for March 2025 the built grid labels 31 where 28 is meant, and two entries carry the same date |
| HorizontalCalendar.Displayed | src/components/HorizontalCalendar.tsx:27-66 | the grid shown for the current date has 42 entries; from the first day of the month on it equals the corrected grid, and each leading number is the corrected one plus the length of the month two before minus that of the previous month |
| HorizontalCalendar.AsWrittenAgrees | src/components/HorizontalCalendar.tsx:40-66 | the same relation between the built and corrected grids, for every entry at once |
| HorizontalCalendar.DisplayedCorrected | src/components/HorizontalCalendar.tsx:27-66 | the corrected grid of the current date's month: 42 entries, flagged current exactly in the middle run of the month's length |
| HorizontalCalendar.GridMarksMonth | src/components/HorizontalCalendar.tsx:49-56 | the corrected grid flags an entry current exactly when it lies in the middle run |
| HorizontalCalendar.ExactlyOneSelected | src/components/HorizontalCalendar.tsx:95-97 | in the corrected grid the selected entry is exactly the one of the current date |
| HorizontalCalendar.AtMostOneToday | src/components/HorizontalCalendar.tsx:91-93 | in the corrected grid at most one entry is today |
| HorizontalCalendar.SelectedAsWritten | src/components/HorizontalCalendar.tsx:95-97 | in the displayed grid, from the first day of the month on, an entry is selected exactly when it is the current date's |
| HorizontalCalendar.March2025TwoSelected | src/components/HorizontalCalendar.tsx:40-46 | on 1 March 2025 the displayed grid selects entries 3 and 6, and marks both as today when that is today |
| HorizontalCalendar.NavigateAsWritten | src/components/HorizontalCalendar.tsx:75-85 | when the target month has the current day, the built navigation equals the corrected one |
| HorizontalCalendar.NextSkipsShortMonth | src/components/HorizontalCalendar.tsx:75-85 | from a day the next month lacks, "next" as built lands two months ahead |
| HorizontalCalendar.AsWrittenKeepsDay | src/components/HorizontalCalendar.tsx:75-85 | "next" and "previous" as built keep the day of the month and move the month index by one, letting the constructor roll over |
| HorizontalCalendar.January31SkipsFebruary | src/components/HorizontalCalendar.tsx:81 | from 31 January, "next" as built shows March |
| HorizontalCalendar.Navigate | src/components/HorizontalCalendar.tsx:75-85 | the corrected navigation moves exactly one month, keeping the day or clamping it to the month length |
| HorizontalCalendar.GoToToday | src/components/HorizontalCalendar.tsx:87-89 | afterwards an entry is selected iff it is today |
| Text.Lower | src/pages/Eventos.tsx:110 | lower-cases each character, keeping the length |
| Text.Upper | src/pages/Eventos.tsx:161 | one character for every Latin-1 character but ß, which gives "SS"; a changed letter other than µ and ÿ lower-cases back to itself |
| Text.ReplaceFirst | src/pages/Home.tsx:107 | replaces only the first occurrence, and returns the string unchanged when the pattern is absent |
| Text.AfterLast | src/pages/Home.tsx:107 | the suffix after the last separator, or the whole string, with no separator in it |
| Text.BeforeFirst | src/pages/Home.tsx:107 | the prefix before the first separator, or the whole string, with no separator in it |
| Seqs.Filter | src/store/calendar.ts:32 | at most as long, an order-preserving selection that keeps every copy of each element satisfying the predicate and no copy of any other |
| Seqs.FilterPosition | src/store/calendar.ts:32 | a kept element lands at the index that counts the kept elements before it |
| Seqs.FilterSource | src/store/calendar.ts:32 | every element of the result comes from a kept position with exactly its index's number of kept elements before it |
| Seqs.Take | src/pages/Eventos.tsx:148 | a prefix of length min(n, length) |
| Seqs.Toggle | src/store/favorites.ts:24-25 | flips membership of the one value; when it was present, every copy of every other value is kept |
| Seqs.ToggleTwiceRestores | src/store/filters.ts:20-29 | toggling an absent value twice restores the exact list |
| Seqs.ToggleKeepsNoDup | src/store/favorites.ts:24-25 | toggling keeps a duplicate-free list duplicate-free |

## Left out

- The HTTP request of `fetchEvents`. Its outcome is the `Response` parameter, and a rejected request leaves the pages with their initial empty list.
- The `persist` middleware of the calendar store and its storage envelope. The in-memory list is the state.
- Browser storage of favourites is reduced to the `slot` field, already classified by what `JSON.parse` yields. Stored JSON that is not a list of strings is not modelled.
- `crypto.randomUUID`. It is the `freshId` parameter.
- `navigator.share` and `navigator.clipboard`. Their presence and outcome are the `ShareChannel` parameter.
- `new Date(fecha)` string parsing. It is the `parse` parameter.
- Time zones and daylight saving. Instants are local wall-clock milliseconds, and `toDateString` equality is equality of local day numbers.
- zod's `.url()` check. It is the `isUrl` parameter.
- Floating-point rounding. Amounts and prices are exact reals.
- Case mapping and NFD normalisation outside Basic Latin and Latin-1. `Text.Lower` maps A–Z and À–Þ except × as `toLowerCase` does, and `Text.Upper` maps Latin-1 as `toUpperCase` does, including ß to "SS", µ to the Greek capital mu and ÿ to Ÿ; letters of other scripts are left unchanged. The category and day names use only these letters. The query stage and the URL-category comparison (src/pages/Eventos.tsx:110, 124-128) lower-case free text, so there the model matches as the page does only on Latin-1 text: "Ł" and "ł" match in the page and not in the model.
- The hero's timers (the five-second interval and the two one-second timeouts). They become the `Tick`, `Midpoint` and `Settle` steps.
- The hero's 200 ms reveal timeout, its gradient tables, and the random draw. The draw is the `roll` parameter.
- Rendering and styling, including the phone and desktop layouts beyond the card counts.
- The image aspect-ratio detection on the detail page: it needs image loading and floats.
- The `onEventClick` and `onDateClick` callbacks of the calendars.
- Navigation chrome with no state logic: TopBar, NavBar, SideNav, DesktopSideNav, MainLayout, Footer, Acerca, AppRoutes, App and the theme.
- The Calendario and Puntos pages. They only render store contents.
- FavoritesStore.Toggle: always updates the list. In the source the `localStorage.setItem` call sits inside the state updater, so a write that throws (storage full or disabled) aborts the toggle and leaves the ids unchanged. The model has no failing write.
- HorizontalCalendar.GridIsConsecutive: proved of the corrected grid only. The grid the component builds is not consecutive in its leading entries; `HorizontalCalendar.Displayed` and `HorizontalCalendar.AsWrittenAgrees` state how it differs.
- HorizontalCalendar.LeadingEntryDate: proved of the corrected grid only. In the built grid the leading numbers are shifted, as the first finding below records.
- HorizontalCalendar.ExactlyOneSelected: proved of the corrected grid only. For the built grid `HorizontalCalendar.SelectedAsWritten` covers the entries from the first day of the month on, and `HorizontalCalendar.March2025TwoSelected` shows two selected entries.
- HorizontalCalendar.AtMostOneToday: proved of the corrected grid only. `HorizontalCalendar.March2025TwoSelected` shows two entries marked today in the built grid.
- Hero.Render: requires the current index to lie inside the list. The component reads a missing event's title there and fails, which the model does not represent.

## Findings

| source | as written | input that shows it | evidently intended | confidence | as-written member | corrected member |
|---|---|---|---|---|---|---|
| src/components/HorizontalCalendar.tsx:40-46 | the leading cells count up to `new Date(year, month - 1, 0)`, the last day of the month two before, and are dated with those numbers in the previous month | March 2025: the leading cells read 26…31 instead of 23…28, and the cell dated "29 February" is 1 March, the same date as the first day cell | leading cells count up to the previous month's last day, as `src/components/Calendar.tsx:86` does | high (not executed) | HorizontalCalendar.March2025AsWritten | HorizontalCalendar.GridShowsItsDates |
| src/pages/Home.tsx:107 | the `playlist` parameter is `video.split('/').pop().split('?')[0]` | `https://www.youtube.com/watch?v=abc` gives `playlist=watch` | the video id, so that `loop=1` replays the video | high (not executed) | Media.WatchLinkPlaylistAsWritten | Media.WatchLinkPlaylist |
| src/components/HorizontalCalendar.tsx:75-85 | `setMonth(getMonth() ± 1)` keeps the day of the month, so a day the target month lacks overflows | from 31 January, "next" shows March | the adjacent month | high (not executed) | HorizontalCalendar.January31SkipsFebruary | HorizontalCalendar.Navigate |

The playlist defect is the same on the detail page (`src/pages/DetalleEvento.tsx:140`). Validated catalogue records never reach it, because the schema strips `tipoMultimedia` and `video`. The corrected playlist is `Media.PlaylistId`, which `Media.EmbedSrc` and `Media.ChooseMediaCorrected` use; `Media.ChooseMedia` builds the player source as the pages do, with `Media.EmbedSrcAsWritten`.

The leading-cell defect also breaks the selection and today marks: on 1 March 2025 the built grid selects two entries and marks both as today (`HorizontalCalendar.March2025TwoSelected`). `HorizontalCalendar.Displayed` is the built grid; `HorizontalCalendar.DisplayedCorrected` is the intended one.

=== FILE: calendar_store.dfy ===
/** The personal calendar of `src/store/calendar.ts`: a list of event snapshots
    kept unique by id. The `persist` middleware that mirrors the list into
    browser storage is not modelled; the list itself is the state. */
module CalendarStore {
  import opened Options
  import Seqs

  /** The snapshot of a catalog event that the store keeps. */
  datatype CalendarEvent = CalendarEvent(
    id: string,
    titulo: string,
    fecha: string,
    lugar: string,
    categoria: string,
    imagen: Option<string>)

  /** No two entries share an id. */
  ghost predicate UniqueIds(events: seq<CalendarEvent>) {
    Seqs.Pairwise(events, (a: CalendarEvent, b: CalendarEvent) => a.id != b.id)
  }

  /** `isInCalendar(id)`, the `events.some(e => e.id === id)` scan. */
  function IsInCalendar(events: seq<CalendarEvent>, id: string): (r: bool)
    ensures r <==> exists i :: 0 <= i < |events| && events[i].id == id
    ensures r <==> exists e :: e in events && e.id == id
  {
    if |events| == 0 then false
    else events[0].id == id || IsInCalendar(events[1..], id)
  }

  /** `addEvent(event)`: appended unchanged unless an entry already has its id. */
  function AddEvent(events: seq<CalendarEvent>, event: CalendarEvent): (r: seq<CalendarEvent>)
    ensures (exists e :: e in events && e.id == event.id) ==> r == events
    ensures (forall e :: e in events ==> e.id != event.id) ==> r == events + [event]
    ensures IsInCalendar(r, event.id)
    ensures UniqueIds(events) ==> UniqueIds(r)
  {
    if IsInCalendar(events, event.id) then events
    else
      var r := events + [event];
      assert IsInCalendar(r, event.id) by {
        assert r[|events|].id == event.id;
      }
      assert UniqueIds(events) ==> UniqueIds(r) by {
        if UniqueIds(events) {
          forall i, j | 0 <= i < j < |r| ensures r[i].id != r[j].id {
            assert r[i] == events[i];
            if j < |events| {
              assert r[j] == events[j];
            } else {
              assert events[i] in events;
            }
          }
        }
      }
      r
  }

  /** `removeEvent(id)`: every entry with that id goes, the others keep their order. */
  function RemoveEvent(events: seq<CalendarEvent>, id: string): (r: seq<CalendarEvent>)
    ensures forall e :: e in r <==> e in events && e.id != id
    ensures Seqs.IsSubseq(r, events)
    ensures !IsInCalendar(r, id)
    ensures !IsInCalendar(events, id) ==> r == events
    ensures UniqueIds(events) ==> UniqueIds(r)
  {
    var keep := (e: CalendarEvent) => e.id != id;
    var r := Seqs.Filter(events, keep);
    assert UniqueIds(events) ==> UniqueIds(r) by {
      if UniqueIds(events) {
        Seqs.FilterKeepsPairwise(events, keep, (a: CalendarEvent, b: CalendarEvent) => a.id != b.id);
      }
    }
    assert !IsInCalendar(events, id) ==> r == events by {
      if !IsInCalendar(events, id) {
        Seqs.FilterKeepsAll(events, keep);
      }
    }
    r
  }

  /** Adding an event that is already there changes nothing, so adding twice is adding once. */
  lemma AddIdempotent(events: seq<CalendarEvent>, event: CalendarEvent)
    ensures AddEvent(AddEvent(events, event), event) == AddEvent(events, event)
  {
    var once := AddEvent(events, event);
    var k :| 0 <= k < |once| && once[k].id == event.id;
    assert once[k] in once;
  }

  /** Removing what was just added restores the list, when the id was new. */
  lemma {:induction false} AddThenRemove(events: seq<CalendarEvent>, event: CalendarEvent)
    requires !IsInCalendar(events, event.id)
    ensures RemoveEvent(AddEvent(events, event), event.id) == events
  {
    var keep := (e: CalendarEvent) => e.id != event.id;
    Seqs.FilterAppend(events, [event], keep);
    Seqs.FilterKeepsAll(events, keep);
    assert Seqs.Filter([event], keep) == [];
  }

  /** One store call. */
  datatype Call = Add(event: CalendarEvent) | Remove(id: string) | Query(id: string)

  function Step(events: seq<CalendarEvent>, c: Call): seq<CalendarEvent> {
    match c
    case Add(e) => AddEvent(events, e)
    case Remove(id) => RemoveEvent(events, id)
    case Query(_) => events
  }

  function Run(events: seq<CalendarEvent>, calls: seq<Call>): seq<CalendarEvent>
    decreases |calls|
  {
    if |calls| == 0 then events else Run(Step(events, calls[0]), calls[1..])
  }

  /** From any list without repeated ids, the initial empty one included, no sequence of calls ever stores two entries with one id. */
  lemma {:induction false} IdsStayUnique(events: seq<CalendarEvent>, calls: seq<Call>)
    requires UniqueIds(events)
    ensures UniqueIds(Run(events, calls))
    decreases |calls|
  {
    if |calls| > 0 {
      IdsStayUnique(Step(events, calls[0]), calls[1..]);
    }
  }
}

=== FILE: catalog.dfy ===
/** The event catalogue of `src/services/events.ts`: the zod `EventSchema`
    applied to the fetched JSON document, all or nothing. The HTTP request is
    not modelled; its outcome is the `Response` parameter. Whether a string is
    a URL (zod's `.url()`, which defers to the URL parser) is the parameter
    `isUrl`. */
module Catalog {
  import opened Options

  /** A value as `JSON.parse` returns it; an object keeps the last of duplicate keys. */
  datatype Json =
    | JNull
    | JBool(b: bool)
    | JNumber(n: real)
    | JString(s: string)
    | JArray(items: seq<Json>)
    | JObject(fields: map<string, Json>)

  datatype Category = Concierto | Cultura | Deportivo | Academico

  /** The enum spelling of a category, as stored in `categoria`. */
  function CategoryName(c: Category): string {
    match c
    case Concierto => "CONCIERTO"
    case Cultura => "CULTURA"
    case Deportivo => "DEPORTIVO"
    case Academico => "ACADEMICO"
  }

  /** `z.enum(['CONCIERTO', 'CULTURA', 'DEPORTIVO', 'ACADEMICO'])`. */
  function ParseCategory(s: string): (r: Option<Category>)
    ensures r.Some? ==> CategoryName(r.value) == s
    ensures (exists c :: CategoryName(c) == s) ==> r.Some?
  {
    if s == "CONCIERTO" then Some(Concierto)
    else if s == "CULTURA" then Some(Cultura)
    else if s == "DEPORTIVO" then Some(Deportivo)
    else if s == "ACADEMICO" then Some(Academico)
    else None
  }

  lemma CategoryNameInjective(c1: Category, c2: Category)
    requires CategoryName(c1) == CategoryName(c2)
    ensures c1 == c2
  {
  }

  datatype Orientation = Horizontal | Vertical

  function OrientationName(o: Orientation): string {
    match o
    case Horizontal => "horizontal"
    case Vertical => "vertical"
  }

  lemma OrientationNameInjective(o1: Orientation, o2: Orientation)
    requires OrientationName(o1) == OrientationName(o2)
    ensures o1 == o2
  {
  }

  /** A validated catalogue record: exactly the keys `EventSchema` declares. */
  datatype EventRecord = EventRecord(
    id: string,
    titulo: string,
    categoria: Category,
    fecha: string,
    lugar: string,
    imagen: Option<string>,
    orientacion: Option<Orientation>,
    duracion: Option<string>,
    entrada: Option<string>,
    precioCOP: Option<real>,
    precioPts: Option<real>,
    descripcion: Option<string>)

  const DeclaredKeys: set<string> :=
    {"id", "titulo", "categoria", "fecha", "lugar", "imagen", "orientacion",
     "duracion", "entrada", "precioCOP", "precioPts", "descripcion"}

  /** `z.string()` on a required key. */
  function RequiredString(m: map<string, Json>, k: string): (r: Option<string>)
    ensures r.Some? <==> k in m && m[k].JString?
    ensures r.Some? ==> m[k] == JString(r.value)
  {
    if k in m && m[k].JString? then Some(m[k].s) else None
  }

  /** A `.optional()` key: `Some(None)` when the key is absent, `None` when the value is rejected. */
  function OptionalKey<T>(m: map<string, Json>, k: string, accept: Json -> Option<T>): (r: Option<Option<T>>)
    ensures k !in m ==> r == Some(None)
    ensures k in m ==> r.Some? == accept(m[k]).Some?
    ensures k in m && r.Some? ==> r.value == Some(accept(m[k]).value)
  {
    if k !in m then Some(None)
    else match accept(m[k])
      case None => None
      case Some(v) => Some(Some(v))
  }

  function AsString(j: Json): Option<string> {
    if j.JString? then Some(j.s) else None
  }

  function AsNumber(j: Json): Option<real> {
    if j.JNumber? then Some(j.n) else None
  }

  function AsUrl(isUrl: string -> bool): Json -> Option<string> {
    (j: Json) => if j.JString? && isUrl(j.s) then Some(j.s) else None
  }

  function AsOrientation(j: Json): Option<Orientation> {
    if j == JString("horizontal") then Some(Horizontal)
    else if j == JString("vertical") then Some(Vertical)
    else None
  }

  /** What `EventSchema` demands of one array element, key by key. */
  ghost predicate Conforms(j: Json, isUrl: string -> bool) {
    j.JObject? && RequiredConform(j.fields) && OptionalConform(j.fields, isUrl)
  }

  /** The five required keys: strings, the category one of the enum's spellings. */
  ghost predicate RequiredConform(m: map<string, Json>) {
    && ("id" in m && m["id"].JString?)
    && ("titulo" in m && m["titulo"].JString?)
    && ("categoria" in m && m["categoria"].JString? && ParseCategory(m["categoria"].s).Some?)
    && ("fecha" in m && m["fecha"].JString?)
    && ("lugar" in m && m["lugar"].JString?)
  }

  /** The seven optional keys: each either absent or of its declared kind. */
  ghost predicate OptionalConform(m: map<string, Json>, isUrl: string -> bool) {
    && ("imagen" in m ==> m["imagen"].JString? && isUrl(m["imagen"].s))
    && ("orientacion" in m ==> m["orientacion"] in {JString("horizontal"), JString("vertical")})
    && ("duracion" in m ==> m["duracion"].JString?)
    && ("entrada" in m ==> m["entrada"].JString?)
    && ("precioCOP" in m ==> m["precioCOP"].JNumber?)
    && ("precioPts" in m ==> m["precioPts"].JNumber?)
    && ("descripcion" in m ==> m["descripcion"].JString?)
  }

  /** The required fields of a record. */
  datatype RequiredFields = RequiredFields(id: string, titulo: string, categoria: Category, fecha: string, lugar: string)

  /** The optional fields of a record. */
  datatype OptionalFields = OptionalFields(
    imagen: Option<string>,
    orientacion: Option<Orientation>,
    duracion: Option<string>,
    entrada: Option<string>,
    precioCOP: Option<real>,
    precioPts: Option<real>,
    descripcion: Option<string>)

  /** The required half of `EventSchema`. */
  function ParseRequired(m: map<string, Json>): (r: Option<RequiredFields>)
    ensures r.Some? <==> RequiredConform(m)
    ensures r.Some? ==> && Lookup(m, "id") == Some(JString(r.value.id))
                        && Lookup(m, "titulo") == Some(JString(r.value.titulo))
                        && Lookup(m, "categoria") == Some(JString(CategoryName(r.value.categoria)))
                        && Lookup(m, "fecha") == Some(JString(r.value.fecha))
                        && Lookup(m, "lugar") == Some(JString(r.value.lugar))
  {
    var id := RequiredString(m, "id");
    var titulo := RequiredString(m, "titulo");
    var cat := RequiredString(m, "categoria");
    var categoria := if cat.Some? then ParseCategory(cat.value) else None;
    var fecha := RequiredString(m, "fecha");
    var lugar := RequiredString(m, "lugar");
    if id.Some? && titulo.Some? && categoria.Some? && fecha.Some? && lugar.Some?
    then Some(RequiredFields(id.value, titulo.value, categoria.value, fecha.value, lugar.value))
    else None
  }

  /** The JSON value an optional field is written as. */
  function Present<T>(v: Option<T>, write: T -> Json): Option<Json> {
    if v.Some? then Some(write(v.value)) else None
  }

  /** The optional half of `EventSchema`. */
  function ParseOptional(m: map<string, Json>, isUrl: string -> bool): (r: Option<OptionalFields>)
    ensures r.Some? <==> OptionalConform(m, isUrl)
    ensures r.Some? ==> && Lookup(m, "imagen") == Present(r.value.imagen, (s: string) => JString(s))
                        && Lookup(m, "orientacion") == Present(r.value.orientacion, (o: Orientation) => JString(OrientationName(o)))
                        && Lookup(m, "duracion") == Present(r.value.duracion, (s: string) => JString(s))
                        && Lookup(m, "entrada") == Present(r.value.entrada, (s: string) => JString(s))
                        && Lookup(m, "precioCOP") == Present(r.value.precioCOP, (x: real) => JNumber(x))
                        && Lookup(m, "precioPts") == Present(r.value.precioPts, (x: real) => JNumber(x))
                        && Lookup(m, "descripcion") == Present(r.value.descripcion, (s: string) => JString(s))
  {
    var imagen := OptionalKey(m, "imagen", AsUrl(isUrl));
    var orientacion := OptionalKey(m, "orientacion", AsOrientation);
    var duracion := OptionalKey(m, "duracion", AsString);
    var entrada := OptionalKey(m, "entrada", AsString);
    var precioCOP := OptionalKey(m, "precioCOP", AsNumber);
    var precioPts := OptionalKey(m, "precioPts", AsNumber);
    var descripcion := OptionalKey(m, "descripcion", AsString);
    if && imagen.Some? && orientacion.Some? && duracion.Some? && entrada.Some?
       && precioCOP.Some? && precioPts.Some? && descripcion.Some?
    then Some(OptionalFields(imagen.value, orientacion.value, duracion.value, entrada.value,
                       precioCOP.value, precioPts.value, descripcion.value))
    else None
  }

  /** The record made of its two halves. */
  function Assemble(q: RequiredFields, o: OptionalFields): EventRecord {
    EventRecord(q.id, q.titulo, q.categoria, q.fecha, q.lugar,
                o.imagen, o.orientacion, o.duracion, o.entrada, o.precioCOP, o.precioPts, o.descripcion)
  }

  /** `EventSchema.safeParse` of one element: the record, or `None` when the element is rejected. */
  function ParseEvent(j: Json, isUrl: string -> bool): (r: Option<EventRecord>)
    ensures r.Some? <==> Conforms(j, isUrl)
    ensures r.Some? ==> j.JObject? && Agrees(r.value, j.fields)
  {
    match j
    case JObject(m) =>
      var q := ParseRequired(m);
      var o := ParseOptional(m, isUrl);
      if q.Some? && o.Some? then
        var e := Assemble(q.value, o.value);
        assert Agrees(e, m);
        Some(e)
      else None
    case _ => None
  }

  /** The value under key `k`, `undefined` being `None`. */
  function Lookup(m: map<string, Json>, k: string): Option<Json> {
    if k in m then Some(m[k]) else None
  }

  /** The JSON value a record holds under schema key `k`, `None` for an absent optional field. */
  function FieldOf(e: EventRecord, k: string): Option<Json> {
    if k == "id" then Some(JString(e.id))
    else if k == "titulo" then Some(JString(e.titulo))
    else if k == "categoria" then Some(JString(CategoryName(e.categoria)))
    else if k == "fecha" then Some(JString(e.fecha))
    else if k == "lugar" then Some(JString(e.lugar))
    else if k == "imagen" then (if e.imagen.Some? then Some(JString(e.imagen.value)) else None)
    else if k == "orientacion" then (if e.orientacion.Some? then Some(JString(OrientationName(e.orientacion.value))) else None)
    else if k == "duracion" then (if e.duracion.Some? then Some(JString(e.duracion.value)) else None)
    else if k == "entrada" then (if e.entrada.Some? then Some(JString(e.entrada.value)) else None)
    else if k == "precioCOP" then (if e.precioCOP.Some? then Some(JNumber(e.precioCOP.value)) else None)
    else if k == "precioPts" then (if e.precioPts.Some? then Some(JNumber(e.precioPts.value)) else None)
    else if k == "descripcion" then (if e.descripcion.Some? then Some(JString(e.descripcion.value)) else None)
    else None
  }

  /** Every schema key of `m` holds what the record holds under it (keys outside the schema are not looked at). */
  ghost predicate Agrees(e: EventRecord, m: map<string, Json>) {
    && Lookup(m, "id") == FieldOf(e, "id")
    && Lookup(m, "titulo") == FieldOf(e, "titulo")
    && Lookup(m, "categoria") == FieldOf(e, "categoria")
    && Lookup(m, "fecha") == FieldOf(e, "fecha")
    && Lookup(m, "lugar") == FieldOf(e, "lugar")
    && Lookup(m, "imagen") == FieldOf(e, "imagen")
    && Lookup(m, "orientacion") == FieldOf(e, "orientacion")
    && Lookup(m, "duracion") == FieldOf(e, "duracion")
    && Lookup(m, "entrada") == FieldOf(e, "entrada")
    && Lookup(m, "precioCOP") == FieldOf(e, "precioCOP")
    && Lookup(m, "precioPts") == FieldOf(e, "precioPts")
    && Lookup(m, "descripcion") == FieldOf(e, "descripcion")
  }

  /** The catalogue entry a record is read from: every present field under its schema key, nothing else. */
  function Encode(e: EventRecord): Json {
    JObject(map k | k in DeclaredKeys && FieldOf(e, k).Some? :: FieldOf(e, k).value)
  }

  /** Two records that agree with the same object are the same record. */
  lemma AgreesDetermines(e1: EventRecord, e2: EventRecord, m: map<string, Json>)
    requires Agrees(e1, m) && Agrees(e2, m)
    ensures e1 == e2
  {
    assert CategoryName(e1.categoria) == CategoryName(e2.categoria);
    assert e1.orientacion.Some? ==> OrientationName(e1.orientacion.value) == OrientationName(e2.orientacion.value);
  }

  /** A record's catalogue entry agrees with it on every schema key. */
  lemma EncodeAgrees(e: EventRecord)
    ensures Agrees(e, Encode(e).fields)
  {
  }

  /** An object that agrees with a record on its required keys yields its required fields. */
  lemma RequiredOfAgreeing(e: EventRecord, m: map<string, Json>)
    requires Agrees(e, m)
    ensures ParseRequired(m) == Some(RequiredFields(e.id, e.titulo, e.categoria, e.fecha, e.lugar))
  {
    assert ParseCategory(CategoryName(e.categoria)) == Some(e.categoria);
    CategoryNameInjective(ParseRequired(m).value.categoria, e.categoria);
  }

  /** An object that agrees with a record on its optional keys yields its optional fields,
      provided the record's image passes the URL check. */
  lemma OptionalOfAgreeing(e: EventRecord, m: map<string, Json>, isUrl: string -> bool)
    requires Agrees(e, m)
    requires e.imagen.Some? ==> isUrl(e.imagen.value)
    ensures ParseOptional(m, isUrl)
            == Some(OptionalFields(e.imagen, e.orientacion, e.duracion, e.entrada, e.precioCOP, e.precioPts, e.descripcion))
  {
    var o := ParseOptional(m, isUrl);
    assert o.Some?;
    if e.orientacion.Some? {
      OrientationNameInjective(o.value.orientacion.value, e.orientacion.value);
    }
  }

  /** Conversely to `ParseEvent`'s contract: every object that agrees with a record
      whose image passes the URL check is read as that record. */
  lemma AgreeingParses(e: EventRecord, m: map<string, Json>, isUrl: string -> bool)
    requires Agrees(e, m)
    requires e.imagen.Some? ==> isUrl(e.imagen.value)
    ensures ParseEvent(JObject(m), isUrl) == Some(e)
  {
    RequiredOfAgreeing(e, m);
    OptionalOfAgreeing(e, m, isUrl);
  }

  /** A record read back from its own catalogue entry is the same record. */
  lemma EncodeRoundTrip(e: EventRecord, isUrl: string -> bool)
    requires e.imagen.Some? ==> isUrl(e.imagen.value)
    ensures ParseEvent(Encode(e), isUrl) == Some(e)
  {
    EncodeAgrees(e);
    AgreeingParses(e, Encode(e).fields, isUrl);
  }

  /** Keys the schema does not declare (`tipoMultimedia`, `video`, `audio`, ...) are stripped:
      they neither make an element valid or invalid nor reach the record. */
  lemma UndeclaredKeysIgnored(m: map<string, Json>, k: string, v: Json, isUrl: string -> bool)
    requires k !in DeclaredKeys
    ensures ParseEvent(JObject(m[k := v]), isUrl) == ParseEvent(JObject(m), isUrl)
  {
    var m' := m[k := v];
    assert forall d :: d in DeclaredKeys ==> Lookup(m', d) == Lookup(m, d);
    if ParseEvent(JObject(m), isUrl).Some? {
      AgreesDetermines(ParseEvent(JObject(m'), isUrl).value, ParseEvent(JObject(m), isUrl).value, m);
    }
  }

  /** The outcome of the HTTP request: a rejected promise, or the response body. */
  datatype Response = RequestFailed | Body(data: Json)

  /** `z.array(EventSchema).safeParse` on an array: every element parsed, or failure. */
  function ParseAll(items: seq<Json>, isUrl: string -> bool): (r: Option<seq<EventRecord>>)
    ensures r.Some? <==> forall i :: 0 <= i < |items| ==> ParseEvent(items[i], isUrl).Some?
    ensures r.Some? ==> |r.value| == |items|
    ensures r.Some? ==> forall i :: 0 <= i < |items| ==> ParseEvent(items[i], isUrl) == Some(r.value[i])
  {
    ParseEach(items, (j: Json) => ParseEvent(j, isUrl))
  }

  /** An array schema: every element parsed by `parse`, or failure at the first rejected one. */
  function ParseEach<A, B>(items: seq<A>, parse: A -> Option<B>): (r: Option<seq<B>>)
    ensures r.Some? <==> forall i :: 0 <= i < |items| ==> parse(items[i]).Some?
    ensures r.Some? ==> |r.value| == |items|
    ensures r.Some? ==> forall i :: 0 <= i < |items| ==> parse(items[i]) == Some(r.value[i])
    decreases |items|
  {
    if |items| == 0 then Some([])
    else
      var head := parse(items[0]);
      var tail := ParseEach(items[1..], parse);
      assert forall i :: 1 <= i < |items| ==> items[i] == items[1..][i - 1];
      if head.Some? && tail.Some? then Some([head.value] + tail.value)
      else None
  }

  predicate IsArrayBody(resp: Response) {
    resp.Body? && resp.data.JArray?
  }

  /** The event list the pages hold after `fetchEvents()`: the whole validated array,
      or `[]` when the body is not an array, any element is invalid, or the request
      failed (the pages then keep their initial empty list). */
  function FetchEvents(resp: Response, isUrl: string -> bool): (r: seq<EventRecord>)
    ensures r == [] || (IsArrayBody(resp) && |r| == |resp.data.items|)
    ensures IsArrayBody(resp) && (forall i :: 0 <= i < |resp.data.items| ==> Conforms(resp.data.items[i], isUrl)) ==>
              |r| == |resp.data.items| &&
              forall i :: 0 <= i < |r| ==> ParseEvent(resp.data.items[i], isUrl) == Some(r[i])
    ensures IsArrayBody(resp) && (exists i :: 0 <= i < |resp.data.items| && !Conforms(resp.data.items[i], isUrl)) ==>
              r == []
    ensures !IsArrayBody(resp) ==> r == []
  {
    if IsArrayBody(resp) then
      match ParseAll(resp.data.items, isUrl)
      case Some(records) => records
      case None => []
    else []
  }

  /** The catalogue entries of a list of records. */
  function EncodeAll(es: seq<EventRecord>): (r: seq<Json>)
    ensures |r| == |es| && forall i :: 0 <= i < |es| ==> r[i] == Encode(es[i])
  {
    seq(|es|, i requires 0 <= i < |es| => Encode(es[i]))
  }

  /** A catalogue written from valid records is read back as exactly those records,
      duplicates of an id included: the schema does not check ids for uniqueness. */
  lemma FetchRoundTrip(es: seq<EventRecord>, isUrl: string -> bool)
    requires forall e :: e in es && e.imagen.Some? ==> isUrl(e.imagen.value)
    ensures FetchEvents(Body(JArray(EncodeAll(es))), isUrl) == es
  {
    var items := EncodeAll(es);
    forall i | 0 <= i < |es| ensures ParseEvent(items[i], isUrl) == Some(es[i]) {
      assert es[i] in es;
      EncodeRoundTrip(es[i], isUrl);
    }
  }
}

=== FILE: dates.dfy ===
/** The slice of JavaScript's `Date` the calendar views use, on the proleptic
    Gregorian calendar. An instant is a wall-clock time in the browser's local
    time zone, in milliseconds since 1970-01-01 00:00 local; the time zone
    itself is not modelled. Months are numbered 0..11, as `getMonth` does. */
module Dates {

  const MsPerDay: int := 24 * 60 * 60 * 1000

  /** A local wall-clock time in milliseconds since 1970-01-01 00:00. */
  type Instant = int

  /** The number of the local calendar day of `t`, day 0 being 1970-01-01;
      two instants have equal `toDateString()` exactly when these agree. */
  function CivilDay(t: Instant): int {
    t / MsPerDay
  }

  /** `getDay()` of a day number: 0 = Sunday .. 6 = Saturday (1970-01-01 was a Thursday). */
  function WeekdayOfDay(day: int): (w: int)
    ensures 0 <= w < 7
  {
    (day + 4) % 7
  }

  function Weekday(t: Instant): (w: int)
    ensures 0 <= w < 7
  {
    WeekdayOfDay(CivilDay(t))
  }

  /** Midnight at the start of a day number. */
  function Midnight(day: int): (t: Instant)
    ensures CivilDay(t) == day
  {
    day * MsPerDay
  }

  predicate IsLeap(y: int) {
    y % 4 == 0 && (y % 100 != 0 || y % 400 == 0)
  }

  function DaysInYear(y: int): int {
    if IsLeap(y) then 366 else 365
  }

  /** The length of month `m` (0 = January) of year `y`. */
  function DaysInMonth(y: int, m: int): (n: int)
    requires 0 <= m < 12
    ensures 28 <= n <= 31
  {
    if m == 1 then (if IsLeap(y) then 29 else 28)
    else if m == 3 || m == 5 || m == 8 || m == 10 then 30
    else 31
  }

  /** The days of year `y` before the first of month `m`. */
  function DaysBeforeMonth(y: int, m: int): int
    requires 0 <= m <= 12
  {
    [0, 31, 59, 90, 120, 151, 181, 212, 243, 273, 304, 334, 365][m] + (if m >= 2 && IsLeap(y) then 1 else 0)
  }

  lemma MonthsAddUp(y: int, m: int)
    requires 0 <= m < 12
    ensures DaysBeforeMonth(y, m + 1) == DaysBeforeMonth(y, m) + DaysInMonth(y, m)
    ensures DaysBeforeMonth(y, 12) == DaysInYear(y)
  {
  }

  /** The number of leap years among 1..y (shifted by a constant for y <= 0). */
  function LeapsThrough(y: int): int {
    y / 4 - y / 100 + y / 400
  }

  /** The day number of January 1st of year `y`. */
  function DaysBeforeYear(y: int): int {
    365 * (y - 1970) + LeapsThrough(y - 1) - LeapsThrough(1969)
  }

  lemma CenturyIsLeapCandidate(y: int)
    ensures y % 100 == 0 ==> y % 4 == 0
    ensures y % 400 == 0 ==> y % 100 == 0
  {
    if y % 100 == 0 {
      var q := y / 100;
      assert y == 4 * (25 * q);
    }
    if y % 400 == 0 {
      var q := y / 400;
      assert y == 100 * (4 * q);
    }
  }

  /** The year length is the step between consecutive first-of-January day numbers. */
  lemma YearsAddUp(y: int)
    ensures DaysBeforeYear(y + 1) == DaysBeforeYear(y) + DaysInYear(y)
  {
    assert y / 4 - (y - 1) / 4 == if y % 4 == 0 then 1 else 0;
    assert y / 100 - (y - 1) / 100 == if y % 100 == 0 then 1 else 0;
    assert y / 400 - (y - 1) / 400 == if y % 400 == 0 then 1 else 0;
    CenturyIsLeapCandidate(y);
  }

  /** A calendar date as `getFullYear`, `getMonth`, `getDate` report it. */
  datatype CivilDate = CivilDate(year: int, month: int, day: int)

  predicate ValidDate(c: CivilDate) {
    0 <= c.month < 12 && 1 <= c.day <= DaysInMonth(c.year, c.month)
  }

  /** The day number of day `d` of month `m` of year `y`; a `d` outside the month
      runs over into the neighbouring months, as the `Date` constructor does. */
  function DayNumber(y: int, m: int, d: int): int
    requires 0 <= m < 12
  {
    DaysBeforeYear(y) + DaysBeforeMonth(y, m) + d - 1
  }

  datatype YearMonth = YearMonth(year: int, month: int)

  /** The year and month the `Date` constructor settles on for a month index
      outside 0..11 (month -1 is December of the year before). */
  function NormalizeMonth(y: int, m: int): (r: YearMonth)
    ensures 0 <= r.month < 12
    ensures 12 * r.year + r.month == 12 * y + m
    decreases if m < 0 then 12 - m else m
  {
    if m < 0 then NormalizeMonth(y - 1, m + 12)
    else if m >= 12 then NormalizeMonth(y + 1, m - 12)
    else YearMonth(y, m)
  }

  /** The day number of `new Date(y, m, d)` for any integers `m` and `d`. */
  function DateDay(y: int, m: int, d: int): int {
    var ym := NormalizeMonth(y, m);
    DayNumber(ym.year, ym.month, d)
  }

  /** The year containing a day number, searched from year `y`. */
  function YearContaining(z: int, y: int): (r: int)
    ensures DaysBeforeYear(r) <= z < DaysBeforeYear(r) + DaysInYear(r)
    decreases if z < DaysBeforeYear(y) then 1 else 0,
              if z < DaysBeforeYear(y) then DaysBeforeYear(y) - z else z - DaysBeforeYear(y)
  {
    YearsAddUp(y - 1);
    YearsAddUp(y);
    if z < DaysBeforeYear(y) then YearContaining(z, y - 1)
    else if z >= DaysBeforeYear(y) + DaysInYear(y) then YearContaining(z, y + 1)
    else y
  }

  /** The month of year `y` containing day `rem` of the year, searched from month `m`. */
  function MonthContaining(y: int, rem: int, m: int): (r: int)
    requires 0 <= m < 12
    requires DaysBeforeMonth(y, m) <= rem < DaysInYear(y)
    ensures m <= r < 12
    ensures DaysBeforeMonth(y, r) <= rem < DaysBeforeMonth(y, r + 1)
    decreases 12 - m
  {
    MonthsAddUp(y, m);
    if rem < DaysBeforeMonth(y, m + 1) then m else MonthContaining(y, rem, m + 1)
  }

  /** The calendar date of a day number: the inverse of `DayNumber`. */
  function CivilOf(z: int): (c: CivilDate)
    ensures ValidDate(c)
    ensures DayNumber(c.year, c.month, c.day) == z
  {
    var y := YearContaining(z, 1970);
    var rem := z - DaysBeforeYear(y);
    var m := MonthContaining(y, rem, 0);
    MonthsAddUp(y, m);
    CivilDate(y, m, rem - DaysBeforeMonth(y, m) + 1)
  }

  /** The local calendar date of an instant. */
  function DateOf(t: Instant): CivilDate {
    CivilOf(CivilDay(t))
  }

  lemma {:induction false} YearsIncrease(a: int, b: int)
    requires a < b
    ensures DaysBeforeYear(a) + DaysInYear(a) <= DaysBeforeYear(b)
    decreases b - a
  {
    YearsAddUp(a);
    if a + 1 < b {
      YearsIncrease(a + 1, b);
      YearsAddUp(a + 1);
    }
  }

  lemma MonthsIncrease(y: int, a: int, b: int)
    requires 0 <= a < b <= 12
    ensures DaysBeforeMonth(y, a) + DaysInMonth(y, a) <= DaysBeforeMonth(y, b)
  {
  }

  /** A valid date lies inside its own year's range of day numbers. */
  lemma DayNumberInYear(c: CivilDate)
    requires ValidDate(c)
    ensures DaysBeforeYear(c.year) <= DayNumber(c.year, c.month, c.day) < DaysBeforeYear(c.year) + DaysInYear(c.year)
  {
    MonthsAddUp(c.year, c.month);
    if c.month + 1 < 12 {
      MonthsIncrease(c.year, c.month + 1, 12);
    }
  }

  /** Distinct valid dates have distinct day numbers. */
  lemma DayNumberInjective(c1: CivilDate, c2: CivilDate)
    requires ValidDate(c1) && ValidDate(c2)
    requires DayNumber(c1.year, c1.month, c1.day) == DayNumber(c2.year, c2.month, c2.day)
    ensures c1 == c2
  {
    DayNumberInYear(c1);
    DayNumberInYear(c2);
    if c1.year < c2.year {
      YearsIncrease(c1.year, c2.year);
    } else if c2.year < c1.year {
      YearsIncrease(c2.year, c1.year);
    }
    assert c1.year == c2.year;
    if c1.month < c2.month {
      MonthsIncrease(c1.year, c1.month, c2.month);
    } else if c2.month < c1.month {
      MonthsIncrease(c1.year, c2.month, c1.month);
    }
  }

  /** `CivilOf` undoes `DayNumber` on every valid date. */
  lemma CivilOfDayNumber(c: CivilDate)
    requires ValidDate(c)
    ensures CivilOf(DayNumber(c.year, c.month, c.day)) == c
  {
    DayNumberInjective(CivilOf(DayNumber(c.year, c.month, c.day)), c);
  }

  /** The length of month `m` of year `y`, for a month index outside 0..11 too. */
  function MonthLength(y: int, m: int): (n: int)
    ensures 28 <= n <= 31
  {
    var ym := NormalizeMonth(y, m);
    DaysInMonth(ym.year, ym.month)
  }

  /** A month is determined by its count of months since year 0. */
  lemma MonthIndexUnique(y1: int, m1: int, y2: int, m2: int)
    requires 0 <= m1 < 12 && 0 <= m2 < 12
    requires 12 * y1 + m1 == 12 * y2 + m2
    ensures y1 == y2 && m1 == m2
  {
  }

  /** A month index already in 0..11 needs no normalising. */
  lemma NormalizeValidMonth(y: int, m: int, d: int)
    requires 0 <= m < 12
    ensures NormalizeMonth(y, m) == YearMonth(y, m)
    ensures DateDay(y, m, d) == DayNumber(y, m, d)
  {
  }

  /** Two (year, month index) pairs naming the same month normalise alike. */
  lemma SameMonth(y1: int, m1: int, y2: int, m2: int)
    requires 12 * y1 + m1 == 12 * y2 + m2
    ensures NormalizeMonth(y1, m1) == NormalizeMonth(y2, m2)
  {
  }

  /** Within a month, day `d` lies `d - 1` days after day 1, for any integer `d`. */
  lemma DateDayOffset(y: int, m: int, d: int)
    ensures DateDay(y, m, d) == DateDay(y, m, 1) + d - 1
  {
  }

  /** A day past the end of a month is the corresponding day of the next month. */
  lemma DateDaySpill(y: int, m: int, d: int)
    ensures DateDay(y, m, d) == DateDay(y, m + 1, d - MonthLength(y, m))
  {
    NextMonthStart(y, m);
    DateDayOffset(y, m, d);
    DateDayOffset(y, m + 1, d - MonthLength(y, m));
  }

  /** Day 1 of the next month follows the last day of this one. */
  lemma NextMonthStart(y: int, m: int)
    ensures DateDay(y, m + 1, 1) == DateDay(y, m, 1) + MonthLength(y, m)
  {
    var ym := NormalizeMonth(y, m);
    SameMonth(y, m + 1, ym.year, ym.month + 1);
    MonthsAddUp(ym.year, ym.month);
    if ym.month == 11 {
      SameMonth(ym.year, 12, ym.year + 1, 0);
      YearsAddUp(ym.year);
    }
  }

  /** `new Date(y, m, d)` for a day inside the month is that very date. */
  lemma DateDayCivil(y: int, m: int, d: int)
    requires 1 <= d <= MonthLength(y, m)
    ensures CivilOf(DateDay(y, m, d)) == CivilDate(NormalizeMonth(y, m).year, NormalizeMonth(y, m).month, d)
  {
    var ym := NormalizeMonth(y, m);
    CivilOfDayNumber(CivilDate(ym.year, ym.month, d));
  }

  /** `new Date(y, m + 1, 0).getDate()`: the date of day 0 of the next month. */
  function LastDate(y: int, m: int): int {
    CivilOf(DateDay(y, m + 1, 0)).day
  }

  /** Day 0 of the next month is the last day of this one, so `LastDate` is the month's length. */
  lemma LastDateIsMonthLength(y: int, m: int)
    ensures DateDay(y, m + 1, 0) == DateDay(y, m, MonthLength(y, m))
    ensures LastDate(y, m) == MonthLength(y, m)
  {
    NextMonthStart(y, m);
    DateDayCivil(y, m, MonthLength(y, m));
  }

  /** The second half of `LastDateIsMonthLength` alone, for callers that need no day numbers. */
  lemma LastDateIsLength(y: int, m: int)
    ensures LastDate(y, m) == MonthLength(y, m)
  {
    LastDateIsMonthLength(y, m);
  }
}

=== FILE: detalle.dfy ===
/** The event detail page of `src/pages/DetalleEvento.tsx`: which record it shows
    and its three actions, add to calendar, buy with points and share, as
    transitions of the stores they touch together with the notice they raise.
    Whether `navigator.share` exists and whether the share or the clipboard
    write succeeds are the `ShareChannel` parameter. */
module Detalle {
  import opened Options
  import Catalog
  import Rewards
  import CalendarStore

  /** `all.find(e => e.id === id)`: the first record with the route's id. */
  function FindById(events: seq<Catalog.EventRecord>, id: string): (r: Option<Catalog.EventRecord>)
    ensures r.None? <==> forall e :: e in events ==> e.id != id
    ensures r.Some? ==> exists i :: 0 <= i < |events| && events[i] == r.value && r.value.id == id
                                    && forall j :: 0 <= j < i ==> events[j].id != id
  {
    if |events| == 0 then None
    else if events[0].id == id then Some(events[0])
    else
      var r := FindById(events[1..], id);
      assert r.Some? ==> exists i :: 1 <= i < |events| && events[i] == r.value && r.value.id == id
                                     && forall j :: 0 <= j < i ==> events[j].id != id by {
        if r.Some? {
          var k :| 0 <= k < |events[1..]| && events[1..][k] == r.value && r.value.id == id
                   && forall j :: 0 <= j < k ==> events[1..][j].id != id;
          assert events[k + 1] == r.value;
          forall j | 0 <= j < k + 1 ensures events[j].id != id {
            if j > 0 {
              assert events[j] == events[1..][j - 1];
            }
          }
        }
      }
      r
  }

  /** What the page shows: the loading text until a record with the id is found. */
  datatype Page = Loading | Showing(event: Catalog.EventRecord)

  function PageFor(events: seq<Catalog.EventRecord>, id: string): (p: Page)
    ensures p.Loading? <==> forall e :: e in events ==> e.id != id
    ensures p.Showing? ==> p.event in events && p.event.id == id
  {
    match FindById(events, id)
    case None => Loading
    case Some(e) => Showing(e)
  }

  /** The calendar snapshot of a record: exactly id, title, date, place, category and picture. */
  function Snapshot(e: Catalog.EventRecord): (c: CalendarStore.CalendarEvent)
    ensures c.id == e.id && c.titulo == e.titulo && c.fecha == e.fecha && c.lugar == e.lugar
    ensures c.categoria == Catalog.CategoryName(e.categoria) && c.imagen == e.imagen
  {
    CalendarStore.CalendarEvent(e.id, e.titulo, e.fecha, e.lugar, Catalog.CategoryName(e.categoria), e.imagen)
  }

  /** The notice a handler raises in the snackbar. */
  datatype Notice =
    | NoNotice
    | AddedToCalendar
    | Bought(pts: real)
    | NotEnoughPoints(pts: real)
    | SharedWithReward(native: bool)
    | SharedAgain(native: bool)
    | ShareUnavailable

  /** `handleAddToCalendar`: the snapshot is added (a no-op when the id is already
      there) and the confirmation shows either way. */
  function HandleAddToCalendar(cal: seq<CalendarStore.CalendarEvent>, e: Catalog.EventRecord): (r: (seq<CalendarStore.CalendarEvent>, Notice))
    ensures CalendarStore.IsInCalendar(r.0, e.id)
    ensures !CalendarStore.IsInCalendar(cal, e.id) ==> r.0 == cal + [Snapshot(e)]
    ensures CalendarStore.IsInCalendar(cal, e.id) ==> r.0 == cal
    ensures r.1 == AddedToCalendar
  {
    (CalendarStore.AddEvent(cal, Snapshot(e)), AddedToCalendar)
  }

  /** The rewards state a handler leaves, with its notice. */
  datatype Outcome = Outcome(rewards: Rewards.RewardState, notice: Notice)

  /** `precioPts` is truthy: present and not zero. */
  predicate HasPointsPrice(e: Catalog.EventRecord) {
    e.precioPts.Some? && e.precioPts.value != 0.0
  }

  /** The "Comprar con … pts" button is rendered for a positive points price ... */
  predicate ShowsPurchaseButton(e: Catalog.EventRecord) {
    e.precioPts.Some? && e.precioPts.value > 0.0
  }

  /** ... and disabled while the balance is below it. */
  predicate PurchaseEnabled(s: Rewards.RewardState, e: Catalog.EventRecord)
    requires ShowsPurchaseButton(e)
  {
    !(s.points < e.precioPts.value)
  }

  /** `handlePurchaseWithPoints`. */
  function HandlePurchase(s: Rewards.RewardState, e: Catalog.EventRecord, freshId: string): (o: Outcome)
    ensures !HasPointsPrice(e) ==> o == Outcome(s, NoNotice)
    ensures HasPointsPrice(e) ==> (o.notice.Bought? <==> s.points >= e.precioPts.value)
    ensures HasPointsPrice(e) && o.notice.Bought? ==>
              o.notice.pts == e.precioPts.value
              && o.rewards.points == s.points - e.precioPts.value
              && o.rewards.history
                 == [Rewards.HistoryEntry(freshId, Rewards.PurchaseEntry, -e.precioPts.value, Rewards.PurchaseLabel(e.titulo))] + s.history
    ensures HasPointsPrice(e) && !o.notice.Bought? ==> o == Outcome(s, NotEnoughPoints(e.precioPts.value))
  {
    if !HasPointsPrice(e) then Outcome(s, NoNotice)
    else
      var pts := e.precioPts.value;
      var p := Rewards.PurchaseWithPoints(s, pts, e.titulo, freshId);
      if p.ok then Outcome(p.state, Bought(pts)) else Outcome(p.state, NotEnoughPoints(pts))
  }

  /** An enabled button always buys; a disabled one would always be refused. */
  lemma ButtonMatchesPurchase(s: Rewards.RewardState, e: Catalog.EventRecord, freshId: string)
    requires ShowsPurchaseButton(e)
    ensures PurchaseEnabled(s, e) <==> HandlePurchase(s, e, freshId).notice.Bought?
  {
  }

  /** How a share attempt ends: with the native share sheet when the browser has
      one, else with a clipboard write; `ok` is whether that call resolved. */
  datatype ShareChannel = Native(ok: bool) | Clipboard(ok: bool)

  const ShareReward: real := 5.0
  const ShareLabel: string := "Compartiste evento en redes sociales"

  /** `handleShare`: after a successful share, the first one for this event earns
      5 points and marks the event; anything else leaves the rewards alone. */
  function HandleShare(s: Rewards.RewardState, eventId: string, channel: ShareChannel, freshId: string): (o: Outcome)
    ensures !channel.ok ==> o.rewards == s
    ensures channel.ok && Rewards.CanEarnPointsForShare(s, eventId) ==>
              o.rewards == Rewards.MarkEventAsShared(Rewards.AddPoints(s, ShareReward, ShareLabel, freshId), eventId)
    ensures channel.ok && !Rewards.CanEarnPointsForShare(s, eventId) ==> o.rewards == s
    ensures o.rewards.sharedEvents == if channel.ok then s.sharedEvents + {eventId} else s.sharedEvents
    ensures o.rewards.points == if channel.ok && eventId !in s.sharedEvents then s.points + ShareReward else s.points
    ensures Rewards.PointsDrift(o.rewards) == Rewards.PointsDrift(s)
    ensures o.notice == match channel
                        case Native(ok) => if !ok then NoNotice else if eventId !in s.sharedEvents then SharedWithReward(true) else SharedAgain(true)
                        case Clipboard(ok) => if !ok then ShareUnavailable else if eventId !in s.sharedEvents then SharedWithReward(false) else SharedAgain(false)
  {
    var native := channel.Native?;
    if !channel.ok then Outcome(s, if native then NoNotice else ShareUnavailable)
    else if Rewards.CanEarnPointsForShare(s, eventId) then
      Outcome(Rewards.MarkEventAsShared(Rewards.AddPoints(s, ShareReward, ShareLabel, freshId), eventId), SharedWithReward(native))
    else Outcome(s, SharedAgain(native))
  }

  /** One press of the share button. */
  datatype ShareAttempt = ShareAttempt(eventId: string, channel: ShareChannel, freshId: string)

  function Shares(s: Rewards.RewardState, attempts: seq<ShareAttempt>): Rewards.RewardState
    decreases |attempts|
  {
    if |attempts| == 0 then s
    else Shares(HandleShare(s, attempts[0].eventId, attempts[0].channel, attempts[0].freshId).rewards, attempts[1..])
  }

  /** Over any run of share attempts, the points earned are 5 for each event newly
      marked as shared, and only attempted events become marked. */
  lemma {:induction false} SharePointsCountNewEvents(s: Rewards.RewardState, attempts: seq<ShareAttempt>)
    ensures s.sharedEvents <= Shares(s, attempts).sharedEvents
    ensures forall x :: x in Shares(s, attempts).sharedEvents && x !in s.sharedEvents ==>
              exists i :: 0 <= i < |attempts| && attempts[i].eventId == x
    ensures Shares(s, attempts).points
            == s.points + ShareReward * (|Shares(s, attempts).sharedEvents - s.sharedEvents| as real)
    decreases |attempts|
  {
    if |attempts| > 0 {
      var a := attempts[0];
      var s1 := HandleShare(s, a.eventId, a.channel, a.freshId).rewards;
      var fin := Shares(s, attempts);
      assert fin == Shares(s1, attempts[1..]);
      SharePointsCountNewEvents(s1, attempts[1..]);
      forall x | x in fin.sharedEvents && x !in s.sharedEvents
        ensures exists i :: 0 <= i < |attempts| && attempts[i].eventId == x
      {
        if x in s1.sharedEvents {
          assert attempts[0].eventId == x;
        } else {
          var i :| 0 <= i < |attempts[1..]| && attempts[1..][i].eventId == x;
          assert attempts[i + 1].eventId == x;
        }
      }
      if a.channel.ok && a.eventId !in s.sharedEvents {
        assert fin.sharedEvents - s.sharedEvents == (fin.sharedEvents - s1.sharedEvents) + {a.eventId};
        assert a.eventId !in fin.sharedEvents - s1.sharedEvents;
      } else {
        assert s1.sharedEvents == s.sharedEvents;
      }
    }
  }

  /** However often one event is shared, and whatever the outcomes, it earns at most 5 points. */
  lemma AtMostFivePerEvent(s: Rewards.RewardState, id: string, attempts: seq<ShareAttempt>)
    requires forall i :: 0 <= i < |attempts| ==> attempts[i].eventId == id
    ensures Shares(s, attempts).points <= s.points + ShareReward
    ensures id in s.sharedEvents ==> Shares(s, attempts).points == s.points
  {
    SharePointsCountNewEvents(s, attempts);
    var gained := Shares(s, attempts).sharedEvents - s.sharedEvents;
    assert gained <= {id};
    if id in gained {
      assert gained == {id};
    } else {
      assert gained == {};
    }
  }
}

=== FILE: eventos.dfy ===
/** The events page of `src/pages/Eventos.tsx`: which catalogue events it lists,
    under what heading, and when it shows the "first 12" banner and the back
    button. A `categoria` search parameter takes precedence over the filter
    store. `parse` is `new Date(fecha)` on the event's date string, `None`
    where the result is an invalid date. */
module Eventos {
  import opened Options
  import Seqs
  import Text
  import Dates
  import Catalog
  import FiltersStore
  import Home

  /** The page never lists more than this many events. */
  const PageSize: nat := 12

  /** The weekday number `dayMap` gives a Spanish day name (Domingo = 0); other names have none. */
  function DayIndex(name: string): (r: Option<int>)
    ensures r.Some? ==> 0 <= r.value < 7
    ensures r.Some? <==> name in WeekNames()
  {
    if name == "Lunes" then Some(1)
    else if name == "Martes" then Some(2)
    else if name == "Miércoles" then Some(3)
    else if name == "Jueves" then Some(4)
    else if name == "Viernes" then Some(5)
    else if name == "Sábado" then Some(6)
    else if name == "Domingo" then Some(0)
    else None
  }

  /** The seven day names, Monday first, as the search page lists them. */
  function WeekNames(): seq<string> {
    ["Lunes", "Martes", "Miércoles", "Jueves", "Viernes", "Sábado", "Domingo"]
  }

  /** `new Date(e.fecha).getDay()`; an unparsable date has no weekday (`NaN`). */
  function EventWeekday(e: Catalog.EventRecord, parse: string -> Option<int>): (r: Option<int>)
    ensures r.Some? ==> 0 <= r.value < 7
  {
    match parse(e.fecha)
    case None => None
    case Some(t) => Some(Dates.Weekday(t))
  }

  /** `days.some(day => dayMap[day] === w)`. */
  function AnyDayIs(days: seq<string>, w: int): (r: bool)
    ensures r <==> exists i :: 0 <= i < |days| && DayIndex(days[i]) == Some(w)
  {
    if |days| == 0 then false
    else DayIndex(days[0]) == Some(w) || AnyDayIs(days[1..], w)
  }

  /** A search parameter is truthy when present and non-empty. */
  predicate Truthy(p: Option<string>) {
    p.Some? && p.value != ""
  }

  /** Some store filter is active: the condition of the heading and of the back button. */
  predicate Active(f: FiltersStore.Filters) {
    |f.categories| > 0 || f.query != "" || |f.days| > 0
  }

  predicate MatchesUrlCategory(e: Catalog.EventRecord, cat: string) {
    Text.Lower(Catalog.CategoryName(e.categoria)) == Text.Lower(cat)
  }

  predicate MatchesQuery(e: Catalog.EventRecord, q: string) {
    var lq := Text.Lower(q);
    Text.Contains(Text.Lower(e.titulo), lq)
    || Text.Contains(Text.Lower(e.lugar), lq)
    || (e.descripcion.Some? && e.descripcion.value != "" && Text.Contains(Text.Lower(e.descripcion.value), lq))
  }

  predicate MatchesDays(e: Catalog.EventRecord, days: seq<string>, parse: string -> Option<int>) {
    match EventWeekday(e, parse)
    case None => false
    case Some(w) => AnyDayIs(days, w)
  }

  /** The three store stages, each a filter only when its part of the store is set. */
  function ByCategories(xs: seq<Catalog.EventRecord>, f: FiltersStore.Filters): seq<Catalog.EventRecord> {
    if |f.categories| > 0 then Seqs.Filter(xs, (e: Catalog.EventRecord) => Catalog.CategoryName(e.categoria) in f.categories)
    else xs
  }

  function ByQuery(xs: seq<Catalog.EventRecord>, f: FiltersStore.Filters): seq<Catalog.EventRecord> {
    if f.query != "" then Seqs.Filter(xs, (e: Catalog.EventRecord) => MatchesQuery(e, f.query))
    else xs
  }

  function ByDays(xs: seq<Catalog.EventRecord>, f: FiltersStore.Filters, parse: string -> Option<int>): seq<Catalog.EventRecord> {
    if |f.days| > 0 then Seqs.Filter(xs, (e: Catalog.EventRecord) => MatchesDays(e, f.days, parse))
    else xs
  }

  /** The filter effect before the cap: the URL category alone when it is given,
      otherwise the store stages in the order the page applies them. */
  function Uncapped(events: seq<Catalog.EventRecord>, url: Option<string>, f: FiltersStore.Filters,
                    parse: string -> Option<int>): seq<Catalog.EventRecord>
  {
    if Truthy(url) then Seqs.Filter(events, (e: Catalog.EventRecord) => MatchesUrlCategory(e, url.value))
    else ByDays(ByQuery(ByCategories(events, f), f), f, parse)
  }

  /** Each store stage as a condition that holds trivially when its part of the store is unset. */
  predicate CategoryOk(e: Catalog.EventRecord, f: FiltersStore.Filters) {
    |f.categories| == 0 || Catalog.CategoryName(e.categoria) in f.categories
  }

  predicate QueryOk(e: Catalog.EventRecord, f: FiltersStore.Filters) {
    f.query == "" || MatchesQuery(e, f.query)
  }

  predicate DaysOk(e: Catalog.EventRecord, f: FiltersStore.Filters, parse: string -> Option<int>) {
    |f.days| == 0 || MatchesDays(e, f.days, parse)
  }

  /** The reference condition: an event passes when it matches the URL category
      if one is given, and otherwise every active store filter. */
  predicate Passes(e: Catalog.EventRecord, url: Option<string>, f: FiltersStore.Filters, parse: string -> Option<int>) {
    if Truthy(url) then MatchesUrlCategory(e, url.value)
    else (CategoryOk(e, f) && QueryOk(e, f) && DaysOk(e, f, parse))
  }

  lemma ByCategoriesIsFilter(xs: seq<Catalog.EventRecord>, f: FiltersStore.Filters)
    ensures ByCategories(xs, f) == Seqs.Filter(xs, (e: Catalog.EventRecord) => CategoryOk(e, f))
  {
    if |f.categories| > 0 {
      Seqs.FilterExt(xs, (e: Catalog.EventRecord) => Catalog.CategoryName(e.categoria) in f.categories,
                     (e: Catalog.EventRecord) => CategoryOk(e, f));
    } else {
      Seqs.FilterKeepsAll(xs, (e: Catalog.EventRecord) => CategoryOk(e, f));
    }
  }

  lemma ByQueryIsFilter(xs: seq<Catalog.EventRecord>, f: FiltersStore.Filters)
    ensures ByQuery(xs, f) == Seqs.Filter(xs, (e: Catalog.EventRecord) => QueryOk(e, f))
  {
    if f.query != "" {
      Seqs.FilterExt(xs, (e: Catalog.EventRecord) => MatchesQuery(e, f.query), (e: Catalog.EventRecord) => QueryOk(e, f));
    } else {
      Seqs.FilterKeepsAll(xs, (e: Catalog.EventRecord) => QueryOk(e, f));
    }
  }

  lemma ByDaysIsFilter(xs: seq<Catalog.EventRecord>, f: FiltersStore.Filters, parse: string -> Option<int>)
    ensures ByDays(xs, f, parse) == Seqs.Filter(xs, (e: Catalog.EventRecord) => DaysOk(e, f, parse))
  {
    if |f.days| > 0 {
      Seqs.FilterExt(xs, (e: Catalog.EventRecord) => MatchesDays(e, f.days, parse),
                     (e: Catalog.EventRecord) => DaysOk(e, f, parse));
    } else {
      Seqs.FilterKeepsAll(xs, (e: Catalog.EventRecord) => DaysOk(e, f, parse));
    }
  }

  /** The staged pipeline is exactly one filter by `Passes`. */
  lemma UncappedIsOneFilter(events: seq<Catalog.EventRecord>, url: Option<string>, f: FiltersStore.Filters,
                            parse: string -> Option<int>)
    ensures Uncapped(events, url, f, parse) == Seqs.Filter(events, (e: Catalog.EventRecord) => Passes(e, url, f, parse))
  {
    var pass := (e: Catalog.EventRecord) => Passes(e, url, f, parse);
    if Truthy(url) {
      Seqs.FilterExt(events, (e: Catalog.EventRecord) => MatchesUrlCategory(e, url.value), pass);
    } else {
      var pc := (e: Catalog.EventRecord) => CategoryOk(e, f);
      var pq := (e: Catalog.EventRecord) => QueryOk(e, f);
      var pd := (e: Catalog.EventRecord) => DaysOk(e, f, parse);
      ByCategoriesIsFilter(events, f);
      var a := Seqs.Filter(events, pc);
      ByQueryIsFilter(a, f);
      var b := Seqs.Filter(a, pq);
      ByDaysIsFilter(b, f, parse);
      var pcq := (e: Catalog.EventRecord) => CategoryOk(e, f) && QueryOk(e, f);
      Seqs.FilterFilter(events, pc, pq, pcq);
      Seqs.FilterFilter(events, pcq, pd, pass);
    }
  }

  /** The events the page lists. */
  function Visible(events: seq<Catalog.EventRecord>, url: Option<string>, f: FiltersStore.Filters,
                   parse: string -> Option<int>): (r: seq<Catalog.EventRecord>)
    ensures |r| <= PageSize
    ensures r == Seqs.Take(Seqs.Filter(events, (e: Catalog.EventRecord) => Passes(e, url, f, parse)), PageSize)
    ensures Seqs.IsSubseq(r, events)
    ensures forall e :: e in r ==> Passes(e, url, f, parse)
  {
    var pass := (e: Catalog.EventRecord) => Passes(e, url, f, parse);
    UncappedIsOneFilter(events, url, f, parse);
    Seqs.TakeFilterIsSubseq(events, pass, PageSize);
    var r := Seqs.Take(Uncapped(events, url, f, parse), PageSize);
    assert r == Seqs.Take(Seqs.Filter(events, pass), PageSize);
    r
  }

  /** With a URL category the store filters play no part at all. */
  lemma UrlCategoryOverridesStore(events: seq<Catalog.EventRecord>, url: Option<string>,
                                  f1: FiltersStore.Filters, f2: FiltersStore.Filters, parse: string -> Option<int>)
    requires Truthy(url)
    ensures Visible(events, url, f1, parse) == Visible(events, url, f2, parse)
  {
  }

  /** With neither a URL category nor a store filter, the page lists the first 12 catalogue events. */
  lemma UnfilteredShowsFirstPage(events: seq<Catalog.EventRecord>, url: Option<string>, f: FiltersStore.Filters,
                                 parse: string -> Option<int>)
    requires !Truthy(url) && !Active(f)
    ensures Visible(events, url, f, parse) == Seqs.Take(events, PageSize)
  {
    Seqs.FilterKeepsAll(events, (e: Catalog.EventRecord) => Passes(e, url, f, parse));
  }

  /** A store category filter compares the enum spelling exactly, without case
      folding: store categories that are all in lower case match no event. */
  lemma StoreCategoryIsCaseSensitive(e: Catalog.EventRecord, f: FiltersStore.Filters, parse: string -> Option<int>)
    requires |f.categories| > 0 && forall s :: s in f.categories ==> Text.Lower(s) == s
    ensures !Passes(e, None, f, parse)
  {
    var n := Catalog.CategoryName(e.categoria);
    assert Text.Lower(n)[0] == Text.LowerChar(n[0]);
  }

  /** A URL category matches whatever its letter case: every spelling of a
      category name selects exactly the events of that category. */
  lemma UrlCategoryIgnoresCase(e: Catalog.EventRecord, u: string, c: Catalog.Category, f: FiltersStore.Filters,
                               parse: string -> Option<int>)
    requires Text.Lower(u) == Text.Lower(Catalog.CategoryName(c))
    ensures Passes(e, Some(u), f, parse) <==> e.categoria == c
  {
    assert |u| == |Catalog.CategoryName(c)| > 0;
    if Passes(e, Some(u), f, parse) {
      Home.NormalizeSeparatesCategories(e.categoria, c);
    }
  }

  /** The page heading: the capitalised URL category, or which list is shown, with the count. */
  datatype Title = CategoryTitle(category: string, count: nat) | FilteredTitle(count: nat) | AllTitle(count: nat)

  /** `charAt(0).toUpperCase() + slice(1)`: only a leading ß changes the length. */
  function Capitalize(s: string): (r: string)
    ensures |s| == 0 ==> r == s
    ensures |s| > 0 ==> |r| == |s| + (if s[0] == '\U{DF}' then 1 else 0)
    ensures |s| > 0 ==> r[..|r| - |s| + 1] == Text.Upper(s[0]) && r[|r| - |s| + 1..] == s[1..]
  {
    if |s| == 0 then s
    else
      var head := Text.Upper(s[0]);
      assert (head + s[1..])[..|head|] == head && (head + s[1..])[|head|..] == s[1..];
      head + s[1..]
  }

  /** `getTitle()` for a page listing `shown` events. */
  function GetTitle(url: Option<string>, f: FiltersStore.Filters, shown: nat): (t: Title)
    ensures t.count == shown
    ensures t.CategoryTitle? <==> Truthy(url)
    ensures t.FilteredTitle? <==> !Truthy(url) && Active(f)
    ensures t.CategoryTitle? ==> t.category == Capitalize(url.value)
  {
    if Truthy(url) then CategoryTitle(Capitalize(url.value), shown)
    else if Active(f) then FilteredTitle(shown)
    else AllTitle(shown)
  }

  /** The "first 12 events" notice. */
  predicate ShowsBanner(shown: nat, total: nat) {
    shown == PageSize && total > PageSize
  }

  /** The notice appears exactly when the page is full and the catalogue is larger. */
  lemma BannerCondition(events: seq<Catalog.EventRecord>, url: Option<string>, f: FiltersStore.Filters,
                        parse: string -> Option<int>)
    ensures ShowsBanner(|Visible(events, url, f, parse)|, |events|)
            <==> |Seqs.Filter(events, (e: Catalog.EventRecord) => Passes(e, url, f, parse))| >= PageSize && |events| > PageSize
  {
  }

  /** The "Volver al Inicio" button shows whenever some filter is in force. */
  predicate ShowsBackButton(url: Option<string>, f: FiltersStore.Filters) {
    Truthy(url) || Active(f)
  }

  /** Pressing it resets the filter store and navigates to the home page, where no URL category applies. */
  function GoBack(f: FiltersStore.Filters): (r: FiltersStore.Filters)
    ensures !Active(r)
    ensures !ShowsBackButton(None, r)
  {
    FiltersStore.Reset(f)
  }

  /** After going back, the events page would list the first 12 events under "Todos los eventos". */
  lemma GoBackShowsAll(events: seq<Catalog.EventRecord>, f: FiltersStore.Filters, parse: string -> Option<int>)
    ensures Visible(events, None, GoBack(f), parse) == Seqs.Take(events, PageSize)
    ensures GetTitle(None, GoBack(f), |Visible(events, None, GoBack(f), parse)|).AllTitle?
  {
    UnfilteredShowsFirstPage(events, None, GoBack(f), parse);
  }
}

=== FILE: favorites_store.dfy ===
/** The favourites store of `src/store/favorites.ts`: a list of event ids that
    is read from browser storage once, on creation, and written back after
    every toggle. Storage is the `slot` field: what the key `uao:favorites`
    holds, already classified by what reading it back yields. */
module FavoritesStore {
  import Seqs

  const StorageKey: string := "uao:favorites"

  /** The value under `StorageKey`: nothing, the empty string, text `JSON.parse`
      rejects, or the serialisation of a list of ids. */
  datatype Slot = Absent | EmptyText | Unparsable | Holds(ids: seq<string>)

  datatype Favorites = Favorites(ids: seq<string>, slot: Slot)

  /** `load()`: a missing or empty value and a parse error all fall back to `[]`. */
  function Load(slot: Slot): (ids: seq<string>)
    ensures !slot.Holds? ==> ids == []
    ensures slot.Holds? ==> ids == slot.ids
  {
    match slot
    case Holds(stored) => stored
    case _ => []
  }

  /** The store as created on a page load over the given storage. */
  function Init(slot: Slot): (f: Favorites)
    ensures f.slot == slot
    ensures f.ids == Load(slot)
  {
    Favorites(Load(slot), slot)
  }

  /** `toggle(id)`: removed when present, appended when absent, and the new list written to storage. */
  function Toggle(f: Favorites, id: string): (r: Favorites)
    ensures id in f.ids ==> id !in r.ids && Seqs.IsSubseq(r.ids, f.ids)
    ensures id in f.ids ==> forall other :: other != id ==> multiset(r.ids)[other] == multiset(f.ids)[other]
    ensures id !in f.ids ==> r.ids == f.ids + [id]
    ensures forall other :: other != id ==> (other in r.ids <==> other in f.ids)
    ensures r.slot == Holds(r.ids)
    ensures Load(r.slot) == r.ids
  {
    var next := Seqs.Toggle(f.ids, id);
    Favorites(next, Holds(next))
  }

  /** `isFavorite(id)`: true exactly when a toggle would take the id out. */
  function IsFavorite(f: Favorites, id: string): (r: bool)
    ensures r <==> id !in Toggle(f, id).ids
  {
    id in f.ids
  }

  /** A reload after any toggle sees exactly the list the toggle left. */
  lemma ReloadAfterToggle(f: Favorites, id: string)
    ensures Init(Toggle(f, id).slot).ids == Toggle(f, id).ids
  {
  }

  /** Toggling twice restores whether `id` is a favourite; when it was not one, the exact list comes back. */
  lemma ToggleTwice(f: Favorites, id: string)
    ensures IsFavorite(Toggle(Toggle(f, id), id), id) == IsFavorite(f, id)
    ensures !IsFavorite(f, id) ==> Toggle(Toggle(f, id), id).ids == f.ids
  {
    if !IsFavorite(f, id) {
      Seqs.ToggleTwiceRestores(f.ids, id);
    }
  }

  /** A list without repeated ids stays so under toggling. */
  lemma ToggleKeepsNoDup(f: Favorites, id: string)
    requires Seqs.NoDup(f.ids)
    ensures Seqs.NoDup(Toggle(f, id).ids)
  {
    Seqs.ToggleKeepsNoDup(f.ids, id);
  }
}

=== FILE: favoritos.dfy ===
/** The two pages that list favourites, `src/pages/Favoritos.tsx` and the lower
    half of `src/pages/Perfil.tsx`, together with the profile card above it
    (`src/store/profile.ts`). Both pages fetch the catalogue on mount and keep
    the catalogue events whose id is a favourite, in catalogue order. */
module Favoritos {
  import Seqs
  import Catalog
  import FavoritesStore

  /** `events.filter(e => fav.isFavorite(e.id))`. */
  function FavoriteEvents(events: seq<Catalog.EventRecord>, fav: FavoritesStore.Favorites): (r: seq<Catalog.EventRecord>)
    ensures forall e :: e in r <==> e in events && e.id in fav.ids
    ensures Seqs.IsSubseq(r, events)
    ensures forall e :: multiset(r)[e] == if e.id in fav.ids then multiset(events)[e] else 0
  {
    Seqs.Filter(events, (e: Catalog.EventRecord) => FavoritesStore.IsFavorite(fav, e.id))
  }

  /** What the favourites page shows: the count in its heading, and either the
      empty message or one card per favourite event. */
  datatype FavoritesPage = FavoritesPage(count: nat, emptyMessage: bool, cards: seq<Catalog.EventRecord>)

  function ViewFavorites(events: seq<Catalog.EventRecord>, fav: FavoritesStore.Favorites): (p: FavoritesPage)
    ensures p.count == |p.cards|
    ensures p.emptyMessage <==> forall e :: e in events ==> e.id !in fav.ids
    ensures forall e :: e in p.cards <==> e in events && e.id in fav.ids
    ensures p.cards == FavoriteEvents(events, fav)
  {
    var favorites := FavoriteEvents(events, fav);
    assert favorites == [] <==> forall e :: e in events ==> e.id !in fav.ids by {
      if favorites != [] {
        assert favorites[0] in favorites;
      }
    }
    if |favorites| == 0 then FavoritesPage(0, true, []) else FavoritesPage(|favorites|, false, favorites)
  }

  /** A favourite id that names no catalogue event never produces a card. */
  lemma UnknownFavoritesNotShown(events: seq<Catalog.EventRecord>, fav: FavoritesStore.Favorites, id: string)
    requires id in fav.ids
    requires forall e :: e in events ==> e.id != id
    ensures forall e :: e in ViewFavorites(events, fav).cards ==> e.id != id
  {
  }

  /** Until the catalogue arrives the page shows the empty message, whatever the favourites. */
  lemma BeforeFetchShowsEmpty(fav: FavoritesStore.Favorites)
    ensures ViewFavorites([], fav).emptyMessage
    ensures ViewFavorites([], fav).count == 0
  {
  }

  /** The heart on a card un-favourites its event: after the toggle exactly the
      cards of that event are gone and the rest stay in order. */
  lemma HeartRemovesCard(events: seq<Catalog.EventRecord>, fav: FavoritesStore.Favorites, id: string)
    requires FavoritesStore.IsFavorite(fav, id)
    ensures FavoriteEvents(events, FavoritesStore.Toggle(fav, id))
            == Seqs.Filter(FavoriteEvents(events, fav), (e: Catalog.EventRecord) => e.id != id)
  {
    var after := FavoritesStore.Toggle(fav, id);
    var was := (e: Catalog.EventRecord) => FavoritesStore.IsFavorite(fav, e.id);
    var notId := (e: Catalog.EventRecord) => e.id != id;
    var now := (e: Catalog.EventRecord) => FavoritesStore.IsFavorite(after, e.id);
    forall e: Catalog.EventRecord ensures now(e) == (was(e) && notId(e)) {
      if e.id == id {
        assert id !in after.ids;
      }
    }
    Seqs.FilterFilter(events, was, notId, now);
  }

  /** The profile store: a fixed demo profile whose `setInterests` does nothing. */
  datatype Profile = Profile(
    name: string,
    email: string,
    avatarUrl: string,
    attended: int,
    favoritesCount: int,
    upcoming: int,
    interests: seq<string>)

  function DemoProfile(): (p: Profile)
    ensures p.attended == 12 && p.favoritesCount == 8 && p.upcoming == 5
    ensures p.interests == ["Concierto", "Arte", "Cine", "Charlas"]
  {
    Profile("María Rodriguez", "maria.rodriguez@uao.edu.co",
            "https://images.unsplash.com/photo-1544005313-94ddf0286df2?w=256",
            12, 8, 5, ["Concierto", "Arte", "Cine", "Charlas"])
  }

  /** `setInterests` ignores its argument. */
  function SetInterests(p: Profile, interests: seq<string>): (r: Profile)
    ensures r.interests == p.interests
    ensures r == p
  {
    p
  }

  /** A stat box of the profile card. */
  datatype StatBox = StatBox(caption: string, value: int)

  /** The profile page: the profile card, its three stat boxes, the interest chips,
      and the favourite events with a message when there are none. */
  datatype ProfilePage = ProfilePage(
    name: string,
    email: string,
    stats: seq<StatBox>,
    interests: seq<string>,
    upcoming: seq<Catalog.EventRecord>,
    noFavoritesMessage: bool)

  function ViewProfile(p: Profile, events: seq<Catalog.EventRecord>, fav: FavoritesStore.Favorites): (v: ProfilePage)
    ensures v.stats == [StatBox("Eventos asistidos", p.attended), StatBox("Favoritos", p.favoritesCount),
                        StatBox("Por asistir", p.upcoming)]
    ensures v.interests == p.interests
    ensures forall e :: e in v.upcoming <==> e in events && e.id in fav.ids
    ensures v.upcoming == FavoriteEvents(events, fav)
    ensures v.noFavoritesMessage <==> |v.upcoming| == 0
  {
    var favoriteEvents := FavoriteEvents(events, fav);
    ProfilePage(p.name, p.email,
                [StatBox("Eventos asistidos", p.attended), StatBox("Favoritos", p.favoritesCount),
                 StatBox("Por asistir", p.upcoming)],
                p.interests, favoriteEvents, |favoriteEvents| == 0)
  }

  /** The profile page lists the same favourites as the favourites page. */
  lemma ProfileListsFavoritesPage(p: Profile, events: seq<Catalog.EventRecord>, fav: FavoritesStore.Favorites)
    ensures ViewProfile(p, events, fav).upcoming == ViewFavorites(events, fav).cards
    ensures ViewProfile(p, events, fav).noFavoritesMessage == ViewFavorites(events, fav).emptyMessage
  {
  }

  /** The "Favoritos" stat box shows the profile's fixed count, not the number of
      favourites: two stores with different favourites show the same boxes. */
  lemma StatsIgnoreFavorites(events: seq<Catalog.EventRecord>, fav1: FavoritesStore.Favorites, fav2: FavoritesStore.Favorites)
    ensures ViewProfile(DemoProfile(), events, fav1).stats == ViewProfile(DemoProfile(), events, fav2).stats
    ensures ViewProfile(DemoProfile(), events, fav1).stats[1] == StatBox("Favoritos", 8)
  {
  }
}

=== FILE: filters_store.dfy ===
/** The search filters of `src/store/filters.ts`: a free-text query and two
    lists of selected category and weekday names. The store is in memory only. */
module FiltersStore {
  import Seqs

  datatype Filters = Filters(query: string, categories: seq<string>, days: seq<string>)

  /** The store as created, and as `reset()` leaves it. */
  function Init(): (f: Filters)
    ensures f.query == [] && f.categories == [] && f.days == []
  {
    Filters("", [], [])
  }

  /** `setQuery(q)`. */
  function SetQuery(f: Filters, q: string): (r: Filters)
    ensures r.query == q
    ensures r.categories == f.categories && r.days == f.days
  {
    f.(query := q)
  }

  /** `setCategories(c)`: the list is taken as given, repetitions included. */
  function SetCategories(f: Filters, c: seq<string>): (r: Filters)
    ensures r.categories == c
    ensures r.query == f.query && r.days == f.days
  {
    f.(categories := c)
  }

  /** `toggleCategory(c)`. */
  function ToggleCategory(f: Filters, c: string): (r: Filters)
    ensures c in f.categories ==> c !in r.categories && Seqs.IsSubseq(r.categories, f.categories)
    ensures c in f.categories ==> forall other :: other != c ==> multiset(r.categories)[other] == multiset(f.categories)[other]
    ensures c !in f.categories ==> r.categories == f.categories + [c]
    ensures forall other :: other != c ==> (other in r.categories <==> other in f.categories)
    ensures r.query == f.query && r.days == f.days
  {
    f.(categories := Seqs.Toggle(f.categories, c))
  }

  /** `toggleDay(d)`. */
  function ToggleDay(f: Filters, d: string): (r: Filters)
    ensures d in f.days ==> d !in r.days && Seqs.IsSubseq(r.days, f.days)
    ensures d in f.days ==> forall other :: other != d ==> multiset(r.days)[other] == multiset(f.days)[other]
    ensures d !in f.days ==> r.days == f.days + [d]
    ensures forall other :: other != d ==> (other in r.days <==> other in f.days)
    ensures r.query == f.query && r.categories == f.categories
  {
    f.(days := Seqs.Toggle(f.days, d))
  }

  /** `reset()`. */
  function Reset(f: Filters): (r: Filters)
    ensures r.query == [] && r.categories == [] && r.days == []
  {
    Init()
  }

  /** Resetting a reset store changes nothing. */
  lemma ResetIdempotent(f: Filters)
    ensures Reset(Reset(f)) == Reset(f)
  {
  }

  /** Toggling a category twice restores its membership, and the exact list when it was absent. */
  lemma ToggleCategoryTwice(f: Filters, c: string)
    ensures (c in ToggleCategory(ToggleCategory(f, c), c).categories) == (c in f.categories)
    ensures c !in f.categories ==> ToggleCategory(ToggleCategory(f, c), c) == f
  {
    if c !in f.categories {
      Seqs.ToggleTwiceRestores(f.categories, c);
    }
  }

  /** Toggling a day twice restores its membership, and the exact list when it was absent. */
  lemma ToggleDayTwice(f: Filters, d: string)
    ensures (d in ToggleDay(ToggleDay(f, d), d).days) == (d in f.days)
    ensures d !in f.days ==> ToggleDay(ToggleDay(f, d), d) == f
  {
    if d !in f.days {
      Seqs.ToggleTwiceRestores(f.days, d);
    }
  }

  /** Toggles keep both lists free of repetitions. */
  lemma TogglesKeepNoDup(f: Filters, c: string, d: string)
    requires Seqs.NoDup(f.categories) && Seqs.NoDup(f.days)
    ensures Seqs.NoDup(ToggleCategory(f, c).categories) && Seqs.NoDup(ToggleCategory(f, c).days)
    ensures Seqs.NoDup(ToggleDay(f, d).categories) && Seqs.NoDup(ToggleDay(f, d).days)
  {
    Seqs.ToggleKeepsNoDup(f.categories, c);
    Seqs.ToggleKeepsNoDup(f.days, d);
  }
}

=== FILE: filtros.dfy ===
/** The search page of `src/pages/Filtros.tsx`: the category chips with their
    counts, the weekday checkboxes, and the "Aplicar filtros" and "Limpiar"
    buttons that write into the filter store. */
module Filtros {
  import Seqs
  import Catalog
  import FiltersStore
  import Eventos

  /** One chip: a category name and how many catalogue events carry it. */
  datatype CategoryCount = CategoryCount(name: string, count: nat)

  function NamesOf(counts: seq<CategoryCount>): (r: seq<string>)
    ensures |r| == |counts|
    ensures forall i :: 0 <= i < |counts| ==> r[i] == counts[i].name
  {
    seq(|counts|, i requires 0 <= i < |counts| => counts[i].name)
  }

  /** The count recorded for `name`, 0 when it has no entry. */
  function CountOf(counts: seq<CategoryCount>, name: string): nat {
    if |counts| == 0 then 0
    else if counts[0].name == name then counts[0].count
    else CountOf(counts[1..], name)
  }

  function Total(counts: seq<CategoryCount>): nat {
    if |counts| == 0 then 0 else counts[0].count + Total(counts[1..])
  }

  /** How often `x` occurs in `xs`. */
  function Occurrences(xs: seq<string>, x: string): nat {
    if |xs| == 0 then 0 else (if xs[0] == x then 1 else 0) + Occurrences(xs[1..], x)
  }

  /** The index of the first `x` in `xs`. */
  function FirstIndex(xs: seq<string>, x: string): (i: nat)
    requires x in xs
    ensures i < |xs| && xs[i] == x
    ensures forall j :: 0 <= j < i ==> xs[j] != x
  {
    if xs[0] == x then 0 else 1 + FirstIndex(xs[1..], x)
  }

  lemma NamesOfCons(c: CategoryCount, rest: seq<CategoryCount>)
    ensures NamesOf([c] + rest) == [c.name] + NamesOf(rest)
  {
    assert forall i :: 1 <= i < |rest| + 1 ==> ([c] + rest)[i] == rest[i - 1];
  }

  /** `counts.set(name, (counts.get(name) ?? 0) + 1)` on an insertion-ordered map. */
  function Bump(counts: seq<CategoryCount>, name: string): (r: seq<CategoryCount>)
    ensures NamesOf(r) == if name in NamesOf(counts) then NamesOf(counts) else NamesOf(counts) + [name]
    ensures forall m :: CountOf(r, m) == CountOf(counts, m) + (if m == name then 1 else 0)
    ensures Total(r) == Total(counts) + 1
    decreases |counts|
  {
    if |counts| == 0 then
      NamesOfCons(CategoryCount(name, 1), []);
      [CategoryCount(name, 1)]
    else
      var head := counts[0];
      var tail := counts[1..];
      assert counts == [head] + tail;
      NamesOfCons(head, tail);
      if head.name == name then
        var first := CategoryCount(name, head.count + 1);
        NamesOfCons(first, tail);
        assert ([first] + tail)[1..] == tail;
        [first] + tail
      else
        var rest := Bump(tail, name);
        NamesOfCons(head, rest);
        assert ([head] + rest)[1..] == rest;
        [head] + rest
  }

  /** The tally after the loop has seen `names`. */
  function TallyOf(names: seq<string>): seq<CategoryCount>
    decreases |names|
  {
    if |names| == 0 then [] else Bump(TallyOf(names[..|names| - 1]), names[|names| - 1])
  }

  lemma OccurrencesAppend(xs: seq<string>, y: string, x: string)
    ensures Occurrences(xs + [y], x) == Occurrences(xs, x) + (if y == x then 1 else 0)
    decreases |xs|
  {
    if |xs| > 0 {
      assert (xs + [y])[1..] == xs[1..] + [y];
      OccurrencesAppend(xs[1..], y, x);
    }
  }

  lemma FirstIndexAppend(xs: seq<string>, y: string, x: string)
    requires x in xs
    ensures FirstIndex(xs + [y], x) == FirstIndex(xs, x)
    decreases |xs|
  {
    if xs[0] != x {
      assert (xs + [y])[1..] == xs[1..] + [y];
      FirstIndexAppend(xs[1..], y, x);
    }
  }

  lemma FirstIndexOfNew(xs: seq<string>, y: string)
    requires y !in xs
    ensures FirstIndex(xs + [y], y) == |xs|
  {
    var i := FirstIndex(xs + [y], y);
    if i < |xs| {
      assert false;
    }
  }

  /** The tally counts every category's occurrences, and all of them together. */
  lemma {:induction false} TallyCounts(names: seq<string>)
    ensures forall x :: CountOf(TallyOf(names), x) == Occurrences(names, x)
    ensures Total(TallyOf(names)) == |names|
    decreases |names|
  {
    if |names| > 0 {
      var pre := names[..|names| - 1];
      var y := names[|names| - 1];
      assert names == pre + [y];
      TallyCounts(pre);
      forall x ensures CountOf(TallyOf(names), x) == Occurrences(names, x) {
        OccurrencesAppend(pre, y, x);
      }
    }
  }

  /** The tally names each distinct category exactly once. */
  lemma {:induction false} TallyNames(names: seq<string>)
    ensures Seqs.NoDup(NamesOf(TallyOf(names)))
    ensures forall x :: x in NamesOf(TallyOf(names)) <==> x in names
    decreases |names|
  {
    if |names| > 0 {
      var pre := names[..|names| - 1];
      var y := names[|names| - 1];
      assert names == pre + [y];
      TallyNames(pre);
      var ns0 := NamesOf(TallyOf(pre));
      var ns := NamesOf(TallyOf(names));
      if y !in ns0 {
        assert ns == ns0 + [y];
        forall i, j | 0 <= i < j < |ns| ensures ns[i] != ns[j] {
          assert ns[i] == ns0[i];
          if j == |ns0| {
            assert ns0[i] in ns0;
          } else {
            assert ns[j] == ns0[j];
          }
        }
      }
    }
  }

  /** The tally lists categories in order of first appearance. */
  lemma {:induction false} TallyOrder(names: seq<string>)
    ensures forall i, j :: 0 <= i < j < |TallyOf(names)| ==>
              NamesOf(TallyOf(names))[i] in names && NamesOf(TallyOf(names))[j] in names &&
              FirstIndex(names, NamesOf(TallyOf(names))[i]) < FirstIndex(names, NamesOf(TallyOf(names))[j])
    decreases |names|
  {
    if |names| > 0 {
      var pre := names[..|names| - 1];
      var y := names[|names| - 1];
      assert names == pre + [y];
      TallyOrder(pre);
      TallyNames(pre);
      TallyNames(names);
      var ns0 := NamesOf(TallyOf(pre));
      var ns := NamesOf(TallyOf(names));
      forall i, j | 0 <= i < j < |ns|
        ensures ns[i] in names && ns[j] in names && FirstIndex(names, ns[i]) < FirstIndex(names, ns[j])
      {
        assert ns[i] == ns0[i];
        assert ns0[i] in pre;
        FirstIndexAppend(pre, y, ns0[i]);
        if j < |ns0| {
          assert ns[j] == ns0[j];
          assert ns0[j] in pre;
          FirstIndexAppend(pre, y, ns0[j]);
        } else {
          assert y !in ns0 && ns[j] == y;
          FirstIndexOfNew(pre, y);
        }
      }
      assert |ns| == |TallyOf(names)|;
    } else {
      assert TallyOf(names) == [];
    }
  }

  /** The category of every event, in catalogue order. */
  function CategoryNames(events: seq<Catalog.EventRecord>): (r: seq<string>)
    ensures |r| == |events|
    ensures forall i :: 0 <= i < |events| ==> r[i] == Catalog.CategoryName(events[i].categoria)
  {
    seq(|events|, i requires 0 <= i < |events| => Catalog.CategoryName(events[i].categoria))
  }

  /** The `categories` memo: the counting loop over the catalogue. */
  method CategoryCounts(events: seq<Catalog.EventRecord>) returns (counts: seq<CategoryCount>)
    ensures Seqs.NoDup(NamesOf(counts))
    ensures forall x :: x in NamesOf(counts) <==> x in CategoryNames(events)
    ensures forall i, j :: 0 <= i < j < |counts| ==>
              FirstIndex(CategoryNames(events), counts[i].name) < FirstIndex(CategoryNames(events), counts[j].name)
    ensures forall x :: CountOf(counts, x) == Occurrences(CategoryNames(events), x)
    ensures Total(counts) == |events|
  {
    var names := CategoryNames(events);
    counts := [];
    var i := 0;
    while i < |events|
      invariant 0 <= i <= |events|
      invariant counts == TallyOf(names[..i])
    {
      assert names[..i + 1][..i] == names[..i];
      counts := Bump(counts, Catalog.CategoryName(events[i].categoria));
      i := i + 1;
    }
    assert names[..|events|] == names;
    TallyCounts(names);
    TallyNames(names);
    TallyOrder(names);
  }

  /** The checked days in page order, Lunes first, as `Object.entries` lists them. */
  function SelectedDays(checked: set<string>): (r: seq<string>)
    ensures Seqs.NoDup(r)
    ensures forall d :: d in r <==> d in checked && d in Eventos.WeekNames()
  {
    var week := Eventos.WeekNames();
    assert Seqs.NoDup(week);
    Seqs.FilterKeepsNoDup(week, d => d in checked);
    Seqs.Filter(week, d => d in checked)
  }

  /** `selected.forEach(d => filters.toggleDay(d))`. */
  function ToggleAll(f: FiltersStore.Filters, names: seq<string>): (r: FiltersStore.Filters)
    ensures r.query == f.query && r.categories == f.categories
    ensures Seqs.NoDup(names) ==> forall d :: d in r.days <==> (d in f.days) != (d in names)
    ensures Seqs.NoDup(f.days) ==> Seqs.NoDup(r.days)
    decreases |names|, 1
  {
    if |names| == 0 then f
    else
      LastDayFlips(f, names);
      LastDayKeepsNoDup(f, names);
      FiltersStore.ToggleDay(ToggleAll(f, names[..|names| - 1]), names[|names| - 1])
  }

  /** The step of `ToggleAll` for distinct names: toggling the last name after
      the others flips exactly the names given. */
  lemma LastDayFlips(f: FiltersStore.Filters, names: seq<string>)
    requires |names| > 0
    ensures Seqs.NoDup(names) ==> forall d ::
              d in FiltersStore.ToggleDay(ToggleAll(f, names[..|names| - 1]), names[|names| - 1]).days
              <==> (d in f.days) != (d in names)
    decreases |names|, 0
  {
    var pre := names[..|names| - 1];
    var last := names[|names| - 1];
    if Seqs.NoDup(names) {
      assert forall k :: 0 <= k < |pre| ==> pre[k] == names[k];
      assert Seqs.NoDup(pre) && last !in pre;
      assert names == pre + [last];
    }
  }

  /** The step of `ToggleAll` keeps a duplicate-free day list duplicate-free. */
  lemma LastDayKeepsNoDup(f: FiltersStore.Filters, names: seq<string>)
    requires |names| > 0
    ensures Seqs.NoDup(f.days) ==>
              Seqs.NoDup(FiltersStore.ToggleDay(ToggleAll(f, names[..|names| - 1]), names[|names| - 1]).days)
    decreases |names|, 0
  {
    if Seqs.NoDup(f.days) {
      Seqs.ToggleKeepsNoDup(ToggleAll(f, names[..|names| - 1]).days, names[|names| - 1]);
    }
  }

  /** The page's own state: the search box and the seven checkboxes. */
  datatype Local = Local(query: string, checked: set<string>)

  /** "Aplicar filtros": the query is copied into the store and each checked day is toggled once, in page order. */
  method Apply(f: FiltersStore.Filters, local: Local) returns (r: FiltersStore.Filters)
    ensures r.query == local.query
    ensures r.categories == f.categories
    ensures forall d :: d in r.days <==> (d in f.days) != (d in local.checked && d in Eventos.WeekNames())
    ensures Seqs.NoDup(f.days) ==> Seqs.NoDup(r.days)
  {
    var selected := SelectedDays(local.checked);
    r := FiltersStore.SetQuery(f, local.query);
    var start := r;
    var i := 0;
    while i < |selected|
      invariant 0 <= i <= |selected|
      invariant r == ToggleAll(start, selected[..i])
    {
      ToggleAllStep(start, selected, i);
      r := FiltersStore.ToggleDay(r, selected[i]);
      i := i + 1;
    }
    assert selected[..|selected|] == selected;
    SelectedToggled(start, local.checked);
    assert r.days == ToggleAll(start, selected).days;
  }

  /** Toggling the selected days flips exactly the checked weekday names. */
  lemma SelectedToggled(f: FiltersStore.Filters, checked: set<string>)
    ensures forall d :: d in ToggleAll(f, SelectedDays(checked)).days <==> (d in f.days) != (d in checked && d in Eventos.WeekNames())
  {
    var selected := SelectedDays(checked);
    var r := ToggleAll(f, selected);
    forall d ensures d in r.days <==> (d in f.days) != (d in checked && d in Eventos.WeekNames()) {
      assert d in selected <==> d in checked && d in Eventos.WeekNames();
    }
  }

  /** Toggling one more day toggles it in the store the earlier days produced. */
  lemma ToggleAllStep(f: FiltersStore.Filters, names: seq<string>, i: int)
    requires 0 <= i < |names|
    ensures ToggleAll(f, names[..i + 1]) == FiltersStore.ToggleDay(ToggleAll(f, names[..i]), names[i])
  {
    assert names[..i + 1][..i] == names[..i];
  }

  /** Applying the same checkboxes twice gives back the days the store had. */
  lemma ApplyTwiceRestoresDays(f: FiltersStore.Filters, local: Local)
    ensures forall d :: d in ToggleAll(ToggleAll(f, SelectedDays(local.checked)), SelectedDays(local.checked)).days
                        <==> d in f.days
  {
  }

  /** "Limpiar": the search box is emptied, every box unchecked and the store reset. */
  function Clear(f: FiltersStore.Filters, local: Local): (r: (FiltersStore.Filters, Local))
    ensures r.1.query == "" && r.1.checked == {}
    ensures !Eventos.Active(r.0)
  {
    (FiltersStore.Reset(f), Local("", {}))
  }

  /** A category chip is drawn filled while its category is in the store. */
  predicate ChipFilled(f: FiltersStore.Filters, name: string) {
    name in f.categories
  }

  /** Clicking a chip flips its own fill and no other chip's. */
  lemma ChipClickFlips(f: FiltersStore.Filters, name: string, other: string)
    ensures ChipFilled(FiltersStore.ToggleCategory(f, name), name) == !ChipFilled(f, name)
    ensures other != name ==> ChipFilled(FiltersStore.ToggleCategory(f, name), other) == ChipFilled(f, other)
  {
  }

  /** The "resultados" figure is the catalogue size, whatever the filters. */
  function ResultsCount(events: seq<Catalog.EventRecord>, f: FiltersStore.Filters): (n: nat)
    ensures n == |events|
  {
    |events|
  }
}

=== FILE: hero.dfy ===
/** The hero carousel of `src/components/HeroSection.tsx`: it keeps the
    catalogue events whose title names one of five headline acts and rotates
    through them every five seconds, with a cross-fade whose gradient is picked
    at random. Timers become explicit steps: `Tick` is the interval firing,
    `Midpoint` the one-second timeout that switches the event, `Settle` the
    timeout that ends the transition. The random gradient is a parameter. */
module Hero {
  import opened Options
  import Seqs
  import Text
  import Catalog

  /** The title fragments that make an event important. */
  function Headliners(): seq<string> {
    ["Jhonny Rivera", "Alejandro Fernández", "Festival Internacional de Cine", "ATP Cali Open", "Eladio Carrión"]
  }

  predicate IsImportant(e: Catalog.EventRecord) {
    exists i :: 0 <= i < |Headliners()| && Text.Contains(e.titulo, Headliners()[i])
  }

  /** The events the carousel rotates through, in catalogue order. */
  function Important(events: seq<Catalog.EventRecord>): (r: seq<Catalog.EventRecord>)
    ensures forall e :: e in r <==> e in events && IsImportant(e)
    ensures Seqs.IsSubseq(r, events)
    ensures forall e :: multiset(r)[e] == if IsImportant(e) then multiset(events)[e] else 0
  {
    Seqs.Filter(events, IsImportant)
  }

  /** The number of gradients the transition picks from. */
  const GradientCount: nat := 5

  datatype HeroState = HeroState(
    events: seq<Catalog.EventRecord>,
    current: nat,
    next: nat,
    transitioning: bool,
    gradient: nat)

  /** The component as first mounted: no events yet, the first one current. */
  function Mount(): (s: HeroState)
    ensures s.events == [] && s.current == 0 && !s.transitioning
    ensures s.next == 1
  {
    HeroState([], 0, 1, false, 0)
  }

  /** The fetch resolving: the important events of the catalogue are stored. */
  function Loaded(s: HeroState, catalogue: seq<Catalog.EventRecord>): (r: HeroState)
    ensures r.events == Important(catalogue)
    ensures r.current == s.current && r.next == s.next && r.transitioning == s.transitioning
  {
    s.(events := Important(catalogue))
  }

  /** The index after `i` among `n` events. */
  function Rotate(i: nat, n: nat): (j: nat)
    requires n > 0
    ensures j < n
    ensures i < n - 1 ==> j == i + 1
    ensures i == n - 1 ==> j == 0
  {
    (i + 1) % n
  }

  /** The interval firing: the next index is chosen and the transition starts.
      With no events no interval is scheduled. */
  function Tick(s: HeroState): (r: HeroState)
    ensures |s.events| == 0 ==> r == s
    ensures |s.events| > 0 ==> r == s.(next := Rotate(s.current, |s.events|), transitioning := true)
  {
    if |s.events| == 0 then s
    else s.(next := (s.current + 1) % |s.events|, transitioning := true)
  }

  /** Halfway through the transition the next event becomes current and a gradient is drawn. */
  function Midpoint(s: HeroState, roll: nat): (r: HeroState)
    requires roll < GradientCount
    ensures r.current == s.next && r.gradient == roll
    ensures r.events == s.events && r.transitioning == s.transitioning
  {
    s.(current := s.next, gradient := roll)
  }

  /** The transition ends. */
  function Settle(s: HeroState): (r: HeroState)
    ensures !r.transitioning
    ensures r.events == s.events && r.current == s.current
  {
    s.(transitioning := false)
  }

  /** One full rotation: tick, switch, settle. */
  function Cycle(s: HeroState, roll: nat): (r: HeroState)
    requires roll < GradientCount
  {
    Settle(Midpoint(Tick(s), roll))
  }

  predicate Valid(s: HeroState) {
    |s.events| > 0 ==> s.current < |s.events|
  }

  /** A full rotation keeps the current index inside the list and advances it by one, wrapping. */
  lemma CycleAdvances(s: HeroState, roll: nat)
    requires roll < GradientCount
    requires Valid(s) && |s.events| > 0
    ensures Valid(Cycle(s, roll))
    ensures Cycle(s, roll).current == Rotate(s.current, |s.events|)
    ensures Cycle(s, roll).events == s.events && !Cycle(s, roll).transitioning
  {
  }

  /** The index after `k` rotations from `i`. */
  function Rotations(i: nat, n: nat, k: nat): (j: nat)
    requires i < n
    ensures j < n
  {
    if k == 0 then i else Rotate(Rotations(i, n, k - 1), n)
  }

  /** Within one round, `k` rotations move the index `k` places on, wrapping past the end once. */
  lemma {:induction false} RotationsWrap(i: nat, n: nat, k: nat)
    requires i < n && k <= n
    ensures Rotations(i, n, k) == if i + k < n then i + k else i + k - n
  {
    if k > 0 {
      RotationsWrap(i, n, k - 1);
    }
  }

  /** After `n` rotations the carousel is back where it started ... */
  lemma FullCircle(i: nat, n: nat)
    requires i < n
    ensures Rotations(i, n, n) == i
  {
    RotationsWrap(i, n, n);
  }

  /** ... and on the way it has shown every event once. */
  lemma EveryEventShown(i: nat, n: nat, j: nat)
    requires i < n && j < n
    ensures exists k :: 0 <= k < n && Rotations(i, n, k) == j
  {
    var k := if j >= i then j - i else n - i + j;
    RotationsWrap(i, n, k);
  }

  /** What the component renders. */
  datatype Screen = Placeholder | Showing(event: Catalog.EventRecord)

  function Render(s: HeroState): (v: Screen)
    requires Valid(s)
    ensures v.Placeholder? <==> |s.events| == 0
    ensures v.Showing? ==> v.event in s.events && v.event == s.events[s.current]
  {
    if |s.events| == 0 then Placeholder else Showing(s.events[s.current])
  }

  const DetailPrefix: string := "/eventos/"

  /** `handleVerDetalles`: the route of the current event, when there is one. */
  function VerDetalles(s: HeroState): (route: Option<string>)
    ensures route.Some? <==> s.current < |s.events|
    ensures route.Some? ==> route.value == DetailPrefix + s.events[s.current].id
  {
    if s.current < |s.events| then Some(DetailPrefix + s.events[s.current].id) else None
  }

  /** The button leads to the detail page of the event on screen. */
  lemma DetailsOfShownEvent(s: HeroState)
    requires Valid(s) && |s.events| > 0
    ensures Render(s).Showing? && VerDetalles(s) == Some(DetailPrefix + Render(s).event.id)
  {
  }
}

=== FILE: home.dfy ===
/** The home page of `src/pages/Home.tsx`: the four category sections, the
    "featured this week" strip, the recommended strip and the quick-filter chips
    that choose between the full page and a single section. `now` is the
    instant the catalogue arrived, when the page computes it, and `parse` is
    `new Date(fecha)`, `None` where the result is an invalid date. */
module Home {
  import opened Options
  import Seqs
  import Text
  import Catalog

  /** The quick-filter chips; `Todo` is the initial one. */
  datatype QuickFilter = Todo | Conciertos | Cultura | Deportes | Academico

  /** `normalize`: decomposed, stripped of diacritics and lower-cased. Only the
      four ASCII category names reach it, and on ASCII text it is `toLowerCase`. */
  function Normalize(s: string): string {
    Text.Lower(s)
  }

  /** `by(key)`: the events whose normalised category is the normalised key, in catalogue order. */
  function Section(events: seq<Catalog.EventRecord>, key: string): seq<Catalog.EventRecord> {
    Seqs.Filter(events, (e: Catalog.EventRecord) => Normalize(Catalog.CategoryName(e.categoria)) == Normalize(key))
  }

  /** Normalising keeps the four category names apart. */
  lemma NormalizeSeparatesCategories(a: Catalog.Category, b: Catalog.Category)
    requires Normalize(Catalog.CategoryName(a)) == Normalize(Catalog.CategoryName(b))
    ensures a == b
  {
    var na := Normalize(Catalog.CategoryName(a));
    var nb := Normalize(Catalog.CategoryName(b));
    assert |na| == |Catalog.CategoryName(a)| && |nb| == |Catalog.CategoryName(b)|;
    assert na[0] == Text.LowerChar(Catalog.CategoryName(a)[0]);
    assert nb[0] == Text.LowerChar(Catalog.CategoryName(b)[0]);
  }

  /** The section of a category holds exactly the catalogue events of that category. */
  lemma SectionOfCategory(events: seq<Catalog.EventRecord>, c: Catalog.Category, e: Catalog.EventRecord)
    ensures e in Section(events, Catalog.CategoryName(c)) <==> e in events && e.categoria == c
  {
    if e in Section(events, Catalog.CategoryName(c)) {
      NormalizeSeparatesCategories(e.categoria, c);
    }
  }

  /** So every event lands in exactly one of the four sections. */
  lemma EveryEventInOneSection(events: seq<Catalog.EventRecord>, e: Catalog.EventRecord)
    requires e in events
    ensures e in Section(events, Catalog.CategoryName(e.categoria))
    ensures forall c :: c != e.categoria ==> e !in Section(events, Catalog.CategoryName(c))
  {
    SectionOfCategory(events, e.categoria, e);
    forall c | c != e.categoria
      ensures e !in Section(events, Catalog.CategoryName(c))
    {
      SectionOfCategory(events, c, e);
    }
  }

  /** One week in milliseconds. */
  const WeekMs: int := 7 * 24 * 60 * 60 * 1000

  /** Free entry or a concert; a missing `precioCOP` is not free. */
  predicate IsSpecial(e: Catalog.EventRecord) {
    e.precioCOP == Some(0.0) || e.categoria == Catalog.Concierto
  }

  predicate IsFeatured(e: Catalog.EventRecord, now: int, parse: string -> Option<int>) {
    match parse(e.fecha)
    case None => false
    case Some(t) => now <= t <= now + WeekMs && IsSpecial(e)
  }

  /** `IsFeatured` as the test handed to `filter`. */
  function FeaturedTest(now: int, parse: string -> Option<int>): Catalog.EventRecord -> bool {
    (e: Catalog.EventRecord) => IsFeatured(e, now, parse)
  }

  /** The events of the coming week that are free or concerts, in catalogue order. */
  function Qualifying(events: seq<Catalog.EventRecord>, now: int, parse: string -> Option<int>): seq<Catalog.EventRecord> {
    Seqs.Filter(events, FeaturedTest(now, parse))
  }

  /** The featured strip: the first three qualifying events, or all of them when there are fewer. */
  function Featured(events: seq<Catalog.EventRecord>, now: int, parse: string -> Option<int>): (r: seq<Catalog.EventRecord>)
    ensures |r| == Min(3, |Qualifying(events, now, parse)|)
    ensures r <= Qualifying(events, now, parse)
    ensures Seqs.IsSubseq(r, events)
    ensures forall e :: e in r ==>
              parse(e.fecha).Some? && now <= parse(e.fecha).value <= now + WeekMs && IsSpecial(e)
  {
    Seqs.TakeFilterIsSubseq(events, FeaturedTest(now, parse), 3);
    var r := Seqs.Take(Qualifying(events, now, parse), 3);
    assert forall e :: e in r ==> IsFeatured(e, now, parse);
    r
  }

  /** An event is featured exactly when it qualifies at a catalogue position
      preceded by fewer than three qualifying events. */
  lemma FeaturedIffEarlyQualifying(events: seq<Catalog.EventRecord>, now: int, parse: string -> Option<int>, e: Catalog.EventRecord)
    ensures e in Featured(events, now, parse) <==>
              exists i :: 0 <= i < |events| && events[i] == e && IsFeatured(e, now, parse)
                          && |Qualifying(events[..i], now, parse)| < 3
  {
    var q := Qualifying(events, now, parse);
    var r := Featured(events, now, parse);
    if e in r {
      var j :| 0 <= j < |r| && r[j] == e;
      assert q[j] == e;
      var i := Seqs.FilterSource(events, FeaturedTest(now, parse), j);
      assert events[i] == e && |Qualifying(events[..i], now, parse)| == j;
    }
    if exists i :: 0 <= i < |events| && events[i] == e && IsFeatured(e, now, parse)
                   && |Qualifying(events[..i], now, parse)| < 3 {
      var i :| 0 <= i < |events| && events[i] == e && IsFeatured(e, now, parse)
               && |Qualifying(events[..i], now, parse)| < 3;
      Seqs.FilterPosition(events, FeaturedTest(now, parse), i);
      assert r[|Qualifying(events[..i], now, parse)|] == e;
    }
  }

  /** With at most three qualifying events, every one of them is featured. */
  lemma FeaturedAreFirstQualifying(events: seq<Catalog.EventRecord>, now: int, parse: string -> Option<int>, e: Catalog.EventRecord)
    requires e in events && IsFeatured(e, now, parse)
    requires |Qualifying(events, now, parse)| <= 3
    ensures e in Featured(events, now, parse)
  {
  }

  /** An event without a price that is not a concert is never featured. */
  lemma UnpricedNonConcertNotFeatured(events: seq<Catalog.EventRecord>, now: int, parse: string -> Option<int>, e: Catalog.EventRecord)
    requires e.precioCOP.None? && e.categoria != Catalog.Concierto
    ensures e !in Featured(events, now, parse)
  {
  }

  function SectionCategory(f: QuickFilter): Option<Catalog.Category> {
    match f
    case Todo => None
    case Conciertos => Some(Catalog.Concierto)
    case Cultura => Some(Catalog.Cultura)
    case Deportes => Some(Catalog.Deportivo)
    case Academico => Some(Catalog.Academico)
  }

  function SectionTitle(c: Catalog.Category): string {
    match c
    case Concierto => "Conciertos"
    case Cultura => "Cultura"
    case Deportivo => "Deportes"
    case Academico => "Académico"
  }

  /** What the page shows below the chips, top to bottom; a strip or section
      with no events renders nothing and is left out. */
  datatype Block =
    | HeroBlock
    | FeaturedBlock(featured: seq<Catalog.EventRecord>)
    | RecommendedBlock(recommended: seq<Catalog.EventRecord>)
    | SectionBlock(title: string, members: seq<Catalog.EventRecord>)

  /** The section a category heads: its title and its events. */
  function SectionFor(events: seq<Catalog.EventRecord>, c: Catalog.Category): Block {
    SectionBlock(SectionTitle(c), Section(events, Catalog.CategoryName(c)))
  }

  /** The sections of the categories `cs`, empty or not, in that order. */
  function AllSections(events: seq<Catalog.EventRecord>, cs: seq<Catalog.Category>): (r: seq<Block>)
    ensures |r| == |cs| && forall i :: 0 <= i < |cs| ==> r[i] == SectionFor(events, cs[i])
  {
    seq(|cs|, i requires 0 <= i < |cs| => SectionFor(events, cs[i]))
  }

  /** A section renders only when it has events; the other blocks always do. */
  predicate Renders(b: Block) {
    b.SectionBlock? ==> |b.members| > 0
  }

  /** The sections of `cs` that render, in the order of `cs`. */
  function SectionBlocks(events: seq<Catalog.EventRecord>, cs: seq<Catalog.Category>): (r: seq<Block>)
    ensures r == Seqs.Filter(AllSections(events, cs), Renders)
    ensures forall b :: b in r ==> b.SectionBlock?
    ensures |r| <= |cs|
  {
    if |cs| == 0 then []
    else
      SectionsCons(events, cs);
      var b := SectionFor(events, cs[0]);
      NonEmpty(b, Renders(b)) + SectionBlocks(events, cs[1..])
  }

  /** Filtering the sections of a non-empty list handles its first category, then the rest. */
  lemma SectionsCons(events: seq<Catalog.EventRecord>, cs: seq<Catalog.Category>)
    requires |cs| > 0
    ensures var b := SectionFor(events, cs[0]);
            Seqs.Filter(AllSections(events, cs), Renders) == NonEmpty(b, Renders(b)) + Seqs.Filter(AllSections(events, cs[1..]), Renders)
  {
    var all := AllSections(events, cs);
    SectionsTail(events, cs);
    if Renders(all[0]) {
      assert Seqs.Filter(all, Renders) == [all[0]] + Seqs.Filter(all[1..], Renders);
    } else {
      assert Seqs.Filter(all, Renders) == Seqs.Filter(all[1..], Renders);
    }
  }

  /** The sections of a non-empty list: its first category's, then the rest's. */
  lemma SectionsTail(events: seq<Catalog.EventRecord>, cs: seq<Catalog.Category>)
    requires |cs| > 0
    ensures AllSections(events, cs)[0] == SectionFor(events, cs[0])
    ensures AllSections(events, cs)[1..] == AllSections(events, cs[1..])
  {
    var all := AllSections(events, cs);
    var rest := AllSections(events, cs[1..]);
    assert forall i :: 0 <= i < |rest| ==> all[1..][i] == all[i + 1] == SectionFor(events, cs[i + 1]) == rest[i];
  }

  /** A category's section is among the blocks exactly when the category is
      listed and has events. */
  lemma SectionShownIff(events: seq<Catalog.EventRecord>, cs: seq<Catalog.Category>, c: Catalog.Category)
    ensures SectionFor(events, c) in SectionBlocks(events, cs) <==>
              c in cs && |Section(events, Catalog.CategoryName(c))| > 0
  {
    InAllSections(events, cs, c);
  }

  /** A category's section is among all sections exactly when the category is listed. */
  lemma InAllSections(events: seq<Catalog.EventRecord>, cs: seq<Catalog.Category>, c: Catalog.Category)
    ensures SectionFor(events, c) in AllSections(events, cs) <==> c in cs
  {
    var all := AllSections(events, cs);
    if SectionFor(events, c) in all {
      var i :| 0 <= i < |all| && all[i] == SectionFor(events, c);
      SectionTitleInjective(cs[i], c);
    }
    if c in cs {
      var i :| 0 <= i < |cs| && cs[i] == c;
      assert all[i] == SectionFor(events, c);
    }
  }

  /** The four section titles are distinct. */
  lemma SectionTitleInjective(a: Catalog.Category, b: Catalog.Category)
    requires SectionTitle(a) == SectionTitle(b)
    ensures a == b
  {
  }

  function NonEmpty(b: Block, present: bool): seq<Block> {
    if present then [b] else []
  }

  /** The category sections of the full page, top to bottom. */
  const PageOrder: seq<Catalog.Category> := [Catalog.Concierto, Catalog.Cultura, Catalog.Deportivo, Catalog.Academico]

  /** The page for a chip: with `Todo` the hero, the strips and all four sections;
      with any other chip only that chip's section. */
  function Layout(events: seq<Catalog.EventRecord>, f: QuickFilter, now: int, parse: string -> Option<int>): (r: seq<Block>)
    ensures HeroBlock in r <==> f == Todo
    ensures f != Todo ==> |r| <= 1
    ensures f != Todo ==> forall b :: b in r ==> b == SectionFor(events, SectionCategory(f).value)
    ensures f != Todo ==> (r == [] <==> |Section(events, Catalog.CategoryName(SectionCategory(f).value))| == 0)
    ensures (exists b :: b in r && (b.FeaturedBlock? || b.RecommendedBlock?)) ==> f == Todo
    ensures f == Todo ==> (FeaturedBlock(Featured(events, now, parse)) in r <==> |Featured(events, now, parse)| > 0)
    ensures f == Todo ==> (RecommendedBlock(Seqs.Take(events, 5)) in r <==> |events| > 0)
    ensures f == Todo ==> var s := SectionBlocks(events, PageOrder); |s| <= |r| && r[|r| - |s|..] == s
    ensures f == Todo ==> r == FullLayout(events, now, parse)
  {
    if f == Todo then
      var r := FullLayout(events, now, parse);
      assert HeroBlock in r;
      r
    else
      var c := SectionCategory(f).value;
      CategoryLayout(events, c)
  }

  /** The page under `Todo`: the hero, the non-empty strips, then the four
      category sections in page order, those without events left out. */
  function FullLayout(events: seq<Catalog.EventRecord>, now: int, parse: string -> Option<int>): (r: seq<Block>)
    ensures |r| > 0 && r[0] == HeroBlock
    ensures FeaturedBlock(Featured(events, now, parse)) in r <==> |Featured(events, now, parse)| > 0
    ensures RecommendedBlock(Seqs.Take(events, 5)) in r <==> |events| > 0
    ensures var s := SectionBlocks(events, PageOrder);
            |s| <= |r| && r[|r| - |s|..] == s && forall b :: b in r[..|r| - |s|] ==> !b.SectionBlock?
    ensures var s := SectionBlocks(events, PageOrder);
            r[..|r| - |s|] == Strips(Featured(events, now, parse), Seqs.Take(events, 5))
  {
    var strips := Strips(Featured(events, now, parse), Seqs.Take(events, 5));
    var sections := SectionBlocks(events, PageOrder);
    Joined(strips, sections);
    strips + sections
  }

  /** A page made of a head and a tail splits back into them. */
  lemma Joined(head: seq<Block>, tail: seq<Block>)
    ensures |head + tail| - |tail| == |head|
    ensures (head + tail)[..|head|] == head && (head + tail)[|head|..] == tail
    ensures forall b :: b in head + tail <==> b in head || b in tail
  {
  }

  /** The hero, then the featured and recommended strips when they have events. */
  function Strips(feat: seq<Catalog.EventRecord>, rec: seq<Catalog.EventRecord>): (r: seq<Block>)
    ensures |r| > 0 && r[0] == HeroBlock
    ensures forall b :: b in r ==> !b.SectionBlock?
    ensures FeaturedBlock(feat) in r <==> |feat| > 0
    ensures RecommendedBlock(rec) in r <==> |rec| > 0
    ensures |r| == 1 + (if |feat| > 0 then 1 else 0) + (if |rec| > 0 then 1 else 0)
    ensures |feat| > 0 ==> r[1] == FeaturedBlock(feat)
    ensures |rec| > 0 ==> r[|r| - 1] == RecommendedBlock(rec)
  {
    [HeroBlock] + NonEmpty(FeaturedBlock(feat), |feat| > 0) + NonEmpty(RecommendedBlock(rec), |rec| > 0)
  }

  /** When every listed category has events, every section renders. */
  lemma AllRendered(events: seq<Catalog.EventRecord>, cs: seq<Catalog.Category>)
    requires forall c :: c in cs ==> |Section(events, Catalog.CategoryName(c))| > 0
    ensures SectionBlocks(events, cs) == AllSections(events, cs)
  {
    var all := AllSections(events, cs);
    forall b | b in all ensures Renders(b) {
      var i :| 0 <= i < |all| && all[i] == b;
      assert cs[i] in cs;
    }
    Seqs.FilterKeepsAll(all, Renders);
  }

  /** The page under a category chip: that category's section, when it has events. */
  function CategoryLayout(events: seq<Catalog.EventRecord>, c: Catalog.Category): (r: seq<Block>)
    ensures |r| <= 1
    ensures forall b :: b in r ==> b == SectionFor(events, c)
    ensures r == [] <==> |Section(events, Catalog.CategoryName(c))| == 0
  {
    var members := Section(events, Catalog.CategoryName(c));
    NonEmpty(SectionBlock(SectionTitle(c), members), |members| > 0)
  }

  /** A featured card with its `#rank` badge. */
  datatype RankedCard = RankedCard(event: Catalog.EventRecord, rank: nat)

  /** The featured cards: two on a phone, four on a wider screen, ranked from 1. */
  function FeaturedCards(featured: seq<Catalog.EventRecord>, mobile: bool): (r: seq<RankedCard>)
    ensures |r| == if mobile then Min(|featured|, 2) else Min(|featured|, 4)
    ensures forall i :: 0 <= i < |r| ==> r[i].event == featured[i] && r[i].rank == i + 1
  {
    var shown := Seqs.Take(featured, if mobile then 2 else 4);
    seq(|shown|, i requires 0 <= i < |shown| => RankedCard(shown[i], i + 1))
  }

  function Min(a: int, b: int): int {
    if a <= b then a else b
  }

  /** A wide screen shows every featured event, since there are at most three. */
  lemma DesktopShowsAllFeatured(events: seq<Catalog.EventRecord>, now: int, parse: string -> Option<int>)
    ensures |FeaturedCards(Featured(events, now, parse), false)| == |Featured(events, now, parse)|
  {
  }

  /** The recommended cards: the first five events, of which a phone shows three. */
  function RecommendedCards(events: seq<Catalog.EventRecord>, mobile: bool): (r: seq<Catalog.EventRecord>)
    ensures r <= events
    ensures |r| == Min(|events|, if mobile then 3 else 5)
  {
    Seqs.Take(Seqs.Take(events, 5), if mobile then 3 else 5)
  }
}

=== FILE: horizontal_calendar.dfy ===
/** The six-week grid of `src/components/HorizontalCalendar.tsx`. The component
    keeps one date, `currentDate`, as a local day number: its month is the one
    displayed and its day is the highlighted "selected" cell. Every grid cell
    carries its number, whether it belongs to the displayed month, and the day
    number of the `Date` it builds for it. */
module HorizontalCalendar {
  import Dates
  import MonthCalendar

  /** The arguments of the `new Date(year, month, day)` an entry holds; the
      month index may be -1 or 12, which the constructor rolls over. */
  datatype DateArgs = DateArgs(year: int, month: int, day: int)

  /** The local day number of the `Date` built from `a`. */
  function DayOf(a: DateArgs): int {
    Dates.DateDay(a.year, a.month, a.day)
  }

  /** One entry of `days`. */
  datatype DayEntry = DayEntry(day: int, isCurrentMonth: bool, date: DateArgs)

  /** Leading entries numbered up to `last`, each dated that day of month `m - 1`. */
  function LeadingEntries(count: nat, last: int, y: int, m: int): (r: seq<DayEntry>)
    ensures |r| == count
    ensures forall k :: 0 <= k < count ==>
              r[k] == DayEntry(last - count + k + 1, false, DateArgs(y, m - 1, last - count + k + 1))
  {
    seq(count, k requires 0 <= k < count => DayEntry(last - count + k + 1, false, DateArgs(y, m - 1, last - count + k + 1)))
  }

  /** Entries numbered 1 to `n`, each dated that day of month `m`. */
  function NumberedEntries(n: nat, inMonth: bool, y: int, m: int): (r: seq<DayEntry>)
    ensures |r| == n
    ensures forall j :: 0 <= j < n ==> r[j] == DayEntry(j + 1, inMonth, DateArgs(y, m, j + 1))
  {
    seq(n, j requires 0 <= j < n => DayEntry(j + 1, inMonth, DateArgs(y, m, j + 1)))
  }

  /** The three loops: `start` leading entries numbered up to `prevLast`, the
      `daysInMonth` days of month `m`, then the first days of the next month up
      to 42 entries. */
  function Assemble(y: int, m: int, start: nat, daysInMonth: nat, prevLast: int): (r: seq<DayEntry>)
    requires start + daysInMonth <= 42
    ensures |r| == 42
    ensures forall k :: 0 <= k < start ==>
              r[k] == DayEntry(prevLast - start + k + 1, false, DateArgs(y, m - 1, prevLast - start + k + 1))
    ensures forall k :: start <= k < start + daysInMonth ==>
              r[k] == DayEntry(k - start + 1, true, DateArgs(y, m, k - start + 1))
    ensures forall k :: start + daysInMonth <= k < 42 ==>
              r[k] == DayEntry(k - start - daysInMonth + 1, false, DateArgs(y, m + 1, k - start - daysInMonth + 1))
  {
    var leading := LeadingEntries(start, prevLast, y, m);
    var current := NumberedEntries(daysInMonth, true, y, m);
    var trailing := NumberedEntries(42 - (start + daysInMonth), false, y, m + 1);
    var r := leading + current + trailing;
    assert forall k :: start <= k < start + daysInMonth ==> r[k] == current[k - start];
    assert forall k :: start + daysInMonth <= k < 42 ==> r[k] == trailing[k - start - daysInMonth];
    r
  }

  /** The grid as the component builds it: the leading numbers count up to
      `new Date(year, month - 1, 0).getDate()`, the last day of the month two
      before the displayed one. */
  function GridAsWritten(y: int, m: int): (r: seq<DayEntry>)
    requires 0 <= m < 12
    ensures r == Assemble(y, m, MonthCalendar.StartingWeekday(y, m), Dates.MonthLength(y, m), Dates.MonthLength(y, m - 2))
  {
    Dates.LastDateIsMonthLength(y, m);
    Dates.LastDateIsMonthLength(y, m - 2);
    Assemble(y, m, MonthCalendar.StartingWeekday(y, m), Dates.LastDate(y, m), Dates.LastDate(y, m - 2))
  }

  /** The grid with the leading numbers counting up to the last day of the
      previous month, `new Date(year, month, 0).getDate()`. */
  function Grid(y: int, m: int): (r: seq<DayEntry>)
    requires 0 <= m < 12
    ensures r == Assemble(y, m, MonthCalendar.StartingWeekday(y, m), Dates.MonthLength(y, m), Dates.MonthLength(y, m - 1))
  {
    Dates.LastDateIsMonthLength(y, m);
    Dates.LastDateIsMonthLength(y, m - 1);
    Assemble(y, m, MonthCalendar.StartingWeekday(y, m), Dates.LastDate(y, m), Dates.LastDate(y, m - 1))
  }

  /** The grid is 42 consecutive days starting from the Sunday that opens its
      first row, and the entries of the displayed month are the middle run. */
  lemma GridIsConsecutive(y: int, m: int, k: int)
    requires 0 <= m < 12 && 0 <= k < 42
    ensures DayOf(Grid(y, m)[k].date) == MonthCalendar.PositionDay(y, m, k)
    ensures Grid(y, m)[k].isCurrentMonth <==>
              MonthCalendar.StartingWeekday(y, m) <= k < MonthCalendar.StartingWeekday(y, m) + Dates.MonthLength(y, m)
  {
    var start := MonthCalendar.StartingWeekday(y, m);
    var len := Dates.MonthLength(y, m);
    if k < start {
      var d := Dates.MonthLength(y, m - 1) - start + k + 1;
      assert Grid(y, m)[k] == DayEntry(d, false, DateArgs(y, m - 1, d));
      MonthCalendar.PositionInPreviousMonth(y, m, k, d);
    } else if k < start + len {
      assert Grid(y, m)[k] == DayEntry(k - start + 1, true, DateArgs(y, m, k - start + 1));
      Dates.DateDayOffset(y, m, k - start + 1);
    } else {
      TrailingPosition(y, m, k);
    }
  }

  /** A trailing entry's date is the grid position's day. */
  lemma TrailingPosition(y: int, m: int, k: int)
    requires 0 <= m < 12 && MonthCalendar.StartingWeekday(y, m) + Dates.MonthLength(y, m) <= k < 42
    ensures DayOf(Grid(y, m)[k].date) == MonthCalendar.PositionDay(y, m, k)
  {
    var d := k - MonthCalendar.StartingWeekday(y, m) - Dates.MonthLength(y, m) + 1;
    assert Grid(y, m)[k].date == DateArgs(y, m + 1, d);
    Dates.NextMonthStart(y, m);
    Dates.DateDayOffset(y, m + 1, d);
  }

  /** Every entry shows the day of the month of its own date, and is marked as
      the current month exactly when its date lies in the displayed month. */
  lemma GridShowsItsDates(y: int, m: int, k: int)
    requires 0 <= m < 12 && 0 <= k < 42
    ensures var c := Dates.CivilOf(DayOf(Grid(y, m)[k].date));
            c.day == Grid(y, m)[k].day && (Grid(y, m)[k].isCurrentMonth <==> c.year == y && c.month == m)
  {
    var start := MonthCalendar.StartingWeekday(y, m);
    var len := Dates.MonthLength(y, m);
    if k < start {
      LeadingEntryDate(y, m, k);
    } else if k < start + len {
      CurrentEntryDate(y, m, k);
    } else {
      TrailingEntryDate(y, m, k);
    }
  }

  /** An entry of the displayed month holds that day of the month, with its own number. */
  lemma CurrentEntryDate(y: int, m: int, k: int)
    requires 0 <= m < 12
    requires MonthCalendar.StartingWeekday(y, m) <= k < MonthCalendar.StartingWeekday(y, m) + Dates.MonthLength(y, m)
    ensures var c := Dates.CivilOf(DayOf(Grid(y, m)[k].date));
            c.day == Grid(y, m)[k].day && Grid(y, m)[k].isCurrentMonth && c.year == y && c.month == m
  {
    var d := k - MonthCalendar.StartingWeekday(y, m) + 1;
    assert Grid(y, m)[k] == DayEntry(d, true, DateArgs(y, m, d));
    Dates.DateDayCivil(y, m, d);
    Dates.NormalizeValidMonth(y, m, 1);
  }

  /** A leading entry holds a day of the previous month, with its own number. */
  lemma LeadingEntryDate(y: int, m: int, k: int)
    requires 0 <= m < 12 && 0 <= k < MonthCalendar.StartingWeekday(y, m)
    ensures var c := Dates.CivilOf(DayOf(Grid(y, m)[k].date));
            c.day == Grid(y, m)[k].day && !Grid(y, m)[k].isCurrentMonth && 12 * c.year + c.month == 12 * y + m - 1
  {
    var d := Dates.MonthLength(y, m - 1) - MonthCalendar.StartingWeekday(y, m) + k + 1;
    assert Grid(y, m)[k].date == DateArgs(y, m - 1, d);
    Dates.DateDayCivil(y, m - 1, d);
  }

  /** A trailing entry holds a day of the next month, with its own number. */
  lemma TrailingEntryDate(y: int, m: int, k: int)
    requires 0 <= m < 12 && MonthCalendar.StartingWeekday(y, m) + Dates.MonthLength(y, m) <= k < 42
    ensures var c := Dates.CivilOf(DayOf(Grid(y, m)[k].date));
            c.day == Grid(y, m)[k].day && !Grid(y, m)[k].isCurrentMonth && 12 * c.year + c.month == 12 * y + m + 1
  {
    var d := k - MonthCalendar.StartingWeekday(y, m) - Dates.MonthLength(y, m) + 1;
    assert Grid(y, m)[k].date == DateArgs(y, m + 1, d);
    Dates.DateDayCivil(y, m + 1, d);
  }

  /** The leading numbers as written are off by the difference between the
      lengths of the two months before the displayed one; every other entry agrees. */
  lemma AsWrittenLeadingOffset(y: int, m: int, k: int)
    requires 0 <= m < 12 && 0 <= k < 42
    ensures k < MonthCalendar.StartingWeekday(y, m) ==>
              GridAsWritten(y, m)[k].day == Grid(y, m)[k].day + Dates.MonthLength(y, m - 2) - Dates.MonthLength(y, m - 1)
    ensures k >= MonthCalendar.StartingWeekday(y, m) ==> GridAsWritten(y, m)[k] == Grid(y, m)[k]
  {
  }

  /** March 2025 opens on a Saturday after a 28-day February: the component
      numbers the six leading cells 26 to 31 where 23 to 28 belong, and its cells
      3 and 6 both hold 1 March, so both light up when that day is today or selected. */
  lemma March2025AsWritten()
    ensures MonthCalendar.StartingWeekday(2025, 2) == 6
    ensures GridAsWritten(2025, 2)[5].day == 31 && Grid(2025, 2)[5].day == 28
    ensures DayOf(GridAsWritten(2025, 2)[3].date) == DayOf(GridAsWritten(2025, 2)[6].date)
  {
    March2025Frame();
    assert GridAsWritten(2025, 2)[3].date == DateArgs(2025, 1, 29);
    assert GridAsWritten(2025, 2)[6].date == DateArgs(2025, 2, 1);
  }

  /** The calendar facts of early 2025 the example above rests on. */
  lemma March2025Frame()
    ensures Dates.DateDay(2025, 2, 1) == 20148 && Dates.DateDay(2025, 1, 29) == 20148
    ensures MonthCalendar.StartingWeekday(2025, 2) == 6
    ensures Dates.MonthLength(2025, 0) == 31 && Dates.MonthLength(2025, 1) == 28 && Dates.MonthLength(2025, 2) == 31
  {
    Year2025Starts();
    Dates.NormalizeValidMonth(2025, 2, 1);
    Dates.NormalizeValidMonth(2025, 1, 29);
    assert Dates.WeekdayOfDay(20148) == 6;
    Dates.NormalizeValidMonth(2025, 0, 1);
    assert Dates.DaysInMonth(2025, 0) == 31;
  }

  lemma Year2025Starts()
    ensures Dates.DaysBeforeYear(2025) == 20089
    ensures !Dates.IsLeap(2025)
  {
  }

  /** `isToday`: the entry's date is today's local day. */
  predicate IsToday(e: DayEntry, today: Dates.Instant) {
    DayOf(e.date) == Dates.CivilDay(today)
  }

  /** `isSelected`: the entry's date is `currentDate`'s local day. */
  predicate IsSelected(e: DayEntry, current: int) {
    DayOf(e.date) == current
  }

  /** The grid the component displays for `currentDate`, as it builds it: it
      agrees with the corrected grid from the first day of the month on, and its
      leading numbers are off by the length difference of the two months before. */
  function Displayed(current: int): (r: seq<DayEntry>)
    ensures |r| == 42
    ensures var c := Dates.CivilOf(current); OffsetFromCorrected(r, c.year, c.month)
  {
    var c := Dates.CivilOf(current);
    AsWrittenAgrees(c.year, c.month);
    GridAsWritten(c.year, c.month)
  }

  /** A 42-entry grid for month `m` of year `y` that equals the corrected grid
      from the first day of the month on, and whose leading numbers exceed the
      corrected ones by the length of the month two before minus that of the
      previous month. */
  ghost predicate OffsetFromCorrected(r: seq<DayEntry>, y: int, m: int)
    requires 0 <= m < 12
  {
    && |r| == 42
    && (forall k :: MonthCalendar.StartingWeekday(y, m) <= k < 42 ==> r[k] == Grid(y, m)[k])
    && (forall k :: 0 <= k < MonthCalendar.StartingWeekday(y, m) ==>
          r[k].day == Grid(y, m)[k].day + Dates.MonthLength(y, m - 2) - Dates.MonthLength(y, m - 1))
  }

  /** `AsWrittenLeadingOffset` for every entry at once. */
  lemma AsWrittenAgrees(y: int, m: int)
    requires 0 <= m < 12
    ensures OffsetFromCorrected(GridAsWritten(y, m), y, m)
  {
    forall k | 0 <= k < 42
      ensures k < MonthCalendar.StartingWeekday(y, m) ==>
                GridAsWritten(y, m)[k].day == Grid(y, m)[k].day + Dates.MonthLength(y, m - 2) - Dates.MonthLength(y, m - 1)
      ensures k >= MonthCalendar.StartingWeekday(y, m) ==> GridAsWritten(y, m)[k] == Grid(y, m)[k]
    {
      AsWrittenLeadingOffset(y, m, k);
    }
  }

  /** The corrected grid for `currentDate`'s month. */
  function DisplayedCorrected(current: int): (r: seq<DayEntry>)
    ensures |r| == 42
    ensures var c := Dates.CivilOf(current);
            forall k :: 0 <= k < 42 ==> (r[k].isCurrentMonth <==>
              MonthCalendar.StartingWeekday(c.year, c.month) <= k < MonthCalendar.StartingWeekday(c.year, c.month) + Dates.MonthLength(c.year, c.month))
  {
    var c := Dates.CivilOf(current);
    GridMarksMonth(c.year, c.month);
    Grid(c.year, c.month)
  }

  /** The corrected grid marks exactly the middle run as the displayed month. */
  lemma GridMarksMonth(y: int, m: int)
    requires 0 <= m < 12
    ensures forall k :: 0 <= k < 42 ==> (Grid(y, m)[k].isCurrentMonth <==>
              MonthCalendar.StartingWeekday(y, m) <= k < MonthCalendar.StartingWeekday(y, m) + Dates.MonthLength(y, m))
  {
    forall k | 0 <= k < 42
      ensures Grid(y, m)[k].isCurrentMonth <==>
                MonthCalendar.StartingWeekday(y, m) <= k < MonthCalendar.StartingWeekday(y, m) + Dates.MonthLength(y, m)
    {
      GridIsConsecutive(y, m, k);
    }
  }

  /** In the corrected grid exactly one entry is selected: the one of `currentDate` itself. */
  lemma ExactlyOneSelected(current: int, k: int)
    requires 0 <= k < 42
    ensures var c := Dates.CivilOf(current);
            IsSelected(DisplayedCorrected(current)[k], current) <==> k == MonthCalendar.StartingWeekday(c.year, c.month) + c.day - 1
  {
    var c := Dates.CivilOf(current);
    GridIsConsecutive(c.year, c.month, k);
    Dates.NormalizeValidMonth(c.year, c.month, 1);
    Dates.NormalizeValidMonth(c.year, c.month, c.day);
  }

  /** In the corrected grid at most one entry is today. */
  lemma AtMostOneToday(current: int, today: Dates.Instant, k1: int, k2: int)
    requires 0 <= k1 < 42 && 0 <= k2 < 42
    requires IsToday(DisplayedCorrected(current)[k1], today) && IsToday(DisplayedCorrected(current)[k2], today)
    ensures k1 == k2
  {
    var c := Dates.CivilOf(current);
    GridIsConsecutive(c.year, c.month, k1);
    GridIsConsecutive(c.year, c.month, k2);
  }

  /** In the displayed grid, from the first day of the month on, exactly the
      entry of `currentDate` is selected; the leading entries are what can go wrong. */
  lemma SelectedAsWritten(current: int, k: int)
    requires var c := Dates.CivilOf(current); MonthCalendar.StartingWeekday(c.year, c.month) <= k < 42
    ensures var c := Dates.CivilOf(current);
            IsSelected(Displayed(current)[k], current) <==> k == MonthCalendar.StartingWeekday(c.year, c.month) + c.day - 1
  {
    var c := Dates.CivilOf(current);
    assert OffsetFromCorrected(Displayed(current), c.year, c.month);
    assert Displayed(current)[k] == DisplayedCorrected(current)[k];
    ExactlyOneSelected(current, k);
  }

  /** On 1 March 2025 the displayed grid selects two entries, 3 and 6, and when
      that day is today it marks both of them as today. */
  lemma March2025TwoSelected(today: Dates.Instant)
    requires Dates.CivilDay(today) == 20148
    ensures Dates.CivilOf(20148) == Dates.CivilDate(2025, 2, 1)
    ensures IsSelected(Displayed(20148)[3], 20148) && IsSelected(Displayed(20148)[6], 20148)
    ensures IsToday(Displayed(20148)[3], today) && IsToday(Displayed(20148)[6], today)
  {
    March2025Frame();
    Dates.DateDayCivil(2025, 2, 1);
    March2025AsWritten();
  }

  /** `navigateMonth` as written: `setMonth(getMonth() ± 1)` keeps the day of the
      month, and a day the target month lacks runs over into the month after. */
  function NavigateAsWritten(current: int, forward: bool): (r: int)
    ensures var c := Dates.CivilOf(current);
            c.day <= Dates.MonthLength(c.year, c.month + (if forward then 1 else -1)) ==> r == Navigate(current, forward)
  {
    var c := Dates.CivilOf(current);
    Dates.DateDay(c.year, c.month + (if forward then 1 else -1), c.day)
  }

  /** From a day the next month lacks, "next" as written lands two months ahead. */
  lemma NextSkipsShortMonth(c: Dates.CivilDate)
    requires Dates.ValidDate(c)
    requires c.day > Dates.MonthLength(c.year, c.month + 1)
    ensures var r := Dates.CivilOf(NavigateAsWritten(Dates.DayNumber(c.year, c.month, c.day), true));
            12 * r.year + r.month == 12 * c.year + c.month + 2
  {
    var d := c.day - Dates.MonthLength(c.year, c.month + 1);
    NextAsWrittenSpills(c);
    assert 1 <= d <= Dates.MonthLength(c.year, c.month + 2);
    Dates.DateDayCivil(c.year, c.month + 2, d);
  }

  /** From a day the next month lacks, "next" as written is the overflow into the month after. */
  lemma NextAsWrittenSpills(c: Dates.CivilDate)
    requires Dates.ValidDate(c)
    requires c.day > Dates.MonthLength(c.year, c.month + 1)
    ensures NavigateAsWritten(Dates.DayNumber(c.year, c.month, c.day), true)
            == Dates.DateDay(c.year, c.month + 2, c.day - Dates.MonthLength(c.year, c.month + 1))
  {
    AsWrittenKeepsDay(c, true);
    Dates.DateDaySpill(c.year, c.month + 1, c.day);
  }

  /** "Next" and "previous" as written keep the day of the month and move the month by one. */
  lemma AsWrittenKeepsDay(c: Dates.CivilDate, forward: bool)
    requires Dates.ValidDate(c)
    ensures NavigateAsWritten(Dates.DayNumber(c.year, c.month, c.day), forward)
            == Dates.DateDay(c.year, c.month + (if forward then 1 else -1), c.day)
  {
    Dates.CivilOfDayNumber(c);
  }

  /** From 31 January of any year, "next" as written shows March of that year. */
  lemma January31SkipsFebruary(y: int)
    ensures var r := Dates.CivilOf(NavigateAsWritten(Dates.DayNumber(y, 0, 31), true));
            r.year == y && r.month == 2
  {
    NextSkipsShortMonth(Dates.CivilDate(y, 0, 31));
  }

  /** `navigateMonth` moving to the adjacent month, the day clamped to that month's length. */
  function Navigate(current: int, forward: bool): (r: int)
    ensures var c := Dates.CivilOf(current);
            var t := Dates.CivilOf(r);
            12 * t.year + t.month == 12 * c.year + c.month + (if forward then 1 else -1)
            && t.day <= c.day
            && (t.day == c.day || t.day == Dates.MonthLength(c.year, c.month + (if forward then 1 else -1)))
  {
    var c := Dates.CivilOf(current);
    var m := c.month + (if forward then 1 else -1);
    var len := Dates.MonthLength(c.year, m);
    var day := if c.day <= len then c.day else len;
    Dates.DateDayCivil(c.year, m, day);
    Dates.DateDay(c.year, m, day)
  }

  /** `goToToday`: today becomes the current date, so the selected entry is today's. */
  function GoToToday(today: Dates.Instant): (r: int)
    ensures forall e :: IsSelected(e, r) <==> IsToday(e, today)
  {
    Dates.CivilDay(today)
  }
}

=== FILE: media.dfy ===
/** The media block of an event card on the home page and of the event detail
    page: a YouTube player, a plain video, an audio player, the picture or a
    placeholder. The player's source is the video URL rewritten to YouTube's
    embed form, followed by a `playlist` parameter meant to name the video so
    that `loop=1` takes effect. */
module Media {
  import opened Options
  import Text
  import Catalog

  const ShortHost: string := "youtu.be/"
  const EmbedHost: string := "youtube.com/embed/"
  const WatchQuery: string := "watch?v="
  const EmbedPath: string := "embed/"
  const PlayerParams: string := "?autoplay=1&mute=1&loop=1&playlist="

  predicate IsYouTube(video: string) {
    Text.Contains(video, "youtube.com") || Text.Contains(video, "youtu.be")
  }

  /** The two `replace` calls: a short link, then a watch link, turned into an
      embed path; a link with neither form is left as it is. */
  function EmbedBase(video: string): (r: string)
    ensures !Text.Contains(video, ShortHost) && !Text.Contains(video, WatchQuery) ==> r == video
  {
    Text.ReplaceFirst(Text.ReplaceFirst(video, ShortHost, EmbedHost), WatchQuery, EmbedPath)
  }

  /** `video.split('/').pop().split('?')[0]`: the last path segment, cut at the query. */
  function PlaylistAsWritten(video: string): (r: string)
    ensures '/' !in r && '?' !in r
  {
    var last := Text.AfterLast(video, '/');
    var r := Text.BeforeFirst(last, '?');
    assert forall i :: 0 <= i < |r| ==> r[i] == last[i];
    r
  }

  /** The player source exactly as the pages build it: the embed path, the
      player parameters, then a playlist value free of `/` and `?`. */
  function EmbedSrcAsWritten(video: string): (r: string)
    ensures |EmbedBase(video)| + |PlayerParams| <= |r|
    ensures r[..|EmbedBase(video)| + |PlayerParams|] == EmbedBase(video) + PlayerParams
    ensures '/' !in r[|EmbedBase(video)| + |PlayerParams|..] && '?' !in r[|EmbedBase(video)| + |PlayerParams|..]
  {
    var head := EmbedBase(video) + PlayerParams;
    var p := PlaylistAsWritten(video);
    assert (head + p)[..|head|] == head && (head + p)[|head|..] == p;
    head + p
  }

  /** The video id: the `v` parameter of a watch link, else the last path segment without its query. */
  function PlaylistId(video: string): string {
    match Text.IndexOf(video, WatchQuery)
    case Some(k) => Text.BeforeFirst(video[k + |WatchQuery|..], '&')
    case None => PlaylistAsWritten(video)
  }

  /** The player source with the video id as its playlist. */
  function EmbedSrc(video: string): string {
    EmbedBase(video) + PlayerParams + PlaylistId(video)
  }

  /** The four ways a card shows its media, and the placeholder. */
  datatype MediaBlock =
    | Player(src: string)
    | VideoFile(src: string)
    | AudioPlayer(src: string)
    | Picture(src: string)
    | NoMedia

  /** An optional string field that JavaScript treats as true: present and not empty. */
  predicate Truthy(field: Option<string>) {
    field.Some? && field.value != ""
  }

  /** The block a card shows for its optional `tipoMultimedia`, `video`, `audio`
      and `imagen` fields: a video type with a video wins, then an audio type
      with an audio, then the picture, else the "Sin multimedia" placeholder. */
  function ChooseMedia(tipo: Option<string>, video: Option<string>, audio: Option<string>, imagen: Option<string>): (m: MediaBlock)
    ensures m.Player? <==> tipo == Some("video") && Truthy(video) && IsYouTube(video.value)
    ensures m.Player? ==> m.src == EmbedSrcAsWritten(video.value)
    ensures m.VideoFile? <==> tipo == Some("video") && Truthy(video) && !IsYouTube(video.value)
    ensures m.VideoFile? ==> m.src == video.value
    ensures m.AudioPlayer? <==> !(tipo == Some("video") && Truthy(video)) && tipo == Some("audio") && Truthy(audio)
    ensures m.AudioPlayer? ==> m.src == audio.value
    ensures m.Picture? <==> !(tipo == Some("video") && Truthy(video)) && !(tipo == Some("audio") && Truthy(audio)) && Truthy(imagen)
    ensures m.Picture? ==> m.src == imagen.value
    ensures m.NoMedia? <==> !(tipo == Some("video") && Truthy(video)) && !(tipo == Some("audio") && Truthy(audio)) && !Truthy(imagen)
  {
    if tipo == Some("video") && Truthy(video) then
      if IsYouTube(video.value) then Player(EmbedSrcAsWritten(video.value)) else VideoFile(video.value)
    else if tipo == Some("audio") && Truthy(audio) then AudioPlayer(audio.value)
    else if Truthy(imagen) then Picture(imagen.value)
    else NoMedia
  }

  /** The same choice with the corrected player source; every other block is unchanged. */
  function ChooseMediaCorrected(tipo: Option<string>, video: Option<string>, audio: Option<string>, imagen: Option<string>): (m: MediaBlock)
    ensures m.Player? <==> ChooseMedia(tipo, video, audio, imagen).Player?
    ensures m.Player? ==> video.Some? && m.src == EmbedSrc(video.value)
    ensures !m.Player? ==> m == ChooseMedia(tipo, video, audio, imagen)
  {
    var m := ChooseMedia(tipo, video, audio, imagen);
    if m.Player? then Player(EmbedSrc(video.value)) else m
  }

  /** Every occurrence of the watch query puts a `?` five characters in. */
  lemma WatchQueryHasMark(s: string, k: nat)
    requires Text.OccursAt(s, WatchQuery, k)
    ensures k + 5 < |s| && s[k + 5] == '?'
  {
    assert s[k..k + |WatchQuery|][5] == s[k + 5];
  }

  /** A string without `?` contains no watch query. */
  lemma NoWatchWithoutQuery(s: string)
    requires '?' !in s
    ensures Text.IndexOf(s, WatchQuery) == None
  {
    var r := Text.IndexOf(s, WatchQuery);
    if r.Some? {
      WatchQueryHasMark(s, r.value);
      assert false;
    }
  }

  /** In a watch link whose host part has no `?`, the watch query starts right after that part. */
  lemma WatchQueryPosition(pre: string, id: string)
    requires '?' !in pre && '?' !in id
    ensures Text.IndexOf(pre + WatchQuery + id, WatchQuery) == Some(|pre|)
  {
    var s := pre + WatchQuery + id;
    assert Text.OccursAt(s, WatchQuery, |pre|) by {
      assert s[|pre|..|pre| + |WatchQuery|] == WatchQuery;
    }
    var r := Text.IndexOf(s, WatchQuery);
    assert r.Some?;
    var k := r.value;
    if k < |pre| {
      WatchQueryHasMark(s, k);
      assert false;
    }
  }

  /** The page's playlist for a watch link is the word "watch", never the video id. */
  lemma WatchLinkPlaylistAsWritten(pre: string, id: string)
    requires '/' !in id
    ensures PlaylistAsWritten(pre + "/" + WatchQuery + id) == "watch"
  {
    var tail := WatchQuery + id;
    assert '/' !in tail by {
      forall i | 0 <= i < |tail| ensures tail[i] != '/' {
        if i >= |WatchQuery| {
          assert tail[i] == id[i - |WatchQuery|];
        }
      }
    }
    assert pre + "/" + WatchQuery + id == pre + ['/'] + tail;
    Text.AfterLastSplit(pre, '/', tail);
    assert tail == "watch" + ['?'] + ("v=" + id);
    Text.BeforeFirstSplit("watch", '?', "v=" + id);
  }

  /** The corrected playlist of a watch link is its video id. */
  lemma WatchLinkPlaylist(pre: string, id: string)
    requires '?' !in pre && '?' !in id && '&' !in id
    ensures PlaylistId(pre + WatchQuery + id) == id
  {
    WatchQueryPosition(pre, id);
    var s := pre + WatchQuery + id;
    assert s[|pre| + |WatchQuery|..] == id;
    Text.SplitWithoutSeparator(id, '&');
  }

  /** On a short link both versions name the video: the last path segment. */
  lemma ShortLinkPlaylist(pre: string, id: string)
    requires '?' !in pre && '?' !in id && '/' !in id
    ensures PlaylistId(pre + "/" + id) == id
    ensures PlaylistAsWritten(pre + "/" + id) == id
  {
    var s := pre + "/" + id;
    assert '?' !in s;
    NoWatchWithoutQuery(s);
    assert s == pre + ['/'] + id;
    Text.AfterLastSplit(pre, '/', id);
    Text.SplitWithoutSeparator(id, '?');
  }

  /** A short link becomes an embed link. */
  lemma ShortLinkEmbed(pre: string, id: string)
    requires '?' !in pre && '?' !in id
    requires !Text.Contains(pre, ShortHost)
    ensures EmbedBase(pre + ShortHost + id) == pre + EmbedHost + id
  {
    var s := pre + ShortHost + id;
    assert Text.OccursAt(s, ShortHost, |pre|) by {
      assert s[|pre|..|pre| + |ShortHost|] == ShortHost;
    }
    forall j: nat | j < |pre| ensures !Text.OccursAt(s, ShortHost, j) {
      if j + |ShortHost| <= |pre| && Text.OccursAt(s, ShortHost, j) {
        assert pre[j..j + |ShortHost|] == s[j..j + |ShortHost|];
        assert Text.OccursAt(pre, ShortHost, j);
      } else if Text.OccursAt(s, ShortHost, j) {
        ShortHostStart(s, |pre|);
        ShortHostInside(s, j, |pre|);
      }
    }
    var t := pre + EmbedHost + id;
    assert s[..|pre|] + EmbedHost + s[|pre| + |ShortHost|..] == t;
    assert '?' !in t;
    NoWatchWithoutQuery(t);
  }

  /** An occurrence of the short host starts with its `y`, */
  lemma ShortHostStart(s: string, k: nat)
    requires Text.OccursAt(s, ShortHost, k)
    ensures s[k] == 'y'
  {
    assert s[k] == s[k..k + |ShortHost|][0];
  }

  /** and has no other `y`, so two occurrences never overlap. */
  lemma ShortHostInside(s: string, j: nat, k: nat)
    requires Text.OccursAt(s, ShortHost, j) && j < k < j + |ShortHost|
    ensures s[k] != 'y'
  {
    assert s[k] == s[j..j + |ShortHost|][k - j];
  }

  /** On a short link both player sources agree, so the corrected choice is the page's. */
  lemma ShortLinkSameMedia(tipo: Option<string>, pre: string, id: string, audio: Option<string>, imagen: Option<string>)
    requires '?' !in pre && '?' !in id && '/' !in id
    ensures ChooseMediaCorrected(tipo, Some(pre + "/" + id), audio, imagen) == ChooseMedia(tipo, Some(pre + "/" + id), audio, imagen)
  {
    ShortLinkPlaylist(pre, id);
  }

  /** The block a card shows for a catalogue record. A record never carries
      `tipoMultimedia`, `video` or `audio` (the schema drops undeclared keys), so
      the card shows the record's picture when it has one and the
      "Sin multimedia" placeholder when it has none. */
  function RecordMedia(e: Catalog.EventRecord): (m: MediaBlock)
    ensures m.Picture? <==> Truthy(e.imagen)
    ensures m.Picture? ==> m.src == e.imagen.value
    ensures !m.Picture? ==> m == NoMedia
  {
    ChooseMedia(None, None, None, e.imagen)
  }
}

=== FILE: month_calendar.dfy ===
/** The month grid of `src/components/Calendar.tsx`: a month of day cells with
    the personal calendar's entries counted on each, the navigation buttons and
    the panel listing the selected day's entries. The displayed month is a
    year and a month index 0..11; the selected date is a local day number.
    `today` is the instant of the render and `parse` is `new Date(fecha)`,
    `None` for an invalid date. */
module MonthCalendar {
  import opened Options
  import Seqs
  import Dates
  import CalendarStore

  /** `getEventsForDate`: the entries whose date falls on local day `day`, in
      store order; an unparsable date falls on no day. */
  function EventsOn(entries: seq<CalendarStore.CalendarEvent>, day: int, parse: string -> Option<int>)
    : (r: seq<CalendarStore.CalendarEvent>)
    ensures forall e :: e in r <==> e in entries && parse(e.fecha).Some? && Dates.CivilDay(parse(e.fecha).value) == day
    ensures Seqs.IsSubseq(r, entries)
    ensures forall e :: multiset(r)[e] == if parse(e.fecha).Some? && Dates.CivilDay(parse(e.fecha).value) == day
                                         then multiset(entries)[e] else 0
  {
    Seqs.Filter(entries, (e: CalendarStore.CalendarEvent) => parse(e.fecha).Some? && Dates.CivilDay(parse(e.fecha).value) == day)
  }

  /** An entry added to the calendar shows on the day of its date, and on no other day. */
  lemma AddedEntryShowsOnItsDay(entries: seq<CalendarStore.CalendarEvent>, e: CalendarStore.CalendarEvent,
                                parse: string -> Option<int>, day: int)
    requires !CalendarStore.IsInCalendar(entries, e.id)
    requires parse(e.fecha).Some?
    ensures e in EventsOn(CalendarStore.AddEvent(entries, e), day, parse) <==> day == Dates.CivilDay(parse(e.fecha).value)
  {
  }

  /** The displayed month and the selected day, if any. */
  datatype View = View(year: int, month: int, selected: Option<int>)

  predicate Valid(v: View) {
    0 <= v.month < 12
  }

  /** The year and month of `new Date(y, m, 1)`, as `getFullYear` and `getMonth` read them. */
  function MonthOfFirst(y: int, m: int): (r: Dates.YearMonth)
    ensures 0 <= r.month < 12
    ensures 12 * r.year + r.month == 12 * y + m
  {
    var c := Dates.CivilOf(Dates.DateDay(y, m, 1));
    Dates.DateDayCivil(y, m, 1);
    Dates.YearMonth(c.year, c.month)
  }

  /** The view on first render: the month of today, nothing selected. */
  function Open(today: Dates.Instant): (v: View)
    ensures Valid(v) && v.selected.None?
    ensures Dates.DayNumber(v.year, v.month, Dates.DateOf(today).day) == Dates.CivilDay(today)
  {
    var c := Dates.DateOf(today);
    View(c.year, c.month, None)
  }

  /** `goToPreviousMonth`: day 1 of the month before, the selection kept. */
  function PreviousMonth(v: View): (r: View)
    ensures Valid(r)
    ensures 12 * r.year + r.month == 12 * v.year + v.month - 1
    ensures r.selected == v.selected
  {
    var ym := MonthOfFirst(v.year, v.month - 1);
    View(ym.year, ym.month, v.selected)
  }

  /** `goToNextMonth`: day 1 of the month after, the selection kept. */
  function NextMonth(v: View): (r: View)
    ensures Valid(r)
    ensures 12 * r.year + r.month == 12 * v.year + v.month + 1
    ensures r.selected == v.selected
  {
    var ym := MonthOfFirst(v.year, v.month + 1);
    View(ym.year, ym.month, v.selected)
  }

  /** The two buttons undo each other. */
  lemma NextUndoesPrevious(v: View)
    requires Valid(v)
    ensures NextMonth(PreviousMonth(v)) == v
    ensures PreviousMonth(NextMonth(v)) == v
  {
    var back := NextMonth(PreviousMonth(v));
    Dates.MonthIndexUnique(back.year, back.month, v.year, v.month);
    var forth := PreviousMonth(NextMonth(v));
    Dates.MonthIndexUnique(forth.year, forth.month, v.year, v.month);
  }

  /** `goToToday`: today's month, with today selected. */
  function GoToToday(v: View, today: Dates.Instant): (r: View)
    ensures Valid(r)
    ensures r.selected == Some(Dates.CivilDay(today))
    ensures Dates.DayNumber(r.year, r.month, Dates.DateOf(today).day) == Dates.CivilDay(today)
  {
    var c := Dates.DateOf(today);
    View(c.year, c.month, Some(Dates.CivilDay(today)))
  }

  /** `handleDateClick(day)`: that day of the displayed month becomes the selection. */
  function ClickDay(v: View, day: int): (r: View)
    ensures r.year == v.year && r.month == v.month
    ensures r.selected == Some(Dates.DateDay(v.year, v.month, day))
  {
    View(v.year, v.month, Some(Dates.DateDay(v.year, v.month, day)))
  }

  /** `startingDayOfWeek`: the weekday of day 1, 0 being Sunday. */
  function StartingWeekday(y: int, m: int): (w: int)
    ensures 0 <= w < 7
  {
    Dates.WeekdayOfDay(Dates.DateDay(y, m, 1))
  }

  /** A day of the displayed month as its cell renders it: the count badge when
      it has entries, and whether it is today, selected or a weekend day. */
  datatype DayCell = DayCell(day: int, badge: Option<nat>, isToday: bool, isSelected: bool, isWeekend: bool)

  /** A grid cell: a greyed-out day of the previous month, or a day of this one. */
  datatype Cell = Leading(number: int) | Day(day: int)

  /** The rendering of day `d` of the displayed month. */
  function RenderDay(v: View, d: int, today: Dates.Instant, entries: seq<CalendarStore.CalendarEvent>,
                     parse: string -> Option<int>): (c: DayCell)
    ensures c.day == d
    ensures c.badge.Some? <==> exists e :: e in entries && parse(e.fecha).Some?
                                           && Dates.CivilDay(parse(e.fecha).value) == Dates.DateDay(v.year, v.month, d)
    ensures c.badge.Some? ==> c.badge.value == |EventsOn(entries, Dates.DateDay(v.year, v.month, d), parse)|
    ensures c.isToday <==> Dates.DateDay(v.year, v.month, d) == Dates.CivilDay(today)
    ensures c.isSelected <==> v.selected == Some(Dates.DateDay(v.year, v.month, d))
    ensures c.isWeekend <==> Dates.WeekdayOfDay(Dates.DateDay(v.year, v.month, d)) in {0, 6}
  {
    var date := Dates.DateDay(v.year, v.month, d);
    var here := EventsOn(entries, date, parse);
    assert |here| > 0 <==> exists e :: e in entries && parse(e.fecha).Some? && Dates.CivilDay(parse(e.fecha).value) == date by {
      if |here| > 0 {
        assert here[0] in here;
      }
    }
    var w := Dates.WeekdayOfDay(date);
    DayCell(d, if |here| > 0 then Some(|here|) else None, date == Dates.CivilDay(today),
            v.selected == Some(date), w == 0 || w == 6)
  }

  /** `renderDays`: `startingDayOfWeek` leading cells numbered up to the last day
      of the previous month, then the days 1 to `daysInMonth` of the displayed one. */
  function Grid(y: int, m: int): (r: seq<Cell>)
    requires 0 <= m < 12
    ensures |r| == StartingWeekday(y, m) + Dates.MonthLength(y, m)
    ensures forall i :: 0 <= i < StartingWeekday(y, m) ==>
              r[i] == Leading(Dates.MonthLength(y, m - 1) - StartingWeekday(y, m) + i + 1)
    ensures forall i :: StartingWeekday(y, m) <= i < |r| ==> r[i] == Day(i - StartingWeekday(y, m) + 1)
  {
    var start := StartingWeekday(y, m);
    var prevLast := Dates.LastDate(y, m - 1);
    var days := Dates.LastDate(y, m);
    Dates.LastDateIsLength(y, m - 1);
    Dates.LastDateIsLength(y, m);
    Cells(start, prevLast, days)
  }

  /** The grid never needs more than six rows of seven. */
  lemma GridFitsSixRows(y: int, m: int)
    requires 0 <= m < 12
    ensures |Grid(y, m)| <= 37 < 6 * 7
  {
  }

  /** `start` leading cells numbered up to `prevLast`, then the days 1 to `days`. */
  function Cells(start: nat, prevLast: int, days: nat): (r: seq<Cell>)
    ensures |r| == start + days
    ensures forall i :: 0 <= i < start ==> r[i] == Leading(prevLast - start + i + 1)
    ensures forall i :: start <= i < |r| ==> r[i] == Day(i - start + 1)
  {
    var leading := LeadingCells(start, prevLast);
    var current := DayCells(days);
    assert forall i :: 0 <= i < start ==> (leading + current)[i] == leading[i];
    assert forall i :: start <= i < start + days ==> (leading + current)[i] == current[i - start];
    leading + current
  }

  /** The `count` cells numbered up to `last`, in order. */
  function LeadingCells(count: nat, last: int): (r: seq<Cell>)
    ensures |r| == count
    ensures forall i :: 0 <= i < count ==> r[i] == Leading(last - count + i + 1)
  {
    seq(count, i requires 0 <= i < count => Leading(last - count + i + 1))
  }

  /** The cells numbered 1 to `n`. */
  function DayCells(n: nat): (r: seq<Cell>)
    ensures |r| == n
    ensures forall i :: 0 <= i < n ==> r[i] == Day(i + 1)
  {
    seq(n, i requires 0 <= i < n => Day(i + 1))
  }

  /** The day number of the grid position `i`, counting from the Sunday that opens the first row. */
  function PositionDay(y: int, m: int, i: int): int {
    Dates.DateDay(y, m, 1) - StartingWeekday(y, m) + i
  }

  /** Every cell is numbered with the day of the month of its own grid position:
      the leading cells are the last days of the previous month, the rest the
      days of the displayed one. */
  lemma GridShowsItsDates(y: int, m: int, i: int)
    requires 0 <= m < 12
    requires 0 <= i < |Grid(y, m)|
    ensures var c := Dates.CivilOf(PositionDay(y, m, i));
            match Grid(y, m)[i]
            case Leading(n) => c.day == n && 12 * c.year + c.month == 12 * y + m - 1
            case Day(d) => c.day == d && c.year == y && c.month == m
  {
    var start := StartingWeekday(y, m);
    if i < start {
      var d := Dates.MonthLength(y, m - 1) - start + i + 1;
      PositionInPreviousMonth(y, m, i, d);
    } else {
      PositionInMonth(y, m, i, i - start + 1);
    }
  }

  /** A position from the first day of the month on is day `d` of the month. */
  lemma PositionInMonth(y: int, m: int, i: int, d: int)
    requires 0 <= m < 12
    requires StartingWeekday(y, m) <= i < |Grid(y, m)|
    requires d == i - StartingWeekday(y, m) + 1
    ensures Grid(y, m)[i] == Day(d)
    ensures var c := Dates.CivilOf(PositionDay(y, m, i)); c.day == d && c.year == y && c.month == m
  {
    Dates.DateDayOffset(y, m, d);
    Dates.NormalizeValidMonth(y, m, d);
    Dates.DateDayCivil(y, m, d);
  }

  /** A leading position is day `d` of the previous month. */
  lemma PositionInPreviousMonth(y: int, m: int, i: int, d: int)
    requires 0 <= m < 12
    requires 0 <= i < StartingWeekday(y, m)
    requires d == Dates.MonthLength(y, m - 1) - StartingWeekday(y, m) + i + 1
    ensures PositionDay(y, m, i) == Dates.DateDay(y, m - 1, d)
    ensures Dates.CivilOf(PositionDay(y, m, i)).day == d
    ensures var c := Dates.CivilOf(PositionDay(y, m, i)); 12 * c.year + c.month == 12 * y + m - 1
  {
    Dates.NextMonthStart(y, m - 1);
    Dates.SameMonth(y, m - 1 + 1, y, m);
    Dates.DateDayCivil(y, m - 1, d);
  }

  /** The weekend days are exactly the day cells in the first and last columns. */
  lemma WeekendIsEdgeColumn(v: View, today: Dates.Instant, entries: seq<CalendarStore.CalendarEvent>,
                            parse: string -> Option<int>, i: int)
    requires Valid(v)
    requires 0 <= i < |Grid(v.year, v.month)| && Grid(v.year, v.month)[i].Day?
    ensures RenderDay(v, Grid(v.year, v.month)[i].day, today, entries, parse).isWeekend <==> i % 7 == 0 || i % 7 == 6
  {
    DayColumn(v.year, v.month, i);
  }

  /** A day cell in grid position `i` falls on weekday `i % 7`: the grid's columns are the weekdays. */
  lemma DayColumn(y: int, m: int, i: int)
    requires 0 <= m < 12
    requires 0 <= i < |Grid(y, m)| && Grid(y, m)[i].Day?
    ensures Dates.WeekdayOfDay(Dates.DateDay(y, m, Grid(y, m)[i].day)) == i % 7
  {
    DayCellDate(y, m, i);
    ColumnWeekday(Dates.DateDay(y, m, 1), i, PositionDay(y, m, i));
  }

  /** The day cell in grid position `i` is dated `i` days after the Sunday opening the grid. */
  lemma DayCellDate(y: int, m: int, i: int)
    requires 0 <= m < 12
    requires 0 <= i < |Grid(y, m)| && Grid(y, m)[i].Day?
    ensures Dates.DateDay(y, m, Grid(y, m)[i].day) == PositionDay(y, m, i)
  {
    var d := Grid(y, m)[i].day;
    assert d == i - StartingWeekday(y, m) + 1;
    Dates.DateDayOffset(y, m, d);
  }

  /** Counting from the Sunday before day number `first`, position `i` falls on weekday `i % 7`. */
  lemma ColumnWeekday(first: int, i: int, p: int)
    requires p == first + i - Dates.WeekdayOfDay(first)
    ensures Dates.WeekdayOfDay(p) == i % 7
  {
    var start := Dates.WeekdayOfDay(first);
    var q := (first + 4) / 7;
    assert first + 4 == 7 * q + start;
    assert p + 4 == 7 * q + i;
  }

  /** The panel under the grid once a day is selected. */
  datatype Panel = NoPanel | DayEvents(events: seq<CalendarStore.CalendarEvent>) | NoEventsMessage

  function SelectedPanel(v: View, entries: seq<CalendarStore.CalendarEvent>, parse: string -> Option<int>): (p: Panel)
    ensures p.NoPanel? <==> v.selected.None?
    ensures p.DayEvents? ==> |p.events| > 0 && p.events == EventsOn(entries, v.selected.value, parse)
    ensures p.NoEventsMessage? <==> v.selected.Some? && |EventsOn(entries, v.selected.value, parse)| == 0
  {
    match v.selected
    case None => NoPanel
    case Some(day) =>
      var here := EventsOn(entries, day, parse);
      if |here| > 0 then DayEvents(here) else NoEventsMessage
  }

  /** Clicking a day with a badge lists as many entries as the badge counts;
      clicking one without lists none. */
  lemma PanelMatchesBadge(v: View, d: int, today: Dates.Instant, entries: seq<CalendarStore.CalendarEvent>,
                          parse: string -> Option<int>)
    ensures var badge := RenderDay(v, d, today, entries, parse).badge;
            var panel := SelectedPanel(ClickDay(v, d), entries, parse);
            (badge.Some? ==> panel.DayEvents? && |panel.events| == badge.value)
            && (badge.None? ==> panel.NoEventsMessage?)
  {
  }
}

=== FILE: options.dfy ===
/** The optional value used for JavaScript's `undefined`/`null` results:
    a missing object key, an unparsable date, a failed `find`. */
module Options {

  datatype Option<+T> = None | Some(value: T)
}

=== FILE: rewards.dfy ===
/** The rewards store of `src/store/rewards.ts`: a points balance, a cash
    balance, a most-recent-first history and the set of events already
    rewarded for sharing. The store is in memory only (no persistence). Each
    store method is a function from the state before to the state after;
    `crypto.randomUUID()` is the `freshId` parameter. Amounts are exact reals
    (JavaScript numbers without rounding). */
module Rewards {

  datatype EntryKind = PointsEntry | CashEntry | PurchaseEntry

  datatype HistoryEntry = HistoryEntry(id: string, kind: EntryKind, amount: real, caption: string)

  datatype RewardState = RewardState(
    points: real,
    cashEarned: real,
    history: seq<HistoryEntry>,
    sharedEvents: set<string>)

  /** The state the store is created with. Its 255 points are not the sum of its
      two history entries (100 + 5): the ledger starts out of balance by 150. */
  function Initial(): RewardState {
    RewardState(
      255.0,
      50000.0,
      [ HistoryEntry("h1", PointsEntry, 100.0, "Asististe al festival de Cali 22"),
        HistoryEntry("h2", PointsEntry, 5.0, "Compartiste evento en redes sociales") ],
      {})
  }

  /** The sum of the history amounts that move `points`: earned points and (negative) purchases. */
  function PointsMoved(h: seq<HistoryEntry>): real {
    if |h| == 0 then 0.0
    else (if h[0].kind == CashEntry then 0.0 else h[0].amount) + PointsMoved(h[1..])
  }

  /** The sum of the history amounts that move `cashEarned`. */
  function CashMoved(h: seq<HistoryEntry>): real {
    if |h| == 0 then 0.0
    else (if h[0].kind == CashEntry then h[0].amount else 0.0) + CashMoved(h[1..])
  }

  /** How far `points` is from the sum its history accounts for. Every store
      method keeps it, so `points` always equals that sum plus this constant. */
  function PointsDrift(s: RewardState): real {
    s.points - PointsMoved(s.history)
  }

  function CashDrift(s: RewardState): real {
    s.cashEarned - CashMoved(s.history)
  }

  /** `addPoints(amt, label)`. */
  function AddPoints(s: RewardState, amt: real, caption: string, freshId: string): (r: RewardState)
    ensures r.points == s.points + amt
    ensures r.history == [HistoryEntry(freshId, PointsEntry, amt, caption)] + s.history
    ensures r.cashEarned == s.cashEarned && r.sharedEvents == s.sharedEvents
    ensures PointsDrift(r) == PointsDrift(s) && CashDrift(r) == CashDrift(s)
  {
    var entry := HistoryEntry(freshId, PointsEntry, amt, caption);
    assert ([entry] + s.history)[1..] == s.history;
    s.(points := s.points + amt, history := [entry] + s.history)
  }

  /** `addCash(amt, label)`. */
  function AddCash(s: RewardState, amt: real, caption: string, freshId: string): (r: RewardState)
    ensures r.cashEarned == s.cashEarned + amt
    ensures r.history == [HistoryEntry(freshId, CashEntry, amt, caption)] + s.history
    ensures r.points == s.points && r.sharedEvents == s.sharedEvents
    ensures PointsDrift(r) == PointsDrift(s) && CashDrift(r) == CashDrift(s)
  {
    var entry := HistoryEntry(freshId, CashEntry, amt, caption);
    assert ([entry] + s.history)[1..] == s.history;
    s.(cashEarned := s.cashEarned + amt, history := [entry] + s.history)
  }

  function PurchaseLabel(eventName: string): string {
    "Entrada comprada: " + eventName
  }

  /** The boolean `purchaseWithPoints` returns together with the state it leaves. */
  datatype Purchase = Purchase(ok: bool, state: RewardState)

  /** `purchaseWithPoints(pointsCost, eventName)`: the balance check and the
      deduction happen in one synchronous step. */
  function PurchaseWithPoints(s: RewardState, cost: real, eventName: string, freshId: string): (r: Purchase)
    ensures r.ok <==> s.points >= cost
    ensures !r.ok ==> r.state == s
    ensures r.ok ==> r.state.points == s.points - cost
    ensures r.ok ==> r.state.history == [HistoryEntry(freshId, PurchaseEntry, -cost, PurchaseLabel(eventName))] + s.history
    ensures r.state.cashEarned == s.cashEarned && r.state.sharedEvents == s.sharedEvents
    ensures s.points >= 0.0 ==> r.state.points >= 0.0
    ensures PointsDrift(r.state) == PointsDrift(s) && CashDrift(r.state) == CashDrift(s)
  {
    if s.points >= cost then
      var entry := HistoryEntry(freshId, PurchaseEntry, -cost, PurchaseLabel(eventName));
      assert ([entry] + s.history)[1..] == s.history;
      Purchase(true, s.(points := s.points - cost, history := [entry] + s.history))
    else
      Purchase(false, s)
  }

  /** `canEarnPointsForShare(eventId)`: no state change; true exactly when
      marking the event as shared would record something new. */
  function CanEarnPointsForShare(s: RewardState, eventId: string): (r: bool)
    ensures r <==> s.sharedEvents + {eventId} != s.sharedEvents
  {
    eventId !in s.sharedEvents
  }

  /** `markEventAsShared(eventId)`. */
  function MarkEventAsShared(s: RewardState, eventId: string): (r: RewardState)
    ensures r.sharedEvents == s.sharedEvents + {eventId}
    ensures r.points == s.points && r.cashEarned == s.cashEarned && r.history == s.history
    ensures !CanEarnPointsForShare(r, eventId)
  {
    s.(sharedEvents := s.sharedEvents + {eventId})
  }

  /** Marking twice is marking once. */
  lemma MarkIdempotent(s: RewardState, eventId: string)
    ensures MarkEventAsShared(MarkEventAsShared(s, eventId), eventId) == MarkEventAsShared(s, eventId)
  {
  }

  /** The initial ledger: points exceed their history by 150, cash by all of its 50000. */
  lemma InitialDrift()
    ensures PointsDrift(Initial()) == 150.0
    ensures CashDrift(Initial()) == 50000.0
  {
    var h := Initial().history;
    assert h[1..][1..] == [];
    assert PointsMoved(h) == 105.0;
    assert CashMoved(h) == 0.0;
  }

  /** One call of a store method, with the id `crypto.randomUUID()` would return. */
  datatype Call =
    | AddPointsCall(amt: real, caption: string, freshId: string)
    | AddCashCall(amt: real, caption: string, freshId: string)
    | PurchaseCall(cost: real, eventName: string, freshId: string)
    | CanEarnCall(eventId: string)
    | MarkSharedCall(eventId: string)

  function Step(s: RewardState, c: Call): RewardState {
    match c
    case AddPointsCall(amt, caption, freshId) => AddPoints(s, amt, caption, freshId)
    case AddCashCall(amt, caption, freshId) => AddCash(s, amt, caption, freshId)
    case PurchaseCall(cost, name, freshId) => PurchaseWithPoints(s, cost, name, freshId).state
    case CanEarnCall(_) => s
    case MarkSharedCall(eventId) => MarkEventAsShared(s, eventId)
  }

  function Run(s: RewardState, calls: seq<Call>): RewardState
    decreases |calls|
  {
    if |calls| == 0 then s else Run(Step(s, calls[0]), calls[1..])
  }

  /** After any sequence of calls, `points` and `cashEarned` still differ from
      their history sums by what they did before the calls, and no shared event
      is ever forgotten. From the initial state: `points` is the history sum plus 150. */
  lemma {:induction false} LedgerInvariant(s: RewardState, calls: seq<Call>)
    ensures PointsDrift(Run(s, calls)) == PointsDrift(s)
    ensures CashDrift(Run(s, calls)) == CashDrift(s)
    ensures s.sharedEvents <= Run(s, calls).sharedEvents
    decreases |calls|
  {
    if |calls| > 0 {
      LedgerInvariant(Step(s, calls[0]), calls[1..]);
    }
  }

  lemma LedgerFromInitial(calls: seq<Call>)
    ensures Run(Initial(), calls).points == PointsMoved(Run(Initial(), calls).history) + 150.0
  {
    InitialDrift();
    LedgerInvariant(Initial(), calls);
  }

  /** Purchases never take a non-negative balance below zero, whatever the costs. */
  lemma {:induction false} BalanceStaysNonNegative(s: RewardState, calls: seq<Call>)
    requires s.points >= 0.0
    requires forall i :: 0 <= i < |calls| && calls[i].AddPointsCall? ==> calls[i].amt >= 0.0
    ensures Run(s, calls).points >= 0.0
    decreases |calls|
  {
    if |calls| > 0 {
      BalanceStaysNonNegative(Step(s, calls[0]), calls[1..]);
    }
  }
}

=== FILE: seqs.dfy ===
/** Sequence operations the stores and views share: JavaScript's `filter`,
    `slice(0, n)` and the add-or-remove toggle used by every list-valued store. */
module Seqs {

  /** `a` is `b` with some elements deleted: the elements of `a` occur in `b` in the same order. */
  ghost predicate IsSubseq<T>(a: seq<T>, b: seq<T>)
    decreases |b|
  {
    |a| == 0 || (|b| > 0 && ((a[0] == b[0] && IsSubseq(a[1..], b[1..])) || IsSubseq(a, b[1..])))
  }

  /** No element occurs twice. */
  ghost predicate NoDup<T>(xs: seq<T>) {
    forall i, j :: 0 <= i < j < |xs| ==> xs[i] != xs[j]
  }

  /** Every earlier element stands in `rel` to every later one. */
  ghost predicate Pairwise<T>(xs: seq<T>, rel: (T, T) -> bool) {
    forall i, j :: 0 <= i < j < |xs| ==> rel(xs[i], xs[j])
  }

  /** `Array.prototype.filter`: the elements satisfying `p`, in their original order. */
  function Filter<T(!new)>(xs: seq<T>, p: T -> bool): (r: seq<T>)
    ensures |r| <= |xs|
    ensures forall x :: x in r <==> x in xs && p(x)
    ensures IsSubseq(r, xs)
    ensures forall x :: multiset(r)[x] == if p(x) then multiset(xs)[x] else 0
    decreases |xs|
  {
    if |xs| == 0 then []
    else
      assert xs == [xs[0]] + xs[1..];
      if p(xs[0]) then [xs[0]] + Filter(xs[1..], p)
      else Filter(xs[1..], p)
  }

  /** `Array.prototype.slice(0, n)`: the first `n` elements, or all of them when there are fewer. */
  function Take<T>(xs: seq<T>, n: nat): (r: seq<T>)
    ensures |r| <= n && r <= xs
    ensures |xs| <= n ==> r == xs
    ensures n <= |xs| ==> |r| == n
  {
    if |xs| <= n then xs else xs[..n]
  }

  /** The add-or-remove toggle shared by the favourites and filter stores:
      every copy of `x` is removed when present, `x` is appended when absent. */
  function Toggle<T(==,!new)>(xs: seq<T>, x: T): (r: seq<T>)
    ensures forall y :: y in r <==> if y == x then x !in xs else y in xs
    ensures x in xs ==> IsSubseq(r, xs)
    ensures x in xs ==> forall y :: multiset(r)[y] == if y == x then 0 else multiset(xs)[y]
  {
    if x in xs then Filter(xs, y => y != x) else xs + [x]
  }

  lemma {:induction false} SubseqTrans<T>(a: seq<T>, b: seq<T>, c: seq<T>)
    requires IsSubseq(a, b) && IsSubseq(b, c)
    ensures IsSubseq(a, c)
    decreases |c|
  {
    if |a| == 0 {
    } else if b[0] == c[0] && IsSubseq(b[1..], c[1..]) {
      if a[0] == b[0] && IsSubseq(a[1..], b[1..]) {
        SubseqTrans(a[1..], b[1..], c[1..]);
      } else {
        SubseqTrans(a, b[1..], c[1..]);
      }
    } else {
      SubseqTrans(a, b, c[1..]);
    }
  }

  lemma {:induction false} PrefixIsSubseq<T>(a: seq<T>, b: seq<T>)
    requires a <= b
    ensures IsSubseq(a, b)
    decreases |b|
  {
    if |a| > 0 {
      assert a[0] == b[0];
      PrefixIsSubseq(a[1..], b[1..]);
    }
  }

  /** A capped filter is still an order-preserving selection from the source,
      of elements satisfying the predicate. */
  lemma TakeFilterIsSubseq<T(!new)>(xs: seq<T>, p: T -> bool, n: nat)
    ensures IsSubseq(Take(Filter(xs, p), n), xs)
    ensures forall x :: x in Take(Filter(xs, p), n) ==> x in xs && p(x)
  {
    var t := Take(Filter(xs, p), n);
    PrefixIsSubseq(t, Filter(xs, p));
    SubseqTrans(t, Filter(xs, p), xs);
    forall x | x in t ensures x in xs && p(x) {
      var i :| 0 <= i < |t| && t[i] == x;
      assert Filter(xs, p)[i] == x;
    }
  }

  lemma {:induction false} FilterAppend<T(!new)>(a: seq<T>, b: seq<T>, p: T -> bool)
    ensures Filter(a + b, p) == Filter(a, p) + Filter(b, p)
    decreases |a|
  {
    if |a| == 0 {
      assert a + b == b;
    } else {
      var h := if p(a[0]) then [a[0]] else [];
      assert a == [a[0]] + a[1..] && a + b == [a[0]] + (a[1..] + b);
      FilterCons(a[0], a[1..], p);
      FilterCons(a[0], a[1..] + b, p);
      FilterAppend(a[1..], b, p);
      AppendAssoc(h, Filter(a[1..], p), Filter(b, p));
    }
  }

  /** Concatenation is associative. */
  lemma AppendAssoc<T>(x: seq<T>, y: seq<T>, z: seq<T>)
    ensures x + (y + z) == (x + y) + z
  {
  }

  /** Filtering a list handles its head, then its tail. */
  lemma FilterCons<T(!new)>(x: T, ys: seq<T>, p: T -> bool)
    ensures Filter([x] + ys, p) == (if p(x) then [x] else []) + Filter(ys, p)
  {
    assert ([x] + ys)[0] == x && ([x] + ys)[1..] == ys;
  }

  /** A kept element sits in the filtered list right after the kept elements before it. */
  lemma FilterPosition<T(!new)>(xs: seq<T>, p: T -> bool, i: nat)
    requires i < |xs| && p(xs[i])
    ensures |Filter(xs[..i], p)| < |Filter(xs, p)|
    ensures Filter(xs, p)[|Filter(xs[..i], p)|] == xs[i]
  {
    assert xs == xs[..i] + ([xs[i]] + xs[i + 1..]);
    FilterAppend(xs[..i], [xs[i]] + xs[i + 1..], p);
    assert Filter([xs[i]] + xs[i + 1..], p) == [xs[i]] + Filter(xs[i + 1..], p);
  }

  /** Every element of a filtered list comes from a kept element of the source,
      preceded there by exactly as many kept elements as precede it in the result. */
  lemma FilterSource<T(!new)>(xs: seq<T>, p: T -> bool, j: nat) returns (i: nat)
    requires j < |Filter(xs, p)|
    ensures i < |xs| && xs[i] == Filter(xs, p)[j]
    ensures p(xs[i]) && |Filter(xs[..i], p)| == j
  {
    KeptBeforeCounts(xs, p, |xs|);
    assert xs[..|xs|] == xs;
    i := KeptCrossing(xs, p, j);
    KeptBeforeCounts(xs, p, i);
    KeptBeforeCounts(xs, p, i + 1);
    SourceAt(xs, p, i, j);
  }

  /** How many of the first `i` elements `p` keeps. */
  ghost function KeptBefore<T>(xs: seq<T>, p: T -> bool, i: nat): nat
    requires i <= |xs|
  {
    if i == 0 then 0 else KeptBefore(xs, p, i - 1) + (if p(xs[i - 1]) then 1 else 0)
  }

  /** The first position whose prefix, with it, keeps more than `j` elements. */
  lemma KeptCrossing<T>(xs: seq<T>, p: T -> bool, j: nat) returns (i: nat)
    requires j < KeptBefore(xs, p, |xs|)
    ensures i < |xs| && KeptBefore(xs, p, i) <= j < KeptBefore(xs, p, i + 1)
  {
    i := 0;
    while KeptBefore(xs, p, i + 1) <= j
      invariant i < |xs| && KeptBefore(xs, p, i) <= j
      decreases |xs| - i
    {
      i := i + 1;
    }
  }

  /** That count is the length of the filtered prefix. */
  lemma {:induction false} KeptBeforeCounts<T(!new)>(xs: seq<T>, p: T -> bool, i: nat)
    requires i <= |xs|
    ensures KeptBefore(xs, p, i) == |Filter(xs[..i], p)|
  {
    if i == 0 {
      EmptyPrefixKeepsNone(xs, p);
    } else {
      KeptBeforeCounts(xs, p, i - 1);
      KeptBeforeStep(xs, p, i);
    }
  }

  lemma EmptyPrefixKeepsNone<T(!new)>(xs: seq<T>, p: T -> bool)
    ensures KeptBefore(xs, p, 0) == |Filter(xs[..0], p)| == 0
  {
    assert xs[..0] == [];
  }

  /** The inductive step of `KeptBeforeCounts`. */
  lemma KeptBeforeStep<T(!new)>(xs: seq<T>, p: T -> bool, i: nat)
    requires 0 < i <= |xs| && KeptBefore(xs, p, i - 1) == |Filter(xs[..i - 1], p)|
    ensures KeptBefore(xs, p, i) == |Filter(xs[..i], p)|
  {
    assert KeptBefore(xs, p, i) == KeptBefore(xs, p, i - 1) + (if p(xs[i - 1]) then 1 else 0);
    FilterStep(xs, p, i - 1);
  }

  /** The element at that position is kept, and it is element `j` of the result. */
  lemma SourceAt<T(!new)>(xs: seq<T>, p: T -> bool, i: nat, j: nat)
    requires i < |xs| && |Filter(xs[..i], p)| <= j < |Filter(xs[..i + 1], p)|
    ensures p(xs[i]) && |Filter(xs[..i], p)| == j
    ensures j < |Filter(xs, p)| && Filter(xs, p)[j] == xs[i]
  {
    FilterStep(xs, p, i);
    FilterPosition(xs, p, i);
  }

  /** One more element of the source adds one kept element when it is kept, none otherwise. */
  lemma FilterStep<T(!new)>(xs: seq<T>, p: T -> bool, i: nat)
    requires i < |xs|
    ensures |Filter(xs[..i + 1], p)| == |Filter(xs[..i], p)| + (if p(xs[i]) then 1 else 0)
  {
    assert xs[..i + 1] == xs[..i] + [xs[i]];
    FilterAppend(xs[..i], [xs[i]], p);
  }

  lemma {:induction false} FilterExt<T(!new)>(xs: seq<T>, p: T -> bool, q: T -> bool)
    requires forall x :: x in xs ==> p(x) == q(x)
    ensures Filter(xs, p) == Filter(xs, q)
    decreases |xs|
  {
    if |xs| > 0 {
      assert xs[0] in xs;
      FilterExt(xs[1..], p, q);
    }
  }

  /** Two filters in a row are one filter by the conjunction `both`. */
  lemma {:induction false} FilterFilter<T(!new)>(xs: seq<T>, p: T -> bool, q: T -> bool, both: T -> bool)
    requires forall x :: both(x) == (p(x) && q(x))
    ensures Filter(Filter(xs, p), q) == Filter(xs, both)
    decreases |xs|
  {
    if |xs| > 0 {
      FilterFilter(xs[1..], p, q, both);
      if p(xs[0]) {
        assert ([xs[0]] + Filter(xs[1..], p))[1..] == Filter(xs[1..], p);
      }
    }
  }

  lemma {:induction false} FilterKeepsAll<T(!new)>(xs: seq<T>, p: T -> bool)
    requires forall x :: x in xs ==> p(x)
    ensures Filter(xs, p) == xs
    decreases |xs|
  {
    if |xs| > 0 {
      assert xs[0] in xs;
      FilterKeepsAll(xs[1..], p);
    }
  }

  lemma FilterKeepsNoDup<T(!new)>(xs: seq<T>, p: T -> bool)
    requires NoDup(xs)
    ensures NoDup(Filter(xs, p))
  {
    var distinct := (a: T, b: T) => a != b;
    assert Pairwise(xs, distinct);
    FilterKeepsPairwise(xs, p, distinct);
  }

  /** Filtering keeps any pairwise relation, since it keeps the relative order. */
  lemma {:induction false} FilterKeepsPairwise<T(!new)>(xs: seq<T>, p: T -> bool, rel: (T, T) -> bool)
    requires Pairwise(xs, rel)
    ensures Pairwise(Filter(xs, p), rel)
    decreases |xs|
  {
    if |xs| > 0 {
      var rest := Filter(xs[1..], p);
      PairwiseTail(xs, rel);
      FilterKeepsPairwise(xs[1..], p, rel);
      assert xs == [xs[0]] + xs[1..];
      FilterCons(xs[0], xs[1..], p);
      if p(xs[0]) {
        forall y | y in rest ensures rel(xs[0], y) {
          var k :| 0 <= k < |xs[1..]| && xs[1..][k] == y;
          assert xs[1..][k] == xs[k + 1];
        }
        PairwiseCons(xs[0], rest, rel);
      }
    }
  }

  /** A pairwise relation holds on the tail of a list. */
  lemma PairwiseTail<T>(xs: seq<T>, rel: (T, T) -> bool)
    requires |xs| > 0 && Pairwise(xs, rel)
    ensures Pairwise(xs[1..], rel)
  {
    forall i, j | 0 <= i < j < |xs[1..]| ensures rel(xs[1..][i], xs[1..][j]) {
      assert xs[1..][i] == xs[i + 1] && xs[1..][j] == xs[j + 1];
    }
  }

  /** A head related to every later element extends a pairwise list. */
  lemma PairwiseCons<T>(x: T, ys: seq<T>, rel: (T, T) -> bool)
    requires Pairwise(ys, rel) && forall y :: y in ys ==> rel(x, y)
    ensures Pairwise([x] + ys, rel)
  {
    var r := [x] + ys;
    forall i, j | 0 <= i < j < |r| ensures rel(r[i], r[j]) {
      assert r[j] == ys[j - 1];
      if i > 0 {
        assert r[i] == ys[i - 1];
      }
    }
  }

  /** Toggling keeps a duplicate-free list duplicate-free. */
  lemma ToggleKeepsNoDup<T(!new)>(xs: seq<T>, x: T)
    requires NoDup(xs)
    ensures NoDup(Toggle(xs, x))
  {
    if x in xs {
      FilterKeepsNoDup(xs, y => y != x);
    } else {
      var r := xs + [x];
      forall i, j | 0 <= i < j < |r| ensures r[i] != r[j] {
        if j == |xs| {
          assert r[i] == xs[i];
        } else {
          assert r[i] == xs[i] && r[j] == xs[j];
        }
      }
    }
  }

  /** Toggling an absent value twice gives back exactly the original list. */
  lemma ToggleTwiceRestores<T(!new)>(xs: seq<T>, x: T)
    requires x !in xs
    ensures Toggle(Toggle(xs, x), x) == xs
  {
    assert x in xs + [x];
    FilterAppend(xs, [x], y => y != x);
    FilterKeepsAll(xs, y => y != x);
    assert Filter([x], y => y != x) == [];
  }
}

=== FILE: text.dfy ===
/** The string operations of JavaScript the views rely on: case mapping,
    `includes`, `replace` with a string pattern, and `split(c)` picks. */
module Text {
  import opened Options

  /** `toLowerCase` on one character, for the Basic Latin and Latin-1 letters
      (A-Z and À-Þ except ×), which cover the Spanish alphabet. */
  function LowerChar(c: char): char {
    if 'A' <= c <= 'Z' || ('\U{C0}' <= c <= '\U{DE}' && c != '\U{D7}') then (c as int + 32) as char else c
  }

  /** `toUpperCase` on one character, the inverse mapping of `LowerChar` (a-z and à-þ except ÷). */
  function UpperChar(c: char): char {
    if 'a' <= c <= 'z' || ('\U{E0}' <= c <= '\U{FE}' && c != '\U{F7}') then (c as int - 32) as char else c
  }

  /** `toUpperCase` on one character, which may give two: exact on Basic Latin
      and Latin-1, where ß becomes "SS", µ the Greek capital mu and ÿ the Latin
      capital Y with diaeresis, outside Latin-1. */
  function Upper(c: char): (r: string)
    ensures |r| == if c == '\U{DF}' then 2 else 1
    ensures c == '\U{DF}' ==> r == "SS"
    ensures c != '\U{DF}' && c != '\U{B5}' && c != '\U{FF}' ==> r == [UpperChar(c)]
    ensures |r| == 1 && r[0] != c && c != '\U{B5}' && c != '\U{FF}' ==> LowerChar(r[0]) == c
  {
    if c == '\U{DF}' then "SS"
    else if c == '\U{B5}' then ['\U{39C}']
    else if c == '\U{FF}' then ['\U{178}']
    else [UpperChar(c)]
  }

  /** Upper-casing undoes lower-casing on the upper-case Basic Latin and Latin-1 letters. */
  lemma UpperUndoesLower(c: char)
    requires 'A' <= c <= 'Z' || ('\U{C0}' <= c <= '\U{DE}' && c != '\U{D7}')
    ensures Upper(LowerChar(c)) == [c]
  {
  }

  function Lower(s: string): (r: string)
    ensures |r| == |s|
    ensures forall i :: 0 <= i < |s| ==> r[i] == LowerChar(s[i])
  {
    seq(|s|, i requires 0 <= i < |s| => LowerChar(s[i]))
  }

  /** `pat` occurs in `s` starting at index `k`. */
  predicate OccursAt(s: string, pat: string, k: nat) {
    k + |pat| <= |s| && s[k..k + |pat|] == pat
  }

  /** `indexOf(pat, from)`: the first occurrence of `pat` at or after `from`. */
  function IndexFrom(s: string, pat: string, from: nat): (r: Option<nat>)
    ensures r.Some? ==> from <= r.value && OccursAt(s, pat, r.value)
    ensures r.Some? ==> forall k :: from <= k < r.value ==> !OccursAt(s, pat, k)
    ensures r.None? ==> forall k :: from <= k ==> !OccursAt(s, pat, k)
    decreases |s| - from
  {
    if from + |pat| > |s| then None
    else if s[from..from + |pat|] == pat then Some(from)
    else IndexFrom(s, pat, from + 1)
  }

  function IndexOf(s: string, pat: string): Option<nat> {
    IndexFrom(s, pat, 0)
  }

  /** `s.includes(sub)`. */
  predicate Contains(s: string, sub: string) {
    IndexOf(s, sub).Some?
  }

  /** `s.replace(pat, rep)` with a string pattern: only the first occurrence is replaced. */
  function ReplaceFirst(s: string, pat: string, rep: string): (r: string)
    ensures !Contains(s, pat) ==> r == s
    ensures forall k: nat :: OccursAt(s, pat, k) && (forall j: nat :: j < k ==> !OccursAt(s, pat, j)) ==>
              r == s[..k] + rep + s[k + |pat|..]
  {
    match IndexOf(s, pat)
    case None => s
    case Some(k) => s[..k] + rep + s[k + |pat|..]
  }

  /** `s.split(c).pop()`: what follows the last `c`, or all of `s` when `c` does not occur. */
  function AfterLast(s: string, c: char): (r: string)
    ensures c !in r
    ensures |r| <= |s| && r == s[|s| - |r|..]
    ensures r == s || s[|s| - |r| - 1] == c
  {
    if |s| == 0 then []
    else if s[|s| - 1] == c then []
    else AfterLast(s[..|s| - 1], c) + [s[|s| - 1]]
  }

  /** `s.split(c)[0]`: what precedes the first `c`, or all of `s` when `c` does not occur. */
  function BeforeFirst(s: string, c: char): (r: string)
    ensures c !in r
    ensures r <= s
    ensures r == s || s[|r|] == c
  {
    if |s| == 0 then []
    else if s[0] == c then []
    else [s[0]] + BeforeFirst(s[1..], c)
  }

  /** What follows the last `c` is the tail after any `c` it does not contain. */
  lemma {:induction false} AfterLastSplit(a: string, c: char, b: string)
    requires c !in b
    ensures AfterLast(a + [c] + b, c) == b
    decreases |b|
  {
    var s := a + [c] + b;
    if |b| == 0 {
      assert s[|s| - 1] == c;
    } else {
      var b' := b[..|b| - 1];
      assert s[..|s| - 1] == a + [c] + b';
      assert c !in b' by {
        forall i | 0 <= i < |b'| ensures b'[i] != c {
          assert b'[i] == b[i];
        }
      }
      AfterLastSplit(a, c, b');
      assert b == b' + [b[|b| - 1]];
    }
  }

  /** What precedes the first `c` is any head not containing it. */
  lemma {:induction false} BeforeFirstSplit(a: string, c: char, b: string)
    requires c !in a
    ensures BeforeFirst(a + [c] + b, c) == a
    decreases |a|
  {
    var s := a + [c] + b;
    if |a| == 0 {
      assert s[0] == c;
    } else {
      assert s[0] == a[0];
      assert s[1..] == a[1..] + [c] + b;
      assert c !in a[1..] by {
        forall i | 0 <= i < |a[1..]| ensures a[1..][i] != c {
          assert a[1..][i] == a[i + 1];
        }
      }
      BeforeFirstSplit(a[1..], c, b);
    }
  }

  /** A string without `c` is its own `split(c)[0]` and `split(c).pop()`. */
  lemma {:induction false} SplitWithoutSeparator(s: string, c: char)
    requires c !in s
    ensures BeforeFirst(s, c) == s && AfterLast(s, c) == s
  {
  }
}
